=== FILE: README.md ===
# Transcript pipeline model

A Dafny model of the row-level transcript logic of a game-dialogue emotion
pipeline. The pipeline scrapes chapter transcripts into CSV files, edits them,
splits each chapter's CSV and WAV into aligned parts, and classifies each part
with a language model. A transcript is a sequence of rows `(chapter_index,
chapter, dialogue_index, line_index, speaker, line)`; speaker and line are
optional because pandas reads an empty cell as NaN.

The model covers five pieces of the system:

- **Position ranges** (`transcript.dfy`). The lexicographic comparison on
  `(dialogue_index, line_index)` is shared by deletions and splits. Deletion
  ranges are closed at both ends. Split ranges read an end of `(-1, -1)` as
  "to the end of the chapter".
- **The editor** (`editor.dfy`, for `editor.py`). It covers range deletion,
  removal of narrator rows and prefixing of gibberish lines. It also covers the
  `line_index` renumbering of inserted files, at the level of CSV cells and at
  the level of rows, and the order in which the stages run.
- **The splitter** (`splitter.dfy`). It covers clock strings, cut points in
  milliseconds, CSV slicing by range, the last-rule-wins reading of rules, and
  the pairing of CSV and WAV files by stem.
- **The classifier's bookkeeping** (`classifier.dfy`). It covers:
  - reading the stem and part from a file stem;
  - the inner join of the two split listings;
  - split selection and iteration over a pair;
  - the prompt text;
  - the left join of the reply onto the rows;
  - the final sort;
  - chapter selection;
  - the script's numeric ordering of chapters and the run it drives.
- **The scraper's pure parts** (`scraper.dfy`). These are the file-name
  sanitiser, the naming of chapter files, and the older whole-directory
  editor with its own stage order, both as written and as intended.

Supporting modules:

- `wrappers.dfy`: `Option` and `Result`.
- `text.dfy`: decimal strings, Python's `int()` on strings, `split`/`join`,
  ASCII lower-casing, and string ordering.
- `paths.dfy`: `pathlib`'s `stem`.
- `seqs.dfy`: filter and concatenation lemmas.
- `sorting.dfy`: a stable insertion sort on integer-sequence keys.

Things the code touches but cannot be modelled become parameters:

- file contents: rows per file name, audio length per file name;
- the language model's reply;
- Unicode NFKD normalisation: the sanitiser takes the normalised title.

Where the code and its documentation disagree, the model follows the code:

- `csv_mp3_split_pairs` lists pairs in stem *string* order (pandas
  `groupby`). The script then orders the chapters numerically by the integer
  before the first underscore of the name (`order_fn`). It raises
  `ValueError` for a chapter whose name does not start with one.
- A deletion rule without a `ranges` key raises `KeyError` as soon as a file
  it names is edited.
- A split rule without a `ranges` key, or without a `timestamps` key, raises
  `KeyError` in the stage that reads that key. This happens even when the rule
  only meant to carry the other key.
- A split rule with an empty range list writes no CSV at all. An empty
  timestamp list writes one whole-file MP3.
- `editor.py` matches a deletion rule when the rule's `source` equals the
  file name *with* its extension. The older editor in `scraper.py` appends
  `.csv` to the source itself.
- `prep_dialogue` sorts the frame in place, so the reply is joined onto the
  sorted rows.

## Model

| member | source | states |
|---|---|---|
| Transcript.PosLeTotalOrder | editor.py:92-98 | The position test `d < d' or (d == d' and l <= l')` is a total order: reflexive, total, antisymmetric and transitive |
| Transcript.ToSplitRange | splitter.py:69-84 | A rule range becomes a split range with the same start; its end is open exactly when it is `(-1, -1)` and is otherwise the written end |
| Transcript.SplitAgreesWithDeleteOffSentinel | splitter.py:73-84 | For any end other than `(-1, -1)`, the split mask selects exactly the positions the editor's deletion mask (editor.py:92-98) selects |
| Transcript.SplitSentinelIsSuffix | splitter.py:77-79 | With the `(-1, -1)` end, a split selects every position at or after the start |
| Transcript.SentinelDeletesNothing | editor.py:96-97 | A deletion range ending at `(-1, -1)` matches no position with a non-negative dialogue index, although the same range splits off the rest of the chapter |
| Editor.Deletes | editor.py:87-102 | A row survives exactly when no range holds its position, both bounds inclusive; no row is added |
| Editor.DeletesNoRanges | editor.py:88-101 | Deleting with an empty range list is the identity |
| Editor.DeletesKeepsOrder | editor.py:101 | Survivors keep their relative order: deleting from a concatenation is the concatenation of the deletions |
| Editor.DeletesUnion | editor.py:90-99 | Deleting by the ranges `a + b` equals deleting by `a` and then by `b`: several ranges act as a union of removals |
| Editor.DeletesOrderIndependent | editor.py:91-99 | The order in which ranges are listed does not change the result |
| Editor.SentinelRangeDeletesNothing | editor.py:96-97 | On rows with non-negative dialogue indices, a range ending at `(-1, -1)` deletes nothing |
| Editor.DeleteNarrator | editor.py:104-105 | Keeps exactly the rows whose speaker is not exactly "narrator" (case-sensitive; a missing speaker is kept) |
| Editor.DeleteNarratorKeepsOrder | editor.py:105 | Narrator removal keeps the order of the remaining rows |
| Editor.PrefixGibberish | editor.py:107-127 | A line changes exactly when the speaker is listed or contains a class token in any case, the line is present, and the line does not already contain the prefix in any case. A changed line is the prefix followed by the old line, and every other field and row is unchanged |
| Editor.PrefixedLineHasPrefix | editor.py:124 | A line that starts with the prefix fails the "not yet prefixed" test |
| Editor.PrefixGibberishIdempotent | editor.py:120-126 | Prefixing twice is prefixing once |
| Editor.PrefixCommutesWithFilter | editor.py:75-83 | Prefixing commutes with any row filter that ignores the line text, such as narrator removal and range deletion |
| Editor.RunLengthCountsRun | editor.py:49-55 | The loop's counter at a row is how many rows directly before it share its dialogue key, and the row before that run has a different key |
| Editor.LineNumbersCountRuns | editor.py:42-58 | The numbers the insertion loop produces satisfy the independent run-counting definition of the line index |
| Editor.RunNumberingUnique | editor.py:42-58 | At most one numbering counts runs, so the loop's numbering is determined by the keys alone |
| Editor.RunNumberingUnderInjection | editor.py:49-50 | Comparing the keys as strings instead of as numbers gives the same numbering, as long as equal strings mean equal numbers and back |
| Editor.InsertAtColumn3Fields | editor.py:47 | `row.insert(3, x)` puts `x` at column 3 (or at the end of a shorter row) and keeps every other field in order |
| Editor.CountLines | editor.py:42-58 | The loop's counter, run over the dialogue keys, gives the run-counting line numbers |
| Editor.InsertColumn | editor.py:44-58 | The header gets "line_index" at column 3 and each data row gets its line number at column 3; the row count is kept |
| Editor.InsertLineIndex | editor.py:28-60 | The file is written exactly when every data row has a dialogue-index cell. Otherwise IndexError is raised at the first short row. When written, the row count is kept, the header gets "line_index" at column 3, and each data row gets its run-counting line number at column 3 |
| Editor.Renumber | editor.py:44-58 | The row-level renumbering changes only the line index, and the new indices count runs of rows whose dialogue field `row[2]` has the same text |
| Editor.RenumberBySpelledDials | editor.py:49-55 | When every dialogue field is the decimal spelling of its dialogue index, the line indices count runs of equal dialogue indices |
| Editor.PaddedFieldStartsRun | editor.py:49-52 | Dialogue fields "5" then "05" both start a run (line indices 0 and 0), although both rows are dialogue 5, because the fields are compared as text |
| Editor.TableNumberingMatchesRows | editor.py:49-57 | When each data row's third field is the row's dialogue field, the CSV-level loop and the row-level renumbering give the same line numbers |
| Editor.ApplyDeleteRulesIsUnion | editor.py:69-73 | Running every rule whose source names the file, in rule order, deletes the union of all their ranges. The run raises `KeyError('ranges')` exactly when such a rule has no `ranges` |
| Editor.EditChapter | editor.py:62-85 | A chapter is edited exactly when every rule naming it has `ranges`; otherwise `KeyError` is raised. The result keeps the name. Output row `i` is the `i`-th input row that lies in no matching range and, unless narrators are kept, is not a narrator row. That row is passed through the gibberish prefix unless gibberish is kept. No output row lies in a matching range, no narrator row is left when narrators are removed, and every gibberish line is prefixed when prefixing runs |
| Editor.EditAll | editor.py:62-85 | Every raw chapter is edited and written under its own name. The stage raises `KeyError` exactly when a rule naming some chapter has no `ranges` |
| Editor.WriteInserts | editor.py:28-60 | The loop succeeds exactly when every listed insert file exists. Each insert is written under its own name with its rows renumbered by the text of their dialogue fields, replacing a file of that name. Every other file is unchanged |
| Editor.WriteInsertsError | editor.py:29-34 | The loop stops at the first insert whose file is missing, and the error names that file |
| Editor.EditorMain | editor.py:18-26 | The run succeeds exactly when every raw chapter's rules have `ranges` and every insert file exists. The output holds exactly the raw chapters and the inserts. A chapter that no insert replaces holds exactly what `EditChapter` gives it. Inserts are written last, so an insert replaces an edited chapter of the same name. An insert holds its own rows renumbered, and its line indices count runs of equal dialogue-field text: it is never deleted from, never loses narrator rows and is never prefixed |
| Editor.EditorMainError | editor.py:18-26 | A missing `ranges` key is raised before any insert is read. Otherwise the error names the first missing insert file |
| Splitter.TimeToSeconds | splitter.py:136-146 | Succeeds exactly when there are two or three `:`-separated fields and `int` reads every one, skipping only the whitespace it skips at either end of a field; otherwise it raises for that string |
| Splitter.TimeOfTwoFields | splitter.py:139-141 | Two readable fields `m, s` give `m * 60 + s` |
| Splitter.TimeOfThreeFields | splitter.py:142-144 | Three readable fields `h, m, s` give `h * 3600 + m * 60 + s` |
| Splitter.TimeOfOtherFieldCount | splitter.py:145-146 | Any other field count raises ValueError |
| Splitter.TimeFieldSeparator | splitter.py:136-146 | A timestamp whose first field starts with U+001C raises, because `int` does not skip that character |
| Splitter.TimeFieldLeadingSpace | splitter.py:136-146 | A first field led by any character `int` skips, such as a no-break space, is read as the field without it |
| Splitter.SecondsToTime | splitter.py:148-154 | The result is "MM:SS", both fields two digits in 0..59 |
| Splitter.TimeRoundTrip | splitter.py:148-154 | Parsing a formatted time gives the seconds within the hour: hours are dropped |
| Splitter.TimeRoundTripWithinHour | splitter.py:136-154 | For `0 <= x < 3600`, parsing the formatted time gives `x` back |
| Splitter.MsToSeconds | splitter.py:125-126 | `int(ms / 1000)` rounds toward zero to whole seconds |
| Splitter.ParseTimes | splitter.py:104 | All timestamps of a rule are read, or the first unreadable one raises |
| Splitter.LastMatch | splitter.py:60-63 | Finds the last rule whose source is the stem, and no other |
| Splitter.CollectFails | splitter.py:60-63 | Reading the rules fails exactly when some rule for the stem lacks a readable value, even if a later rule would override it |
| Splitter.CollectLastWins | splitter.py:60-63 | When the read succeeds, the last matching rule's value is used, and there is none when no rule matches |
| Splitter.LastRanges | splitter.py:60-63 | The CSV stage fails exactly when some rule for the stem has no `ranges`; otherwise it uses the last rule's ranges, or none when no rule matches |
| Splitter.LastTimestamps | splitter.py:100-104 | The WAV stage fails exactly when some rule for the stem has unreadable or missing timestamps; otherwise it uses the last rule's, or none |
| Splitter.SplitCsv | splitter.py:56-93 | The CSV stage raises exactly when some rule for the stem has no `ranges`. With no rule for the stem the file is copied whole under its own name. Otherwise there is one part per range of the last such rule, part `i` is named `<stem>_<i>` and holds the slice of the rows for range `i` |
| Splitter.SplitWav | splitter.py:95-134 | The WAV stage raises exactly when some rule for the stem has missing or unreadable timestamps. Otherwise the parts start at 0, end at the audio length and follow each other without gap. With no rule the whole file is one part. With `n > 0` timestamps there are `n + 1` parts and part `i` ends at timestamp `i` in milliseconds |
| Splitter.SplitPair | splitter.py:46-54 | One pair succeeds exactly when the CSV stage and the WAV stage both succeed. A CSV error is raised first, and on success the pair's outputs are exactly the two stages' outputs |
| Splitter.Slice | splitter.py:69-86 | A slice holds exactly the rows from the start on and, unless the end is `(-1, -1)`, up to the end |
| Splitter.SliceKeepsOrder | splitter.py:86 | A slice keeps the order of the original rows |
| Splitter.SliceFromStartTakesAll | splitter.py:77-79 | An open-ended range starting at or before every row takes the whole file |
| Splitter.SlicesTileRows | splitter.py:67-86 | The ranges tile ordered rows when the first starts at or before every row, each range but the last is closed and ends before the next starts, no row falls between two ranges, and the last is open-ended. Then the slices concatenate back to exactly the rows |
| Splitter.CsvPartsRoundTrip | splitter.py:65-89 | The CSV parts written for tiling ranges concatenate back to the transcript |
| Splitter.CsvParts | splitter.py:65-93 | With a rule there is one slice per range, slice `i` named `{stem}_{i}`; with no rule the one file `{stem}` is copied as it is |
| Splitter.WavParts | splitter.py:108-134 | With no timestamps there is one whole-file part. Otherwise there are `len(timestamps) + 1` parts named `{stem}_{i}`. The first part starts at 0, the last ends at the audio length, each ends where the next starts, and part `i` ends at `timestamps[i] * 1000` |
| Splitter.WavPartsCoverAudio | splitter.py:113-119 | When the cut points ascend and fall within the audio, every part is an interval inside the audio and the parts' lengths add up to the audio length |
| Splitter.WavsFor | splitter.py:37-42 | The inner loop collects the WAV files with the CSV's stem, in WAV listing order |
| Splitter.CsvWavEditPairs | splitter.py:30-44 | The nested loop yields the CSV-major pair listing |
| Splitter.EditPairsMembers | splitter.py:36-42 | A pair is produced exactly for each CSV and WAV with equal stems |
| Splitter.EditPairsSnoc | splitter.py:36-42 | CSV-major order: the pairs of one more CSV follow all pairs of the CSVs before it |
| Splitter.SplitterMain | splitter.py:46-54 | Every pair is split in order, CSV then WAV. The run succeeds exactly when every pair does, and each output is that pair's split |
| Splitter.SliceCountUnchecked | splitter.py:56-134 | A rule with two ranges and no timestamps gives two CSV slices but one audio file: nothing checks that the counts agree |
| Classifier.DropFinalNewline | classifier.py:276 | `$` also matches just before a final line feed, which is dropped |
| Classifier.SplitStem | classifier.py:276-292 | A matched stem splits at its last underscore into a non-empty head and a digit suffix; an unmatched stem is kept whole with part 0 |
| Classifier.SplitStemOfMatch | classifier.py:276-292 | Every `<head>_<digits>` stem, with or without a final line feed, is read as that head and those digits (the greedy `.+`) |
| Classifier.SplitStemOfPartName | classifier.py:280-286 | A part written by the splitter as `{stem}_{i}` is read back as `stem` and `i` |
| Classifier.ListFiles | classifier.py:275-294 | One entry per file, in listing order, with the stem and part read from the file's stem |
| Classifier.DistinctStems | classifier.py:299-300 | The group keys are every stem once, in ascending string order |
| Classifier.PathsOf | classifier.py:299-300 | A group is non-empty exactly when some file has the stem, and holds exactly the paths of the files with that stem |
| Classifier.PathsOfInListingOrder | classifier.py:299-300 | The group's paths are those of the listing filtered by stem, in listing order, which the positional `zip` of `Pair.__iter__` (classifier.py:224) relies on |
| Classifier.CommonStems | classifier.py:302-308 | The inner join keeps exactly the stems present in both listings, in ascending order |
| Classifier.CsvMp3SplitPairs | classifier.py:296-318 | An empty listing raises (no `stem` column); otherwise the pairs are the inner join of the grouped listings |
| Classifier.PairsByStem | classifier.py:302-316 | There is a pair for a stem exactly when both listings have that stem |
| Classifier.PairsOrderedAndComplete | classifier.py:302-316 | Pairs come in strictly ascending stem order, so no stem has two; each pair holds all CSV and all MP3 files of its stem |
| Classifier.KeepSplits | classifier.py:187-199 | A chapter with one split is left alone. Otherwise the result holds exactly the splits whose stem ends with a requested index |
| Classifier.KeepSplitsAppend | classifier.py:193-196 | Requests are served in order: the selection for `a + b` is that for `a` followed by that for `b` |
| Classifier.KeepSplitsSuffixQuirk | classifier.py:195 | Index 1 also selects split 11 |
| Classifier.KeepOnlySplits | classifier.py:214-216 | Both sides of a pair are narrowed with the same indices |
| Classifier.Iter | classifier.py:223-224 | Iteration yields `(i, csv_i, mp3_i)` for `i` below the shorter of the two split lists |
| Classifier.IterMatchesLen | classifier.py:223-227 | Iteration visits `len(pair)` splits exactly when there are no more MP3 than CSV splits, and never more than either count |
| Classifier.SortDialogue | classifier.py:411 | The rows are a permutation of the input, sorted by chapter, dialogue and line index |
| Classifier.RowIdSplits | classifier.py:414 | The id splits back at its underscore into the dialogue and line index |
| Classifier.RowIdInjective | classifier.py:414 | Rows with the same id have the same position |
| Classifier.RecordStartsWithId | classifier.py:415 | A record is the row's id up to its first blank |
| Classifier.PrepDialogue | classifier.py:407-417 | The prompt text is produced exactly when every row has a speaker and a line; otherwise the join raises |
| Classifier.PrepDialogueLines | classifier.py:411-417 | With no line feeds in the cells, the prompt text has one record per row in sorted order, joined by line feeds |
| Classifier.CheckComplete | classifier.py:461-464 | A reply is accepted exactly when its finish reason is "stop" |
| Classifier.MergeResponse | classifier.py:468-480 | Left join on id: every row once, in order; a row has scores exactly when its id is a reply key, and then it has that key's scores |
| Classifier.MergeKeepsRows | classifier.py:472-479 | Dropping the scores gives back exactly the transcript rows |
| Classifier.MergeEmptyResponse | classifier.py:472-478 | An empty reply scores no row |
| Classifier.MergeIgnoresOtherKeys | classifier.py:472-478 | Reply keys that are no row's id do not affect the join |
| Classifier.MergeConcat | classifier.py:472-478 | The join works row by row |
| Classifier.ClassifySplit | classifier.py:336-345 | A split is classified exactly when every row has a speaker and a line and the reply finishes with "stop". Otherwise the join raises, or the incomplete reply is reported with its finish reason. The result holds the CSV's rows sorted by chapter, dialogue and line. Each row carries the reply's scores for its id when the reply has that key, and none otherwise |
| Classifier.ClassifySplits | classifier.py:334-347 | The loop succeeds exactly when every visited split is classified. Chunk `k` is then exactly what classifying split `k` gives (its sorted rows, each with the reply's scores for its id), so there is one chunk per split. The loop raises only what classifying a split raises |
| Classifier.WriteOrder | classifier.py:501-502 | The written rows are a permutation of all chunks' rows, sorted by dialogue and line index |
| Classifier.WriteOrderOfOrdered | classifier.py:501-502 | Chunks already in order are written as they are |
| Classifier.WriteOrderRows | classifier.py:501 | The output has as many rows as all chunks together |
| Classifier.ClassifyPair | classifier.py:332-350 | A pair's output exists exactly when the iteration visits at least one split and `ClassifySplit` succeeds on every visited split. With no split to visit, `pd.concat` raises `ValueError` (classifier.py:501). A failing split's error is passed on. The output is a permutation of all classified chunks' rows, sorted by dialogue and line index. Every scored row that classifying any visited split gives is in the output, as often as that split gives it |
| Classifier.NarrowedPairs | classifier.py:385-391 | The pairs of one dict entry are exactly the pairs with that chapter name, narrowed to the entry's splits; there are none exactly when the name is unknown |
| Classifier.SelectSplitsAsWritten | classifier.py:384-396 | As written, the dict branch fails with an unbound `chapt` exactly when some entry names an unknown chapter |
| Classifier.UnknownChapterRaises | classifier.py:393-394 | One entry naming no chapter raises as written, and selects nothing as intended |
| Classifier.SelectSplits | classifier.py:384-396 | As intended, the selection holds exactly the narrowed pairs of every entry that names a chapter |
| Classifier.SelectSplitsAgree | classifier.py:384-396 | When every entry names a chapter, the code as written and as intended agree |
| Classifier.SetChaptersAsWritten | classifier.py:353-405 | As written, a non-empty dict goes through the failing dict branch; every other selection behaves as intended |
| Classifier.SetChapters | classifier.py:353-405 | An empty selection raises ValueError, as does one of another type. A list keeps exactly the pairs named in it. A dict keeps exactly the pairs named by its entries, each narrowed to its entry's splits; unknown names select nothing |
| Classifier.UnknownNameIgnored | classifier.py:379-380 | A listed name that is no chapter changes nothing (it only logs a warning) |
| Classifier.SetChaptersOneName | classifier.py:370-377 | A list of one name keeps exactly that chapter's pairs, whole and in order |
| Classifier.SetChaptersNamesAppend | classifier.py:370-380 | Names are served in list order: the selection for `a + b` is that for `a` followed by that for `b` |
| Classifier.SetChaptersOneEntry | classifier.py:384-391 | A dict of one entry keeps exactly that chapter's pairs, in order, each narrowed to the entry's splits |
| Classifier.SelectSplitsAppend | classifier.py:384-396 | Entries are served in dict order: the selection for `a + b` is that for `a` followed by that for `b` |
| Classifier.SetChaptersEntriesAppend | classifier.py:384-396 | The same holds for `set_chapters` on non-empty dicts |
| Classifier.ClassifierMain | classifier.py:325-351 | Every pair is classified in order under its chapter name. The run succeeds exactly when every pair does, and raises only what classifying a pair raises |
| Classifier.AuxEntries | classifier.py:513-515 | The chooser is offered every pair's chapter, in pair order, with the indices `0 .. n-1` of its `n` CSV splits |
| Classifier.OrderKey | classifier.py:517 | The key is `int` of the text before the first underscore, or of the whole name when it has none, and is absent exactly when `int` raises on that text |
| Classifier.OrderKeyOfNumbered | classifier.py:517 | A name `<n>_<title>` gets the key `n` |
| Classifier.OrderKeyOfUnnumbered | classifier.py:517 | A name that starts with a letter has no key, because `int` raises on it |
| Classifier.SortByOrderKey | classifier.py:517-518 | Sorting succeeds exactly when every name has a key, and otherwise raises for the first name without one. The result is a permutation of the entries in ascending key order, and entries already in key order are left as they are |
| Classifier.SelectSplitsInKeyOrder | classifier.py:384-396 | Entries in key order select pairs whose chapters are in key order |
| Classifier.ClassifyChoice | classifier.py:520-534 | No choice, or an empty one, classifies nothing. A "no" answer classifies nothing. Otherwise the chapters are classified in ascending key order. A `ValueError` from the sort names a chapter without a key |
| Classifier.ClassifyChoiceAsIntended | classifier.py:523-532 | When every chosen chapter exists and has a key, the run classifies exactly what the corrected `set_chapters` selects from the choice in key order |
| Classifier.ClassifyRun | classifier.py:507-534 | An empty split directory raises before anything else. A successful run had a key for every chapter. A "no" answer classifies nothing. The output chapters are in ascending key order |
| Classifier.AuxEntriesUnkeyed | classifier.py:513-518 | Sorting the chooser's chapters raises for the first chapter, in stem order, that has no key |
| Classifier.ClassifyRunUnnumberedChapter | classifier.py:507-518 | A chapter name without a leading number stops the script before the chooser is shown. The error names the first such chapter |
| Scraper.CollapseSpacesChars | scraper.py:151 | After the run-collapsing substitution no whitespace is left; on cleaned text only letters, digits, `-` and `_` remain |
| Scraper.FileNameSafe | scraper.py:144-153 | The sanitised name has at most 255 characters, all ASCII letters, digits, `-` or `_` |
| Scraper.FileNameSafeFixes | scraper.py:146-153 | A name of letters, digits, `-` and `_` of at most 255 characters passes unchanged |
| Scraper.FileNameSafeIdempotent | scraper.py:146-153 | Sanitising a sanitised name changes nothing |
| Scraper.FileNameSafeJoinsWords | scraper.py:149-153 | Leading and trailing whitespace is dropped, and the whitespace run between two words becomes one underscore |
| Scraper.ChapterFileName | scraper.py:133 | The file's stem is `{page_ix}_{safe title}`; its first underscore follows the page index, which the name starts with |
| Scraper.ChapterFileNameInjective | scraper.py:133 | Different page indices give different file names, whatever the titles |
| Scraper.ScrapedFileNames | scraper.py:47-57 | Page `i` of a run is written as `{i}_{safe title}.csv`, and no two pages of a run share a file |
| Scraper.LegacyDeletes | scraper.py:215-236 | The run succeeds exactly when every rule's `{source}.csv` exists and every rule has `ranges`. It keeps the set of files |
| Scraper.LegacyDeletesError | scraper.py:216-220 | The run stops at the first rule whose file is missing or which has no `ranges`. For that rule a missing file is reported, by name, before a missing key |
| Scraper.LegacyDeletesIsUnion | scraper.py:216-236 | Each file loses the union of the ranges of every rule naming it, with the same closed, sentinel-free test as `editor.py` |
| Scraper.LegacyEditorMainAsWritten | scraper.py:160-258 | As written, the run succeeds exactly when every rule applies, every insert file exists, and both narrator removal and gibberish prefixing are switched off. Either of those stages reads the `edits` directory as a CSV and raises. The result holds the old files and the inserts |
| Scraper.LegacyEditorMainAsWrittenError | scraper.py:160-179 | As written, the first failure wins: a rule that does not apply, then the `edits` directory in narrator removal, then a missing insert, then the `edits` directory in gibberish prefixing |
| Scraper.LegacyEditorMain | scraper.py:160-179 | As intended, with entries that are not files passed over, the run succeeds exactly when every rule applies and every insert file exists. The result holds the old files and the inserts |
| Scraper.EditsDirectoryRaises | scraper.py:239-242 | With every file present, running either whole-directory stage makes the run as written raise on the `edits` directory, while the intended run succeeds. With both stages off the two versions agree |
| Scraper.LegacyEditorMainError | scraper.py:160-179 | As intended, a rule that does not apply is reported before a missing insert |
| Scraper.LegacyChapterMatchesEditor | scraper.py:165-177 | As intended, a chapter that no insert replaces ends as the per-file editor of `editor.py` leaves it, with `.csv` added to each rule's source |
| Scraper.LegacyInsertIsPrefixed | scraper.py:172-177 | As intended, inserts run before gibberish prefixing here, so an inserted file is renumbered and, unless gibberish is kept, prefixed |
| Text.ParseIntOfString | splitter.py:138 | `int()` reads back the decimal text of every integer |
| Text.ParseIntDigits | splitter.py:138 | `int()` reads any non-empty run of ASCII digits, leading zeros included, as its decimal value |
| Text.ParseIntStrips | splitter.py:138 | `int()` skips, at both ends, exactly tab, line feed, vertical tab, form feed, carriage return, space and the non-ASCII characters `str.isspace()` accepts (U+0085, U+00A0, U+1680, U+2000 to U+200A, U+2028, U+2029, U+202F, U+205F, U+3000), and reads what is left as a signed number. The information separators U+001C to U+001F are not skipped |
| Text.ParseIntRejectsSeparator | splitter.py:138 | A U+001C before digits is whitespace to `str.strip()`, yet `int()` raises on it |
| Text.ParseIntSkipsNoBreakSpace | splitter.py:138 | A no-break space before digits is skipped by `int()`, which reads the digits' value |
| Text.ParseIntOfLetter | classifier.py:517 | `int()` raises on text that starts with a lower-case letter, whatever follows |
| Text.ParseIntNegative | splitter.py:138 | `int()` reads a minus sign followed by digits as the negated value of the digits |
| Text.SplitJoin | splitter.py:138 | `str.split` on a separator undoes joining parts that do not contain it |
| Paths.StemOfFileName | splitter.py:38 | The stem of `base.ext` is `base` |
| Sorting.SortBy | classifier.py:502 | The sort returns a permutation of its input, sorted by the key |
| Sorting.SortByOfSorted | classifier.py:502 | An already sorted input is returned as it is, as a stable sort does |

## Left out

- The curses chapter-selection UI, the Streamlit/Plotly viewer, `prep_for_dashboard.py`, `main.py` and `helpers.py`: user interface, scripts and constants with no row-level logic.
- HTTP fetching and HTML parsing in the scraper's `Parser` (`load_page`, `main`, `get_title`, `next_page_link`, `parse_dialogues`): network and a parsed HTML tree. Only the page counter and the output name are modelled.
- The OpenAI call (`authorize`, `prompt_model`, `prep_audio`): the reply is a parameter, and only its `finish_reason == "stop"` test is modelled (`CheckComplete`).
- Audio decoding, slicing and MP3 export with pydub: only the integer cut points and the audio length are modelled.
- Unicode NFKD normalisation: `FileNameSafe` takes the normalised title. Dropping non-ASCII characters is modelled.
- File I/O, directory listing, `delete_existing_files`, `mkdir`, JSON and CSV parsing: rows and file names are inputs. CSV cells are strings where the code compares strings (`_inserts`) and parsed integers elsewhere.
- `write()` with no chapter title names the file after the current date and time: a clock.
- `write_outputs` file names, built from the current time, and the JSON dump of replies.
- Emotion scores are floats: they are an opaque type parameter, and nothing is said about their sum.
- `Chapter.type` and `__repr__` feed only logging. The script's `print` and `pprint` output is left out.
- The script builds the classifier, which lists the split directories, and then lists them again for the chooser. The model lists them once, because nothing changes them in between.
- Editor.Renumber: the row-level renumbering does not model the IndexError on a short CSV row, because every insert row carries a dialogue field. `Editor.InsertLineIndex` models that error at the level of CSV cells.
- Editor.WriteInserts: works on insert rows, each of which carries a dialogue field, so the IndexError that a short CSV row raises (editor.py:49, scraper.py:202) is not modelled there. `Editor.InsertLineIndex` models it on CSV cells.
- Splitter.WavParts: pydub's clamping of slice bounds is not modelled. For cut points that decrease or lie outside the audio, the model's parts may be reversed or extend past the audio, and `WavPartsCoverAudio` promises nothing about them.
- Sorting.SortBy: stability is shown only for an already sorted input (`SortByOfSorted`). pandas' multi-key sort is stable, and equal keys in a transcript mean equal positions.
- Splitter.SecondsToTime: takes whole seconds. The float `ms / 1000` of the log line is modelled separately by `MsToSeconds` with exact rational truncation, so no float rounding is modelled.
- Classifier.ClassifyRun: the curses UI is the parameter `choose`, which receives the sorted chapter entries and returns a dict or nothing. The `y`/`n` prompt is the boolean `proceed`. Reading the API key is left out.
- Text.ParseInt: Python's `int()` also accepts non-ASCII decimal digits. The model accepts ASCII digits, one optional sign and single underscores between digits, surrounded by the whitespace `IsIntSpace` lists.
- `Text.Strip` models `str.strip()` on ASCII whitespace only. The file-name sanitiser strips after dropping every non-ASCII character, so nothing else reaches it there.
- Partial output before an error: every stage returns either its whole output or the error it raises, never both. The files written before the error stay in the directory: chapters already edited (editor.py:85), pairs already split (splitter.py:49-53), chapters already classified (classifier.py:350) and files already rewritten by earlier delete rules (scraper.py:236). The model does not say what they hold.
- A rule without a `source` key: `Editor.DeleteRule` and `Splitter.SplitRule` always have a source. In the code, a rule missing the key raises `KeyError('source')` when it is first compared with a file name (editor.py:70, splitter.py:61, splitter.py:103, scraper.py:217). The model covers only a missing `ranges` or `timestamps` key.
- Case-insensitive matching (`str.contains(case=False)`) is modelled with ASCII case folding only.

## Findings

| source | as written | input that shows it | evidently intended | confidence | as-written member | corrected member |
|---|---|---|---|---|---|---|
| scraper.py:239-242 | The legacy editor's narrator removal (and likewise gibberish prefixing, scraper.py:255-258) reads every entry of the CSV directory with `pd.read_csv`. That includes the `edits` directory holding the rule file, and reading it raises | Any run of the legacy editor with `keep_narrator` or `keep_gibberish` False | Pass over entries that are not CSV files | high; not executed | Scraper.LegacyEditorMainAsWritten | Scraper.LegacyEditorMain |
| classifier.py:394 | The warning for an unknown chapter in the dict branch of `set_chapters` formats `chapt`, a name bound only by the list branch, so it raises UnboundLocalError | `set_chapters({"no-such-chapter": [0]})` with no pair of that name | Log a warning naming the chapter (`chapter`) and continue, as the list branch does | high; not executed | Classifier.UnknownChapterRaises | Classifier.SetChapters |

=== FILE: classifier.dfy ===
/** The bookkeeping of classifier.py around the model call: reading stems and
    part numbers off the split files, pairing CSV and MP3 splits by stem,
    choosing chapters and splits, serialising the transcript for the prompt,
    joining the keyed response back onto the rows and ordering the output.
    The model call itself is a parameter, and emotion scores are an opaque
    type `E`. */
module Classifier {
  import opened Wrappers
  import opened Text
  import opened Seqs
  import opened Paths
  import opened Sorting
  import opened Transcript
  import Splitter

  /** What the classifier raises. */
  datatype ClassifyError =
    | NoStemColumn          // `KeyError: 'stem'` when a listing is empty
    | NotJoinable           // `TypeError` from "\n".join over a NaN record
    | Incomplete(reason: string)
    | EmptySelection        // `ValueError`: chapters empty or null
    | BadSelectionType      // `ValueError`: neither a list nor a dict
    | UnboundName(name: string)
    | NothingToConcatenate  // `ValueError` from `pd.concat([])`
    | BadOrderKey(name: string)  // `ValueError` from `int` in the script's sort key

  // ---------------------------------------------------------------------------
  // `list_files`: stem and part of a split file
  // ---------------------------------------------------------------------------

  /** The `part` column: the digits after the underscore, or `0`. */
  datatype Part = Numbered(digits: string) | Unnumbered

  /** `$` without MULTILINE also matches just before a final line feed. */
  function DropFinalNewline(s: string): (r: string)
    ensures r == s || (|s| > 0 && s[|s| - 1] == '\n' && r == s[..|s| - 1])
    ensures |s| > 0 && s[|s| - 1] == '\n' ==> r == s[..|s| - 1]
  {
    if |s| > 0 && s[|s| - 1] == '\n' then s[..|s| - 1] else s
  }

  /** `re.match(r"(.+)_([0-9]+)$", stem)`: the greedy `.+` ends at the last
      underscore, since the digits after it can contain none, and `.` does
      not match a line feed. Without a match the stem stays whole. */
  function SplitStem(s: string): (r: (string, Part))
    ensures r.1.Unnumbered? ==> r.0 == s
    ensures r.1.Numbered? ==>
      && |r.0| > 0 && '\n' !in r.0
      && |r.1.digits| > 0 && AllDigits(r.1.digits)
      && (s == r.0 + "_" + r.1.digits || s == r.0 + "_" + r.1.digits + "\n")
  {
    var k := RFind(s, '_');
    if k <= 0 then (s, Unnumbered)
    else
      var head := s[..k];
      var digits := DropFinalNewline(s[k + 1..]);
      if '\n' !in head && |digits| > 0 && AllDigits(digits) then
        assert s == head + "_" + s[k + 1..];
        (head, Numbered(digits))
      else (s, Unnumbered)
  }

  /** Every stem of the form `<head>_<digits>` is read as that head and part,
      also with a final line feed. */
  lemma SplitStemOfMatch(head: string, digits: string, newline: bool)
    requires |head| > 0 && '\n' !in head
    requires |digits| > 0 && AllDigits(digits)
    ensures var s := head + "_" + digits + (if newline then "\n" else "");
      SplitStem(s) == (head, Numbered(digits))
  {
    var tail := digits + (if newline then "\n" else "");
    var s := head + "_" + tail;
    assert s == head + "_" + digits + (if newline then "\n" else "");
    assert s[|head|] == '_';
    forall j | |head| < j < |s|
      ensures s[j] != '_'
    {
      assert s[j] == tail[j - |head| - 1];
    }
    assert RFind(s, '_') == |head|;
    assert s[..|head|] == head;
    assert s[|head| + 1..] == tail;
    assert IsDigit(digits[|digits| - 1]);
    if newline {
      assert tail[..|tail| - 1] == digits;
      assert DropFinalNewline(tail) == digits;
    } else {
      assert tail == digits;
    }
  }

  /** A split written by the splitter as `stem_i` is read back as `stem` and
      the decimal `i`. */
  lemma SplitStemOfPartName(stem: string, i: nat)
    requires |stem| > 0 && '\n' !in stem
    ensures SplitStem(Splitter.PartName(stem, i)) == (stem, Numbered(NatToString(i)))
  {
    SplitStemOfMatch(stem, NatToString(i), false);
    assert Splitter.PartName(stem, i) == stem + "_" + NatToString(i) + "";
  }

  /** One entry of the listing: `{"stem", "part", "path"}`. */
  datatype Listed = Listed(stem: string, part: Part, path: string)

  /** `list_files` over the names of the files of a directory, in listing order. */
  function ListFiles(names: seq<string>): (ls: seq<Listed>)
    ensures |ls| == |names|
    ensures forall i | 0 <= i < |names| ::
      ls[i].path == names[i] && (ls[i].stem, ls[i].part) == SplitStem(Stem(names[i]))
  {
    seq(|names|, i requires 0 <= i < |names| =>
      var sp := SplitStem(Stem(names[i]));
      Listed(sp.0, sp.1, names[i]))
  }

  // ---------------------------------------------------------------------------
  // `groupby("stem").agg({"path": list})` and the inner merge
  // ---------------------------------------------------------------------------

  predicate HasStem(ls: seq<Listed>, stem: string) {
    exists i | 0 <= i < |ls| :: ls[i].stem == stem
  }

  /** Group keys come out in ascending string order, each once. */
  predicate StrictlyAscending(keys: seq<string>) {
    forall i, j | 0 <= i < j < |keys| :: LexLess(keys[i], keys[j])
  }

  function InsertKey(k: string, keys: seq<string>): (r: seq<string>)
    requires StrictlyAscending(keys)
    ensures StrictlyAscending(r)
    ensures forall x :: x in r <==> x in keys || x == k
  {
    if |keys| == 0 then [k]
    else if k == keys[0] then keys
    else if LexLess(k, keys[0]) then
      forall j | 0 < j < |keys|
        ensures LexLess(k, keys[j])
      {
        LexLessTransitive(k, keys[0], keys[j]);
      }
      [k] + keys
    else
      LexLessTotal(k, keys[0]);
      assert keys == [keys[0]] + keys[1..];
      var rest := InsertKey(k, keys[1..]);
      forall j | 0 <= j < |rest|
        ensures LexLess(keys[0], rest[j])
      {
        if rest[j] != k {
          assert rest[j] in keys[1..];
          var m :| 0 <= m < |keys[1..]| && keys[1..][m] == rest[j];
          assert keys[m + 1] == rest[j];
        }
      }
      [keys[0]] + rest
  }

  /** The group keys of a listing: every stem once, in ascending order. */
  function DistinctStems(ls: seq<Listed>): (keys: seq<string>)
    ensures StrictlyAscending(keys)
    ensures forall x :: x in keys <==> HasStem(ls, x)
  {
    if |ls| == 0 then []
    else
      var front := ls[..|ls| - 1];
      var keys := InsertKey(ls[|ls| - 1].stem, DistinctStems(front));
      forall x | HasStem(ls, x)
        ensures x in keys
      {
        var i :| 0 <= i < |ls| && ls[i].stem == x;
        if i < |ls| - 1 {
          assert front[i] == ls[i];
        }
      }
      forall x | x in keys
        ensures HasStem(ls, x)
      {
        if x != ls[|ls| - 1].stem {
          var i :| 0 <= i < |front| && front[i].stem == x;
          assert ls[i] == front[i];
        }
      }
      keys
  }

  /** The paths of listed files, in order. */
  function PathList(ls: seq<Listed>): (r: seq<string>)
    ensures |r| == |ls| && forall i | 0 <= i < |ls| :: r[i] == ls[i].path
  {
    seq(|ls|, i requires 0 <= i < |ls| => ls[i].path)
  }

  /** The `path` list of one group: the files with that stem, in listing order. */
  function PathsOf(ls: seq<Listed>, stem: string): (paths: seq<string>)
    ensures |paths| > 0 <==> HasStem(ls, stem)
    ensures forall p :: p in paths <==> exists i | 0 <= i < |ls| :: ls[i].stem == stem && ls[i].path == p
  {
    if |ls| == 0 then []
    else
      var front := ls[..|ls| - 1];
      var last := ls[|ls| - 1];
      var paths := PathsOf(front, stem) + (if last.stem == stem then [last.path] else []);
      assert forall i | 0 <= i < |front| :: front[i] == ls[i];
      assert HasStem(front, stem) ==> HasStem(ls, stem);
      paths
  }

  lemma PathListConcat(a: seq<Listed>, b: seq<Listed>)
    ensures PathList(a + b) == PathList(a) + PathList(b)
  {
  }

  /** The test `groupby("stem")` groups one stem's files by. */
  function WithStem(stem: string): Listed -> bool {
    (l: Listed) => l.stem == stem
  }

  lemma WithStemSnoc(ls: seq<Listed>, stem: string)
    requires |ls| > 0
    ensures Filter(ls, WithStem(stem))
         == Filter(ls[..|ls| - 1], WithStem(stem)) + (if ls[|ls| - 1].stem == stem then [ls[|ls| - 1]] else [])
  {
    var front := ls[..|ls| - 1];
    var last := ls[|ls| - 1];
    assert ls == front + [last];
    FilterConcat(front, [last], WithStem(stem));
    assert Filter([last], WithStem(stem)) == if last.stem == stem then [last] else [];
  }

  /** `PathsOf` keeps the files of the stem in listing order: it is the paths
      of the listing filtered by stem. */
  lemma {:induction false} PathsOfInListingOrder(ls: seq<Listed>, stem: string)
    ensures PathsOf(ls, stem) == PathList(Filter(ls, WithStem(stem)))
  {
    if |ls| > 0 {
      var front := ls[..|ls| - 1];
      var last := ls[|ls| - 1];
      var t := if last.stem == stem then [last] else [];
      PathsOfInListingOrder(front, stem);
      WithStemSnoc(ls, stem);
      PathListConcat(Filter(front, WithStem(stem)), t);
    }
  }

  /** A chapter and its split files of one kind. */
  datatype Chapter = Chapter(name: string, splits: seq<string>)

  /** A chapter with its CSV splits and its MP3 splits. */
  datatype Pair = Pair(chapter: string, csv: Chapter, mp3: Chapter)

  function PairOf(csvs: seq<Listed>, mp3s: seq<Listed>, stem: string): Pair {
    Pair(stem, Chapter(stem, PathsOf(csvs, stem)), Chapter(stem, PathsOf(mp3s, stem)))
  }

  /** A filter keeps a strictly ascending sequence strictly ascending. */
  lemma {:induction false} FilterAscending(keys: seq<string>, p: string -> bool)
    requires StrictlyAscending(keys)
    ensures StrictlyAscending(Filter(keys, p))
  {
    if |keys| > 0 {
      FilterAscending(keys[1..], p);
      var rest := Filter(keys[1..], p);
      forall j | 0 <= j < |rest|
        ensures LexLess(keys[0], rest[j])
      {
        assert rest[j] in keys[1..];
        var m :| 0 <= m < |keys[1..]| && keys[1..][m] == rest[j];
        assert keys[m + 1] == rest[j];
      }
    }
  }

  /** The keys the inner merge keeps: the CSV group keys that are also MP3
      group keys, in the CSV frame's (ascending) order. */
  function CommonStems(csvs: seq<Listed>, mp3s: seq<Listed>): (keys: seq<string>)
    ensures StrictlyAscending(keys)
    ensures forall s :: s in keys <==> HasStem(csvs, s) && HasStem(mp3s, s)
  {
    FilterAscending(DistinctStems(csvs), (k: string) => HasStem(mp3s, k));
    Filter(DistinctStems(csvs), (k: string) => HasStem(mp3s, k))
  }

  /** The inner merge of the two grouped listings: one pair per common key. */
  function MergeGroups(csvs: seq<Listed>, mp3s: seq<Listed>): (pairs: seq<Pair>)
    ensures |pairs| == |CommonStems(csvs, mp3s)|
    ensures forall i | 0 <= i < |pairs| :: pairs[i].chapter == CommonStems(csvs, mp3s)[i]
  {
    var common := CommonStems(csvs, mp3s);
    seq(|common|, i requires 0 <= i < |common| => PairOf(csvs, mp3s, common[i]))
  }

  /** `csv_mp3_split_pairs` over the names of the files in the two split
      directories. Grouping an empty listing fails, because the frame then
      has no `stem` column. */
  function CsvMp3SplitPairs(csvNames: seq<string>, mp3Names: seq<string>): (r: Result<seq<Pair>, ClassifyError>)
    ensures r.Err? <==> |csvNames| == 0 || |mp3Names| == 0
    ensures r.Err? ==> r.error == NoStemColumn
    ensures r.Ok? ==> r.value == MergeGroups(ListFiles(csvNames), ListFiles(mp3Names))
  {
    if |csvNames| == 0 || |mp3Names| == 0 then Err(NoStemColumn)
    else Ok(MergeGroups(ListFiles(csvNames), ListFiles(mp3Names)))
  }

  /** There is a pair for a stem exactly when both listings have it. */
  lemma PairsByStem(csvs: seq<Listed>, mp3s: seq<Listed>, s: string)
    ensures var pairs := MergeGroups(csvs, mp3s);
      (exists i | 0 <= i < |pairs| :: pairs[i].chapter == s) <==> HasStem(csvs, s) && HasStem(mp3s, s)
  {
    var common := CommonStems(csvs, mp3s);
    var pairs := MergeGroups(csvs, mp3s);
    if s in common {
      var i :| 0 <= i < |common| && common[i] == s;
      assert pairs[i].chapter == s;
    }
    if exists i | 0 <= i < |pairs| :: pairs[i].chapter == s {
      var i :| 0 <= i < |pairs| && pairs[i].chapter == s;
      assert common[i] in common;
    }
  }

  /** Pairs come in ascending stem order, so no stem has two; each holds
      every file of its stem of either kind, in listing order, and neither
      kind is empty. */
  lemma PairsOrderedAndComplete(csvs: seq<Listed>, mp3s: seq<Listed>)
    ensures var pairs := MergeGroups(csvs, mp3s);
      && (forall i, j | 0 <= i < j < |pairs| :: LexLess(pairs[i].chapter, pairs[j].chapter))
      && (forall i | 0 <= i < |pairs| ::
            && pairs[i].csv.name == pairs[i].chapter && pairs[i].mp3.name == pairs[i].chapter
            && pairs[i].csv.splits == PathsOf(csvs, pairs[i].chapter)
            && pairs[i].mp3.splits == PathsOf(mp3s, pairs[i].chapter)
            && |pairs[i].csv.splits| > 0 && |pairs[i].mp3.splits| > 0)
  {
    var common := CommonStems(csvs, mp3s);
    var pairs := MergeGroups(csvs, mp3s);
    forall i | 0 <= i < |pairs|
      ensures |pairs[i].csv.splits| > 0 && |pairs[i].mp3.splits| > 0
    {
      assert common[i] in common;
    }
  }

  // ---------------------------------------------------------------------------
  // `Chapter.keep_splits`, `Pair.keep_only_splits`, `Pair.__iter__`, `__len__`
  // ---------------------------------------------------------------------------

  /** `split.stem.endswith(str(i))`. */
  predicate StemEndsWithIndex(split: string, i: int) {
    EndsWith(Stem(split), IntToString(i))
  }

  /** `Chapter.keep_splits`: a chapter with a single split is left alone;
      otherwise, for each requested index in turn, every split whose stem
      ends with that index's digits, so duplicates and suffix matches
      ("_11" for 1) are kept. */
  function KeepSplits(c: Chapter, ixs: seq<int>): (r: Chapter)
    ensures r.name == c.name
    ensures |c.splits| == 1 ==> r == c
    ensures |c.splits| != 1 ==> forall x :: x in r.splits <==>
      x in c.splits && exists k | 0 <= k < |ixs| :: StemEndsWithIndex(x, ixs[k])
  {
    if |c.splits| == 1 then c
    else Chapter(c.name, SelectEach(c.splits, ixs, StemEndsWithIndex))
  }

  /** Requests are served in order: the selection for `a + b` is the one for
      `a` followed by the one for `b`. */
  lemma KeepSplitsAppend(c: Chapter, a: seq<int>, b: seq<int>)
    requires |c.splits| != 1
    ensures KeepSplits(c, a + b).splits == KeepSplits(c, a).splits + KeepSplits(c, b).splits
  {
    SelectEachAppend(c.splits, a, b, StemEndsWithIndex);
  }

  /** Index 1 also selects split 11: the test is a suffix test on the stem. */
  lemma KeepSplitsSuffixQuirk(name: string)
    ensures KeepSplits(Chapter(name, ["c_1.csv", "c_11.csv"]), [1]).splits == ["c_1.csv", "c_11.csv"]
  {
    var splits := ["c_1.csv", "c_11.csv"];
    assert IntToString(1) == "1";
    StemOfFileName("c_1", "csv");
    StemOfFileName("c_11", "csv");
    assert splits[0] == "c_1" + "." + "csv";
    assert splits[1] == "c_11" + "." + "csv";
    assert StemEndsWithIndex(splits[0], 1);
    assert StemEndsWithIndex(splits[1], 1);
    SelectEachAll(splits, 1, StemEndsWithIndex);
  }

  /** `Pair.keep_only_splits`: the same indices for the MP3 and the CSV side. */
  function KeepOnlySplits(p: Pair, ixs: seq<int>): (q: Pair)
    ensures q.chapter == p.chapter
    ensures q.csv == KeepSplits(p.csv, ixs) && q.mp3 == KeepSplits(p.mp3, ixs)
  {
    Pair(p.chapter, KeepSplits(p.csv, ixs), KeepSplits(p.mp3, ixs))
  }

  /** `Pair.__iter__`: `zip(range(len(csv)), csv, mp3)`, which stops at the
      shorter of the two lists of splits. */
  function Iter(p: Pair): (r: seq<(nat, string, string)>)
    ensures |r| == Min(|p.csv.splits|, |p.mp3.splits|)
    ensures forall i | 0 <= i < |r| :: r[i] == (i, p.csv.splits[i], p.mp3.splits[i])
  {
    var n := Min(|p.csv.splits|, |p.mp3.splits|);
    seq(n, i requires 0 <= i < n => (i, p.csv.splits[i], p.mp3.splits[i]))
  }

  /** `Pair.__len__`: the number of MP3 splits. */
  function PairLen(p: Pair): nat {
    |p.mp3.splits|
  }

  /** Iteration visits as many splits as `len` reports exactly when there are
      no more MP3 splits than CSV splits; extra CSV splits are never visited. */
  lemma IterMatchesLen(p: Pair)
    ensures |Iter(p)| == PairLen(p) <==> |p.mp3.splits| <= |p.csv.splits|
    ensures |Iter(p)| <= |p.csv.splits| && |Iter(p)| <= PairLen(p)
  {
  }

  // ---------------------------------------------------------------------------
  // `prep_dialogue`: the transcript as prompt text
  // ---------------------------------------------------------------------------

  /** `sort_values(by=["chapter_index", "dialogue_index", "line_index"])`. */
  function DialogueKey(r: Row): seq<int> {
    [r.chapterIndex, r.dial, r.line]
  }

  function SortDialogue(rows: seq<Row>): (sorted: seq<Row>)
    ensures |sorted| == |rows| && multiset(sorted) == multiset(rows)
    ensures SortedBy(sorted, DialogueKey)
  {
    SortBy(rows, DialogueKey)
  }

  /** The `id` column: `f"{dialogue_index}_{line_index}"`. */
  function RowId(r: Row): string {
    IntToString(r.dial) + "_" + IntToString(r.line)
  }

  /** The id can be split back at its underscore into the two indices. */
  lemma RowIdSplits(r: Row)
    ensures Split(RowId(r), '_') == [IntToString(r.dial), IntToString(r.line)]
  {
    var a := IntToString(r.dial);
    var b := IntToString(r.line);
    assert Join([a, b], '_') == RowId(r) by {
      assert [a, b][1..] == [b];
    }
    SplitJoin([a, b], '_');
  }

  /** Rows at different positions get different ids, so the id is a key. */
  lemma RowIdInjective(r: Row, s: Row)
    requires RowId(r) == RowId(s)
    ensures PosOf(r) == PosOf(s)
  {
    RowIdSplits(r);
    RowIdSplits(s);
    IntToStringInjective(r.dial, s.dial);
    IntToStringInjective(r.line, s.line);
  }

  /** Both text cells are present; a NaN cell makes the record NaN. */
  predicate Printable(r: Row) {
    r.speaker.Some? && r.text.Some?
  }

  /** The `outc` column: `"{id} | {speaker}: {line}"`. */
  function Record(r: Row): string
    requires Printable(r)
  {
    RowId(r) + " | " + r.speaker.value + ": " + r.text.value
  }

  /** The id is the record up to its first blank, so a reply keyed by the
      ids can be matched to the records. */
  lemma RecordStartsWithId(r: Row)
    requires Printable(r)
    ensures IndexOf(Record(r), ' ') == |RowId(r)|
    ensures Record(r)[..|RowId(r)|] == RowId(r)
  {
    var rest := "| " + r.speaker.value + ": " + r.text.value;
    assert Record(r) == RowId(r) + [' '] + rest;
    IndexOfFirst(RowId(r), ' ', rest);
  }

  function Records(rows: seq<Row>): (recs: seq<string>)
    requires forall i | 0 <= i < |rows| :: Printable(rows[i])
    ensures |recs| == |rows|
    ensures forall i | 0 <= i < |rows| :: recs[i] == Record(rows[i])
  {
    seq(|rows|, i requires 0 <= i < |rows| => Record(rows[i]))
  }

  /** Whether every row has a property does not depend on their order. */
  lemma AllOfPermutation(a: seq<Row>, b: seq<Row>, P: Row -> bool)
    requires multiset(a) == multiset(b)
    ensures (forall i | 0 <= i < |a| :: P(a[i])) <==> (forall i | 0 <= i < |b| :: P(b[i]))
  {
    if forall i | 0 <= i < |b| :: P(b[i]) {
      forall i | 0 <= i < |a|
        ensures P(a[i])
      {
        assert a[i] in multiset(b);
        var j :| 0 <= j < |b| && b[j] == a[i];
      }
    }
    if forall i | 0 <= i < |a| :: P(a[i]) {
      forall i | 0 <= i < |b|
        ensures P(b[i])
      {
        assert b[i] in multiset(a);
        var j :| 0 <= j < |a| && a[j] == b[i];
      }
    }
  }

  /** `prep_dialogue`: the rows sorted by chapter, dialogue and line, one
      record each, joined by line feeds. A missing speaker or line makes its
      record NaN, and the join then raises. */
  function PrepDialogue(rows: seq<Row>): (r: Result<string, ClassifyError>)
    ensures r.Ok? <==> forall i | 0 <= i < |rows| :: Printable(rows[i])
    ensures r.Err? ==> r.error == NotJoinable
  {
    var sorted := SortDialogue(rows);
    AllOfPermutation(rows, sorted, Printable);
    if forall i | 0 <= i < |sorted| :: Printable(sorted[i]) then Ok(Join(Records(sorted), '\n'))
    else Err(NotJoinable)
  }

  /** Both text cells are present and neither holds a line feed. */
  predicate SingleLine(r: Row) {
    Printable(r) && '\n' !in r.speaker.value && '\n' !in r.text.value
  }

  lemma RecordSingleLine(r: Row)
    requires SingleLine(r)
    ensures '\n' !in Record(r)
  {
  }

  /** A transcript without line feeds in its cells reads back line by line:
      one record per row, in sorted order. */
  lemma PrepDialogueLines(rows: seq<Row>)
    requires |rows| > 0
    requires forall i | 0 <= i < |rows| :: SingleLine(rows[i])
    ensures var sorted := SortDialogue(rows);
      && (forall i | 0 <= i < |sorted| :: Printable(sorted[i]))
      && Split(PrepDialogue(rows).value, '\n') == Records(sorted)
  {
    var sorted := SortDialogue(rows);
    AllOfPermutation(rows, sorted, SingleLine);
    var recs := Records(sorted);
    forall i | 0 <= i < |recs|
      ensures '\n' !in recs[i]
    {
      RecordSingleLine(sorted[i]);
    }
    SplitJoin(recs, '\n');
  }

  // ---------------------------------------------------------------------------
  // The response and `merge_response_and_dialogues`
  // ---------------------------------------------------------------------------

  /** The parts of the chat completion the classifier reads: the finish
      reason of the first choice and its content, parsed as a JSON object
      from row ids to scores. */
  datatype Response<E> = Response(finishReason: string, content: map<string, E>)

  /** `prompt_model` refuses a response that did not finish with "stop". */
  function CheckComplete<E>(res: Response<E>): (r: Result<map<string, E>, ClassifyError>)
    ensures r.Ok? <==> res.finishReason == "stop"
    ensures r.Ok? ==> r.value == res.content
    ensures r.Err? ==> r.error == Incomplete(res.finishReason)
  {
    if res.finishReason != "stop" then Err(Incomplete(res.finishReason)) else Ok(res.content)
  }

  /** A transcript row with the scores of its id, if the reply has them; the
      helper columns `id` and `outc` are gone. */
  datatype Scored<E> = Scored(row: Row, emotions: Option<E>)

  /** The left join on `id`: every row once, in order, with the scores of its
      id when the reply has that key. */
  function MergeResponse<E>(rows: seq<Row>, content: map<string, E>): (out: seq<Scored<E>>)
    ensures |out| == |rows|
    ensures forall i | 0 <= i < |rows| :: out[i].row == rows[i]
    ensures forall i | 0 <= i < |rows| :: out[i].emotions.Some? <==> RowId(rows[i]) in content
    ensures forall i | 0 <= i < |rows| :: out[i].emotions.Some? ==> out[i].emotions.value == content[RowId(rows[i])]
  {
    seq(|rows|, i requires 0 <= i < |rows| =>
      Scored(rows[i], if RowId(rows[i]) in content then Some(content[RowId(rows[i])]) else None))
  }

  /** Dropping the scores gives the transcript back. */
  function RowsOf<E>(out: seq<Scored<E>>): (rows: seq<Row>)
    ensures |rows| == |out| && forall i | 0 <= i < |out| :: rows[i] == out[i].row
  {
    seq(|out|, i requires 0 <= i < |out| => out[i].row)
  }

  lemma MergeKeepsRows<E>(rows: seq<Row>, content: map<string, E>)
    ensures RowsOf(MergeResponse(rows, content)) == rows
  {
  }

  /** An empty reply scores nothing. */
  lemma MergeEmptyResponse<E>(rows: seq<Row>, content: map<string, E>)
    requires |content| == 0
    ensures forall i | 0 <= i < |rows| :: MergeResponse(rows, content)[i].emotions.None?
  {
  }

  /** Keys that are no row's id have no effect on the join. */
  lemma MergeIgnoresOtherKeys<E>(rows: seq<Row>, c: map<string, E>, d: map<string, E>)
    requires forall i | 0 <= i < |rows| :: (RowId(rows[i]) in c <==> RowId(rows[i]) in d)
    requires forall i | 0 <= i < |rows| :: RowId(rows[i]) in c ==> c[RowId(rows[i])] == d[RowId(rows[i])]
    ensures MergeResponse(rows, c) == MergeResponse(rows, d)
  {
  }

  /** The join works row by row. */
  lemma MergeConcat<E>(a: seq<Row>, b: seq<Row>, content: map<string, E>)
    ensures MergeResponse(a + b, content) == MergeResponse(a, content) + MergeResponse(b, content)
  {
  }

  // ---------------------------------------------------------------------------
  // One split, one pair, and the order of the output
  // ---------------------------------------------------------------------------

  /** One iteration of `Classifier.main`: the prompt text, the call (a
      parameter taking the text and the MP3 file), the completeness check and
      the join onto the rows as `prep_dialogue` left them, sorted. */
  function ClassifySplit<E>(rows: seq<Row>, mp3: string, respond: (string, string) -> Response<E>): (r: Result<seq<Scored<E>>, ClassifyError>)
    ensures r.Ok? <==> (forall i | 0 <= i < |rows| :: Printable(rows[i]))
                       && respond(PrepDialogue(rows).value, mp3).finishReason == "stop"
    ensures PrepDialogue(rows).Err? ==> r == Err(NotJoinable)
    ensures PrepDialogue(rows).Ok? && r.Err? ==> r.error == Incomplete(respond(PrepDialogue(rows).value, mp3).finishReason)
    ensures r.Ok? ==> RowsOf(r.value) == SortDialogue(rows)
    ensures r.Ok? ==> var content := respond(PrepDialogue(rows).value, mp3).content;
      forall i | 0 <= i < |rows| ::
        r.value[i].emotions == if RowId(r.value[i].row) in content then Some(content[RowId(r.value[i].row)]) else None
  {
    var dialogue :- PrepDialogue(rows);
    var content :- CheckComplete(respond(dialogue, mp3));
    Ok(MergeResponse(SortDialogue(rows), content))
  }

  /** What classifying a pair can raise: a transcript that cannot be joined,
      an incomplete reply, or nothing to concatenate. */
  predicate RaisedByClassification(e: ClassifyError) {
    e.NotJoinable? || e.Incomplete? || e.NothingToConcatenate?
  }

  /** The loop over a pair's splits; the first error stops it. Chunk `k` is
      what classifying split `k` gives. */
  function ClassifySplits<E>(items: seq<(nat, string, string)>, readRows: string -> seq<Row>,
                             respond: (string, string) -> Response<E>): (r: Result<seq<seq<Scored<E>>>, ClassifyError>)
    ensures r.Ok? <==> forall k | 0 <= k < |items| :: ClassifySplit(readRows(items[k].1), items[k].2, respond).Ok?
    ensures r.Ok? ==> |r.value| == |items|
    ensures r.Ok? ==> forall k | 0 <= k < |items| :: Ok(r.value[k]) == ClassifySplit(readRows(items[k].1), items[k].2, respond)
    ensures r.Ok? ==> forall k | 0 <= k < |items| :: RowsOf(r.value[k]) == SortDialogue(readRows(items[k].1))
    ensures r.Err? ==> RaisedByClassification(r.error)
  {
    if |items| == 0 then Ok([])
    else
      var here := ClassifySplit(readRows(items[0].1), items[0].2, respond);
      var rest := ClassifySplits(items[1..], readRows, respond);
      assert forall k | 1 <= k < |items| :: items[k] == items[1..][k - 1];
      if here.Err? then Err(here.error)
      else if rest.Err? then Err(rest.error)
      else
        OkPointwiseCons(items, here.value, rest.value,
          (it: (nat, string, string)) => ClassifySplit(readRows(it.1), it.2, respond));
        Ok([here.value] + rest.value)
  }

  /** `out_df.sort_values(["dialogue_index", "line_index"])`. */
  function OutputKey<E>(x: Scored<E>): seq<int> {
    [x.row.dial, x.row.line]
  }

  /** The written frame: the concatenated chunks, ordered by dialogue and
      line; a permutation of the chunks' rows. */
  function WriteOrder<E(!new)>(chunks: seq<seq<Scored<E>>>): (out: seq<Scored<E>>)
    ensures multiset(out) == multiset(Concat(chunks))
    ensures SortedBy(out, OutputKey)
  {
    SortBy(Concat(chunks), OutputKey)
  }

  /** Chunks that are already in order, one after the other, are written as
      they are. */
  lemma WriteOrderOfOrdered<E(!new)>(chunks: seq<seq<Scored<E>>>)
    requires SortedBy(Concat(chunks), OutputKey)
    ensures WriteOrder(chunks) == Concat(chunks)
  {
    SortByOfSorted(Concat(chunks), OutputKey);
  }

  /** The rows of the output are those of all classified splits. */
  lemma WriteOrderRows<E(!new)>(chunks: seq<seq<Scored<E>>>)
    ensures |WriteOrder(chunks)| == TotalLength(chunks)
  {
    ConcatLength(chunks);
    assert |multiset(WriteOrder(chunks))| == |multiset(Concat(chunks))|;
  }

  /** The work of `Classifier.main` for one pair: every split the iteration
      visits, then the sorted output. With no split to visit there is nothing
      to concatenate, and `pd.concat` raises. */
  function ClassifyPair<E(!new)>(p: Pair, readRows: string -> seq<Row>, respond: (string, string) -> Response<E>): (r: Result<seq<Scored<E>>, ClassifyError>)
    ensures r.Ok? <==> |Iter(p)| > 0 && ClassifySplits(Iter(p), readRows, respond).Ok?
    ensures r.Ok? <==> |Iter(p)| > 0 && forall k | 0 <= k < |Iter(p)| :: ClassifySplit(readRows(Iter(p)[k].1), Iter(p)[k].2, respond).Ok?
    ensures r.Ok? ==> forall k | 0 <= k < |Iter(p)| ::
      multiset(ClassifySplit(readRows(Iter(p)[k].1), Iter(p)[k].2, respond).value) <= multiset(r.value)
    ensures |Iter(p)| == 0 ==> r == Err(NothingToConcatenate)
    ensures r.Err? && ClassifySplits(Iter(p), readRows, respond).Err? ==> r.error == ClassifySplits(Iter(p), readRows, respond).error
    ensures r.Ok? ==> multiset(r.value) == multiset(Concat(ClassifySplits(Iter(p), readRows, respond).value))
    ensures r.Ok? ==> SortedBy(r.value, OutputKey)
    ensures r.Err? ==> RaisedByClassification(r.error)
  {
    var chunks :- ClassifySplits(Iter(p), readRows, respond);
    ConcatPiecesSubMultiset(chunks);
    if |chunks| == 0 then Err(NothingToConcatenate) else Ok(WriteOrder(chunks))
  }

  // ---------------------------------------------------------------------------
  // `set_chapters`
  // ---------------------------------------------------------------------------

  /** The argument of `set_chapters`: a list of chapter names, a dict from
      chapter names to split indices (in insertion order), or anything else,
      which Python judges truthy or not. */
  datatype Selection =
    | Names(names: seq<string>)
    | ChapterSplits(entries: seq<(string, seq<int>)>)
    | Other(truthy: bool)

  predicate IsChapter(p: Pair, name: string) {
    p.chapter == name
  }

  /** No pair has this chapter name. */
  predicate Unknown(pairs: seq<Pair>, name: string) {
    forall p | p in pairs :: p.chapter != name
  }

  /** The pairs named `name`, in order, narrowed to the splits `ixs`. */
  function NarrowedPairs(pairs: seq<Pair>, name: string, ixs: seq<int>): (r: seq<Pair>)
    ensures |r| == 0 <==> Unknown(pairs, name)
    ensures forall q :: q in r <==> exists p | p in pairs && p.chapter == name :: q == KeepOnlySplits(p, ixs)
    ensures var matched := Filter(pairs, (p: Pair) => p.chapter == name);
      |r| == |matched| && forall i | 0 <= i < |r| :: r[i] == KeepOnlySplits(matched[i], ixs)
  {
    var matched := Filter(pairs, (p: Pair) => p.chapter == name);
    var r := seq(|matched|, i requires 0 <= i < |matched| => KeepOnlySplits(matched[i], ixs));
    forall q | exists p | p in pairs && p.chapter == name :: q == KeepOnlySplits(p, ixs)
      ensures q in r
    {
      var p :| p in pairs && p.chapter == name && q == KeepOnlySplits(p, ixs);
      assert p in matched;
      var i :| 0 <= i < |matched| && matched[i] == p;
      assert r[i] == q;
    }
    forall q | q in r
      ensures exists p | p in pairs && p.chapter == name :: q == KeepOnlySplits(p, ixs)
    {
      var i :| 0 <= i < |r| && r[i] == q;
      assert matched[i] in matched;
    }
    assert |matched| > 0 ==> matched[0] in matched;
    r
  }

  /** The dict branch as written: each entry narrows and keeps its pairs, in
      dict order; an entry that names no pair makes the warning evaluate
      `chapt`, a name bound only in the list branch, which raises. */
  function SelectSplitsAsWritten(pairs: seq<Pair>, entries: seq<(string, seq<int>)>): (r: Result<seq<Pair>, ClassifyError>)
    ensures r.Err? <==> exists k | 0 <= k < |entries| :: Unknown(pairs, entries[k].0)
    ensures r.Err? ==> r.error == UnboundName("chapt")
  {
    if |entries| == 0 then Ok([])
    else
      var here := NarrowedPairs(pairs, entries[0].0, entries[0].1);
      assert forall k | 1 <= k < |entries| :: entries[k] == entries[1..][k - 1];
      if |here| == 0 then Err(UnboundName("chapt"))
      else
        var rest :- SelectSplitsAsWritten(pairs, entries[1..]);
        Ok(here + rest)
  }

  /** The dict branch as intended: an entry that names no pair is only
      warned about. */
  function SelectSplits(pairs: seq<Pair>, entries: seq<(string, seq<int>)>): (r: seq<Pair>)
    ensures forall q :: q in r <==>
      exists k, p | 0 <= k < |entries| && p in pairs && p.chapter == entries[k].0 :: q == KeepOnlySplits(p, entries[k].1)
  {
    if |entries| == 0 then []
    else
      var here := NarrowedPairs(pairs, entries[0].0, entries[0].1);
      var rest := SelectSplits(pairs, entries[1..]);
      assert forall k | 1 <= k < |entries| :: entries[k] == entries[1..][k - 1];
      here + rest
  }

  /** Where every entry names a pair, the code as written and as intended agree. */
  lemma {:induction false} SelectSplitsAgree(pairs: seq<Pair>, entries: seq<(string, seq<int>)>)
    requires forall k | 0 <= k < |entries| :: !Unknown(pairs, entries[k].0)
    ensures SelectSplitsAsWritten(pairs, entries) == Ok(SelectSplits(pairs, entries))
  {
    if |entries| > 0 {
      assert forall k | 1 <= k < |entries| :: entries[k] == entries[1..][k - 1];
      SelectSplitsAgree(pairs, entries[1..]);
    }
  }

  /** The input that shows the difference: one entry for a chapter no pair
      has. As written this raises; as intended it selects nothing. */
  lemma UnknownChapterRaises(pairs: seq<Pair>, name: string, ixs: seq<int>)
    requires Unknown(pairs, name)
    ensures SelectSplitsAsWritten(pairs, [(name, ixs)]) == Err(UnboundName("chapt"))
    ensures SelectSplits(pairs, [(name, ixs)]) == []
  {
    assert [(name, ixs)][0].0 == name;
  }

  /** `set_chapters` as written. */
  function SetChaptersAsWritten(pairs: seq<Pair>, sel: Selection): (r: Result<seq<Pair>, ClassifyError>)
    ensures sel.ChapterSplits? && |sel.entries| > 0 ==> r == SelectSplitsAsWritten(pairs, sel.entries)
    ensures !sel.ChapterSplits? ==> r == SetChapters(pairs, sel)
  {
    match sel
    case Names(names) => if |names| == 0 then Err(EmptySelection) else Ok(SelectEach(pairs, names, IsChapter))
    case ChapterSplits(entries) => if |entries| == 0 then Err(EmptySelection) else SelectSplitsAsWritten(pairs, entries)
    case Other(truthy) => if truthy then Err(BadSelectionType) else Err(EmptySelection)
  }

  /** `set_chapters` with the dict branch corrected: an empty or falsy
      argument and one that is neither list nor dict raise `ValueError`; a list
      keeps, for each name in order, the pairs of that chapter; a dict keeps,
      for each entry in order, the pairs of that chapter narrowed to the
      entry's splits. Unknown names select nothing. */
  function SetChapters(pairs: seq<Pair>, sel: Selection): (r: Result<seq<Pair>, ClassifyError>)
    ensures r.Err? <==> sel.Other? || (sel.Names? && |sel.names| == 0) || (sel.ChapterSplits? && |sel.entries| == 0)
    ensures r.Err? ==> r.error == (if sel.Other? && sel.truthy then BadSelectionType else EmptySelection)
    ensures r.Ok? && sel.Names? ==> forall q :: q in r.value <==> q in pairs && q.chapter in sel.names
    ensures r.Ok? && sel.ChapterSplits? ==> forall q :: q in r.value <==>
      exists k, p | 0 <= k < |sel.entries| && p in pairs && p.chapter == sel.entries[k].0 :: q == KeepOnlySplits(p, sel.entries[k].1)
  {
    match sel
    case Names(names) =>
      if |names| == 0 then Err(EmptySelection)
      else
        var r := SelectEach(pairs, names, IsChapter);
        assert forall q | q in r :: q.chapter in names;
        Ok(r)
    case ChapterSplits(entries) => if |entries| == 0 then Err(EmptySelection) else Ok(SelectSplits(pairs, entries))
    case Other(truthy) => if truthy then Err(BadSelectionType) else Err(EmptySelection)
  }

  /** A list of one name keeps that chapter's pairs, in order, whole. */
  lemma SetChaptersOneName(pairs: seq<Pair>, name: string)
    ensures SetChapters(pairs, Names([name])) == Ok(Filter(pairs, (p: Pair) => p.chapter == name))
  {
    SelectEachOne(pairs, name, IsChapter, (p: Pair) => p.chapter == name);
  }

  /** Names are served in list order: the selection for `a + b` is that for
      `a` followed by that for `b`. */
  lemma SetChaptersNamesAppend(pairs: seq<Pair>, a: seq<string>, b: seq<string>)
    requires |a| > 0 && |b| > 0
    ensures SetChapters(pairs, Names(a + b)).Ok?
    ensures SetChapters(pairs, Names(a + b)).value
         == SetChapters(pairs, Names(a)).value + SetChapters(pairs, Names(b)).value
  {
    SelectEachAppend(pairs, a, b, IsChapter);
  }

  /** A dict of one entry keeps that chapter's pairs, in order, each narrowed
      to the entry's splits. */
  lemma SetChaptersOneEntry(pairs: seq<Pair>, name: string, ixs: seq<int>)
    ensures var matched := Filter(pairs, (p: Pair) => p.chapter == name);
      var r := SetChapters(pairs, ChapterSplits([(name, ixs)]));
      && r.Ok? && |r.value| == |matched|
      && forall i | 0 <= i < |matched| :: r.value[i] == KeepOnlySplits(matched[i], ixs)
  {
    var entries := [(name, ixs)];
    assert SelectSplits(pairs, entries) == NarrowedPairs(pairs, name, ixs) + SelectSplits(pairs, entries[1..]);
  }

  /** Entries are served in dict order. */
  lemma {:induction false} SelectSplitsAppend(pairs: seq<Pair>, a: seq<(string, seq<int>)>, b: seq<(string, seq<int>)>)
    ensures SelectSplits(pairs, a + b) == SelectSplits(pairs, a) + SelectSplits(pairs, b)
  {
    if |a| > 0 {
      assert (a + b)[1..] == a[1..] + b;
      SelectSplitsAppend(pairs, a[1..], b);
    } else {
      assert a + b == b;
    }
  }

  /** The same for `set_chapters` with non-empty dicts. */
  lemma SetChaptersEntriesAppend(pairs: seq<Pair>, a: seq<(string, seq<int>)>, b: seq<(string, seq<int>)>)
    requires |a| > 0 && |b| > 0
    ensures SetChapters(pairs, ChapterSplits(a + b)).Ok?
    ensures SetChapters(pairs, ChapterSplits(a + b)).value
         == SetChapters(pairs, ChapterSplits(a)).value + SetChapters(pairs, ChapterSplits(b)).value
  {
    SelectSplitsAppend(pairs, a, b);
  }

  /** A listed name that is no chapter only costs a warning. */
  lemma UnknownNameIgnored(pairs: seq<Pair>, names: seq<string>, name: string)
    requires |names| > 0 && Unknown(pairs, name)
    ensures SetChapters(pairs, Names(names + [name])) == SetChapters(pairs, Names(names))
  {
    SelectEachAppend(pairs, names, [name], IsChapter);
    SelectEachNone(pairs, name, IsChapter);
    assert SelectEach(pairs, names + [name], IsChapter) == SelectEach(pairs, names, IsChapter);
  }

  // ---------------------------------------------------------------------------
  // `Classifier.main` and the script
  // ---------------------------------------------------------------------------

  /** The pointwise results of the run, one pair after the other. */
  lemma ClassifierMainStep<E(!new)>(pairs: seq<Pair>, out: seq<Scored<E>>, rest: seq<(string, seq<Scored<E>>)>,
                                    readRows: string -> seq<Row>, respond: (string, string) -> Response<E>)
    requires |pairs| > 0 && ClassifyPair(pairs[0], readRows, respond) == Ok(out)
    requires |rest| == |pairs| - 1
    requires forall i | 0 <= i < |pairs| - 1 ::
      rest[i].0 == pairs[1..][i].chapter && Ok(rest[i].1) == ClassifyPair(pairs[1..][i], readRows, respond)
    ensures var all := [(pairs[0].chapter, out)] + rest;
      forall i | 0 <= i < |pairs| ::
        all[i].0 == pairs[i].chapter && Ok(all[i].1) == ClassifyPair(pairs[i], readRows, respond)
  {
    var all := [(pairs[0].chapter, out)] + rest;
    forall i | 0 <= i < |pairs|
      ensures all[i].0 == pairs[i].chapter && Ok(all[i].1) == ClassifyPair(pairs[i], readRows, respond)
    {
      if i > 0 {
        assert pairs[i] == pairs[1..][i - 1] && all[i] == rest[i - 1];
      }
    }
  }

  /** `Classifier.main`: every pair in order, each giving its chapter's
      sorted output; the first error stops the run. */
  function ClassifierMain<E(!new)>(pairs: seq<Pair>, readRows: string -> seq<Row>,
                                   respond: (string, string) -> Response<E>): (r: Result<seq<(string, seq<Scored<E>>)>, ClassifyError>)
    ensures r.Ok? <==> forall i | 0 <= i < |pairs| :: ClassifyPair(pairs[i], readRows, respond).Ok?
    ensures r.Ok? ==> |r.value| == |pairs|
    ensures r.Ok? ==> forall i | 0 <= i < |pairs| ::
      r.value[i].0 == pairs[i].chapter && Ok(r.value[i].1) == ClassifyPair(pairs[i], readRows, respond)
    ensures r.Err? ==> RaisedByClassification(r.error)
  {
    if |pairs| == 0 then Ok([])
    else
      var out :- ClassifyPair(pairs[0], readRows, respond);
      var rest :- ClassifierMain(pairs[1..], readRows, respond);
      ClassifierMainStep(pairs, out, rest, readRows, respond);
      Ok([(pairs[0].chapter, out)] + rest)
  }

  // ---------------------------------------------------------------------------
  // The script: `order_fn`, the chapter choice and the run
  // ---------------------------------------------------------------------------

  /** `d.update(p.to_aux_dict())` over all pairs: each chapter with the
      indices of its CSV splits, in pair order. Pairs have distinct chapters,
      so no update overwrites another. */
  function AuxEntries(pairs: seq<Pair>): (d: seq<(string, seq<int>)>)
    ensures |d| == |pairs|
    ensures forall i | 0 <= i < |pairs| ::
      && d[i].0 == pairs[i].chapter && |d[i].1| == |pairs[i].csv.splits|
      && forall j | 0 <= j < |d[i].1| :: d[i].1[j] == j
  {
    seq(|pairs|, i requires 0 <= i < |pairs| =>
      (pairs[i].chapter, seq(|pairs[i].csv.splits|, j requires 0 <= j < |pairs[i].csv.splits| => j)))
  }

  /** `order_fn`: the text of a chapter name before its first underscore, read
      by `int`; `None` stands for the `ValueError` on anything else. */
  function OrderKey(name: string): (r: Option<int>)
    ensures forall k | 0 <= k <= |name| && '_' !in name[..k] && (k == |name| || name[k] == '_') ::
      r == ParseInt(name[..k])
  {
    ParseInt(Split(name, '_')[0])
  }

  /** A name of the form `<n>_<title>` is ordered by `n`. */
  lemma OrderKeyOfNumbered(n: int, title: string)
    ensures OrderKey(IntToString(n) + "_" + title) == Some(n)
  {
    var head := IntToString(n);
    IndexOfFirst(head, '_', title);
    assert (head + "_" + title)[..|head|] == head;
    ParseIntOfString(n);
  }

  /** A name that starts with a letter has no order key: sorting by it raises. */
  lemma OrderKeyOfUnnumbered(name: string)
    requires |name| > 0 && 'a' <= name[0] <= 'z'
    ensures OrderKey(name) == None
  {
    var k := IndexOf(name, '_');
    assert k > 0 && name[..k][0] == name[0];
    ParseIntOfLetter(name[..k]);
  }

  /** The order key as a number, for names that have one. */
  function OrderValue(name: string): int {
    match OrderKey(name)
    case Some(n) => n
    case None => 0
  }

  function EntryKey<V>(e: (string, V)): seq<int> {
    [OrderValue(e.0)]
  }

  /** The entries are in ascending order of their names' keys. */
  predicate InKeyOrder<V>(entries: seq<(string, V)>) {
    forall i, j | 0 <= i < j < |entries| :: OrderValue(entries[i].0) <= OrderValue(entries[j].0)
  }

  lemma InKeyOrderIsSorted<V>(entries: seq<(string, V)>)
    ensures InKeyOrder(entries) <==> SortedBy(entries, EntryKey)
  {
    forall i, j | 0 <= i < j < |entries|
      ensures OrderValue(entries[i].0) <= OrderValue(entries[j].0) <==> KeyLe(EntryKey(entries[i]), EntryKey(entries[j]))
    {
      var a := EntryKey(entries[i]);
      var b := EntryKey(entries[j]);
      assert a[1..] == [] && b[1..] == [];
    }
  }

  /** The position of the first entry whose name has no order key, or the
      length when every name has one. */
  function FirstUnkeyed<V>(entries: seq<(string, V)>): (k: nat)
    ensures k <= |entries|
    ensures forall j | 0 <= j < k :: OrderKey(entries[j].0).Some?
    ensures k < |entries| ==> OrderKey(entries[k].0).None?
  {
    if |entries| == 0 || OrderKey(entries[0].0).None? then 0
    else
      var k := FirstUnkeyed(entries[1..]);
      assert forall j | 1 <= j < k + 1 :: entries[j] == entries[1..][j - 1];
      k + 1
  }

  /** `dict(sorted(items, key=order_fn))`: `sorted` computes every key first,
      in order, so the first name without one raises; otherwise the result is
      the entries in ascending key order, ties kept in their order. */
  function SortByOrderKey<V>(entries: seq<(string, V)>): (r: Result<seq<(string, V)>, ClassifyError>)
    ensures r.Ok? <==> forall k | 0 <= k < |entries| :: OrderKey(entries[k].0).Some?
    ensures r.Err? ==> exists k | 0 <= k < |entries| ::
      && r.error == BadOrderKey(entries[k].0) && OrderKey(entries[k].0).None?
      && forall j | 0 <= j < k :: OrderKey(entries[j].0).Some?
    ensures r.Ok? ==> multiset(r.value) == multiset(entries)
    ensures r.Ok? ==> InKeyOrder(r.value)
    ensures r.Ok? && InKeyOrder(entries) ==> r.value == entries
  {
    var k := FirstUnkeyed(entries);
    if k < |entries| then Err(BadOrderKey(entries[k].0))
    else
      var sorted := SortBy(entries, EntryKey);
      InKeyOrderIsSorted(sorted);
      InKeyOrderIsSorted(entries);
      assert InKeyOrder(entries) ==> sorted == entries by {
        if InKeyOrder(entries) {
          SortByOfSorted(entries, EntryKey);
        }
      }
      Ok(sorted)
  }

  /** The pairs are in ascending key order of their chapters. */
  predicate ChaptersInKeyOrder(ps: seq<Pair>) {
    forall i, j | 0 <= i < j < |ps| :: OrderValue(ps[i].chapter) <= OrderValue(ps[j].chapter)
  }

  lemma ChaptersInKeyOrderAppend(a: seq<Pair>, b: seq<Pair>, v: int)
    requires forall i | 0 <= i < |a| :: OrderValue(a[i].chapter) == v
    requires forall i | 0 <= i < |b| :: v <= OrderValue(b[i].chapter)
    requires ChaptersInKeyOrder(b)
    ensures ChaptersInKeyOrder(a + b)
  {
    var ab := a + b;
    forall i, j | 0 <= i < j < |ab|
      ensures OrderValue(ab[i].chapter) <= OrderValue(ab[j].chapter)
    {
      if j >= |a| {
        assert ab[j] == b[j - |a|];
        if i >= |a| {
          assert ab[i] == b[i - |a|];
        }
      }
    }
  }

  /** Entries in key order select pairs in key order of their chapters. */
  lemma {:induction false} SelectSplitsInKeyOrder(pairs: seq<Pair>, entries: seq<(string, seq<int>)>)
    requires InKeyOrder(entries)
    ensures ChaptersInKeyOrder(SelectSplits(pairs, entries))
  {
    if |entries| > 0 {
      var here := NarrowedPairs(pairs, entries[0].0, entries[0].1);
      var rest := SelectSplits(pairs, entries[1..]);
      assert forall k | 1 <= k < |entries| :: entries[k] == entries[1..][k - 1];
      SelectSplitsInKeyOrder(pairs, entries[1..]);
      assert SelectSplits(pairs, entries) == here + rest;
      forall i | 0 <= i < |here|
        ensures OrderValue(here[i].chapter) == OrderValue(entries[0].0)
      {
        assert here[i] in here;
      }
      forall i | 0 <= i < |rest|
        ensures OrderValue(entries[0].0) <= OrderValue(rest[i].chapter)
      {
        assert rest[i] in rest;
        var k, p :| 0 <= k < |entries[1..]| && p in pairs && p.chapter == entries[1..][k].0
          && rest[i] == KeepOnlySplits(p, entries[1..][k].1);
        assert entries[1..][k] == entries[k + 1];
      }
      ChaptersInKeyOrderAppend(here, rest, OrderValue(entries[0].0));
    }
  }

  /** The script after the chooser has answered: no choice, or an empty one,
      ends the run with nothing classified; otherwise the choice is ordered by
      `order_fn`, and unless `proceed` (the answer "y") is false the chosen
      chapters and splits go through `set_chapters` as written and are
      classified, in key order. */
  function ClassifyChoice<E(!new)>(pairs: seq<Pair>, picked: Option<seq<(string, seq<int>)>>, proceed: bool,
                                   readRows: string -> seq<Row>, respond: (string, string) -> Response<E>): (r: Result<seq<(string, seq<Scored<E>>)>, ClassifyError>)
    ensures picked.None? || |picked.value| == 0 ==> r == Ok([])
    ensures !proceed ==> r.Err? || r == Ok([])
    ensures r.Err? && r.error.BadOrderKey? ==> OrderKey(r.error.name).None?
    ensures r.Ok? ==> forall i, j | 0 <= i < j < |r.value| :: OrderValue(r.value[i].0) <= OrderValue(r.value[j].0)
  {
    if picked.None? || |picked.value| == 0 then Ok([])
    else
      var ordered :- SortByOrderKey(picked.value);
      if !proceed then Ok([])
      else
        var chosen :- SetChaptersAsWritten(pairs, ChapterSplits(ordered));
        SelectSplitsAgree(pairs, ordered);
        SelectSplitsInKeyOrder(pairs, ordered);
        ClassifierMain(chosen, readRows, respond)
  }

  /** When every chosen chapter exists, the run classifies exactly what the
      corrected `set_chapters` selects from the choice in key order. */
  lemma ClassifyChoiceAsIntended<E(!new)>(pairs: seq<Pair>, picked: seq<(string, seq<int>)>,
                                          readRows: string -> seq<Row>, respond: (string, string) -> Response<E>)
    requires |picked| > 0 && forall k | 0 <= k < |picked| :: OrderKey(picked[k].0).Some?
    requires forall k | 0 <= k < |picked| :: !Unknown(pairs, picked[k].0)
    ensures var ordered := SortByOrderKey(picked).value;
      && SetChapters(pairs, ChapterSplits(ordered)).Ok?
      && ClassifyChoice(pairs, Some(picked), true, readRows, respond)
         == ClassifierMain(SetChapters(pairs, ChapterSplits(ordered)).value, readRows, respond)
  {
    var ordered := SortByOrderKey(picked).value;
    forall k | 0 <= k < |ordered|
      ensures !Unknown(pairs, ordered[k].0)
    {
      assert ordered[k] in multiset(picked);
      var m :| 0 <= m < |picked| && picked[m] == ordered[k];
    }
    assert |ordered| > 0 by {
      assert picked[0] in multiset(ordered);
    }
    SelectSplitsAgree(pairs, ordered);
  }

  /** The script. The pairs are listed once (the listing does not change
      between the two calls); the chapters, each with all its split indices,
      are ordered by `order_fn` and shown to the chooser, a parameter standing
      for the curses UI, which returns a dict of chapters to split indices or
      nothing. */
  function ClassifyRun<E(!new)>(csvNames: seq<string>, mp3Names: seq<string>,
                                choose: seq<(string, seq<int>)> -> Option<seq<(string, seq<int>)>>, proceed: bool,
                                readRows: string -> seq<Row>, respond: (string, string) -> Response<E>): (r: Result<seq<(string, seq<Scored<E>>)>, ClassifyError>)
    ensures |csvNames| == 0 || |mp3Names| == 0 ==> r == Err(NoStemColumn)
    ensures r.Ok? ==> var pairs := CsvMp3SplitPairs(csvNames, mp3Names);
      pairs.Ok? && forall i | 0 <= i < |pairs.value| :: OrderKey(pairs.value[i].chapter).Some?
    ensures r.Err? && r.error.BadOrderKey? ==> OrderKey(r.error.name).None?
    ensures !proceed ==> r.Err? || r == Ok([])
    ensures r.Ok? ==> forall i, j | 0 <= i < j < |r.value| :: OrderValue(r.value[i].0) <= OrderValue(r.value[j].0)
  {
    var pairs :- CsvMp3SplitPairs(csvNames, mp3Names);
    var shown :- SortByOrderKey(AuxEntries(pairs));
    ClassifyChoice(pairs, choose(shown), proceed, readRows, respond)
  }

  /** Sorting the chapters fails on the first one without an order key. */
  lemma AuxEntriesUnkeyed(pairs: seq<Pair>)
    requires exists i | 0 <= i < |pairs| :: OrderKey(pairs[i].chapter).None?
    ensures var k := FirstUnkeyed(AuxEntries(pairs));
      && k < |pairs|
      && (forall j | 0 <= j < k :: OrderKey(pairs[j].chapter).Some?)
      && SortByOrderKey(AuxEntries(pairs)) == Err(BadOrderKey(pairs[k].chapter))
  {
    var aux := AuxEntries(pairs);
    var i :| 0 <= i < |pairs| && OrderKey(pairs[i].chapter).None?;
    assert OrderKey(aux[i].0).None?;
  }

  /** A chapter name without a leading number stops the script before the
      chooser is shown: sorting the chapters by `order_fn` raises on the first
      such chapter in stem order. */
  lemma ClassifyRunUnnumberedChapter<E(!new)>(csvNames: seq<string>, mp3Names: seq<string>,
                                              choose: seq<(string, seq<int>)> -> Option<seq<(string, seq<int>)>>, proceed: bool,
                                              readRows: string -> seq<Row>, respond: (string, string) -> Response<E>)
    requires CsvMp3SplitPairs(csvNames, mp3Names).Ok?
    requires exists i | 0 <= i < |CsvMp3SplitPairs(csvNames, mp3Names).value| ::
      OrderKey(CsvMp3SplitPairs(csvNames, mp3Names).value[i].chapter).None?
    ensures var pairs := CsvMp3SplitPairs(csvNames, mp3Names).value;
      var k := FirstUnkeyed(AuxEntries(pairs));
      && k < |pairs|
      && (forall j | 0 <= j < k :: OrderKey(pairs[j].chapter).Some?)
      && ClassifyRun(csvNames, mp3Names, choose, proceed, readRows, respond) == Err(BadOrderKey(pairs[k].chapter))
  {
    var pairs := CsvMp3SplitPairs(csvNames, mp3Names).value;
    AuxEntriesUnkeyed(pairs);
  }
}

=== FILE: editor.dfy ===
/** The transcript editor of editor.py: range deletion, narrator removal,
    gibberish prefixing, line renumbering of inserted files, and the order in
    which these stages run. */
module Editor {
  import opened Wrappers
  import opened Text
  import opened Seqs
  import opened Transcript

  // ---------------------------------------------------------------------------
  // Range deletion (`Editor._deletes`)
  // ---------------------------------------------------------------------------

  /** Some deletion range holds the row's position. */
  predicate HitByAny(r: Row, ranges: seq<RawRange>) {
    exists k | 0 <= k < |ranges| :: InClosed(PosOf(r), ranges[k])
  }

  /** Drops every row that lies in at least one of the closed ranges. */
  function Deletes(rows: seq<Row>, ranges: seq<RawRange>): (kept: seq<Row>)
    ensures |kept| <= |rows|
    ensures forall r :: r in kept <==>
      r in rows && forall k | 0 <= k < |ranges| :: !InClosed(PosOf(r), ranges[k])
  {
    Filter(rows, (r: Row) => !HitByAny(r, ranges))
  }

  /** With no range nothing is deleted. */
  lemma DeletesNoRanges(rows: seq<Row>)
    ensures Deletes(rows, []) == rows
  {
    FilterAll(rows, (r: Row) => !HitByAny(r, []));
  }

  /** Deletion works row by row: the survivors of a concatenation are the
      survivors of each part, in order. */
  lemma DeletesKeepsOrder(a: seq<Row>, b: seq<Row>, ranges: seq<RawRange>)
    ensures Deletes(a + b, ranges) == Deletes(a, ranges) + Deletes(b, ranges)
  {
    FilterConcat(a, b, (r: Row) => !HitByAny(r, ranges));
  }

  lemma HitByConcat(r: Row, a: seq<RawRange>, b: seq<RawRange>)
    ensures HitByAny(r, a + b) <==> HitByAny(r, a) || HitByAny(r, b)
  {
    if HitByAny(r, a) {
      var k :| 0 <= k < |a| && InClosed(PosOf(r), a[k]);
      assert (a + b)[k] == a[k];
    }
    if HitByAny(r, b) {
      var k :| 0 <= k < |b| && InClosed(PosOf(r), b[k]);
      assert (a + b)[|a| + k] == b[k];
    }
  }

  /** Several range lists act as one union of removals: deleting by `a + b` is
      deleting by `a` and then by `b`. */
  lemma DeletesUnion(rows: seq<Row>, a: seq<RawRange>, b: seq<RawRange>)
    ensures Deletes(rows, a + b) == Deletes(Deletes(rows, a), b)
  {
    forall i | 0 <= i < |rows|
      ensures !HitByAny(rows[i], a + b) == (!HitByAny(rows[i], a) && !HitByAny(rows[i], b))
    {
      HitByConcat(rows[i], a, b);
    }
    FilterFilter(rows, (r: Row) => !HitByAny(r, a), (r: Row) => !HitByAny(r, b),
                 (r: Row) => !HitByAny(r, a + b));
  }

  /** The order in which ranges are listed does not matter. */
  lemma DeletesOrderIndependent(rows: seq<Row>, a: seq<RawRange>, b: seq<RawRange>)
    ensures Deletes(rows, a + b) == Deletes(rows, b + a)
  {
    forall i | 0 <= i < |rows|
      ensures !HitByAny(rows[i], a + b) == !HitByAny(rows[i], b + a)
    {
      HitByConcat(rows[i], a, b);
      HitByConcat(rows[i], b, a);
    }
    FilterExt(rows, (r: Row) => !HitByAny(r, a + b), (r: Row) => !HitByAny(r, b + a));
  }

  /** The editor has no sentinel: a range ending at `(-1, -1)` deletes no row
      with a non-negative dialogue index. */
  lemma SentinelRangeDeletesNothing(rows: seq<Row>, r: RawRange)
    requires r.IsSentinelEnd()
    requires forall i | 0 <= i < |rows| :: rows[i].dial >= 0
    ensures Deletes(rows, [r]) == rows
  {
    forall i | 0 <= i < |rows|
      ensures !HitByAny(rows[i], [r])
    {
      SentinelDeletesNothing(PosOf(rows[i]), r);
    }
    FilterAll(rows, (x: Row) => !HitByAny(x, [r]));
  }

  // ---------------------------------------------------------------------------
  // Narrator removal (`Editor._delete_narrator`)
  // ---------------------------------------------------------------------------

  const Narrator: string := "narrator"

  /** Keeps the rows whose speaker is not exactly "narrator"; rows without a
      speaker compare unequal and are kept. */
  function DeleteNarrator(rows: seq<Row>): (kept: seq<Row>)
    ensures |kept| <= |rows|
    ensures forall r :: r in kept <==> r in rows && r.speaker != Some(Narrator)
  {
    Filter(rows, (r: Row) => r.speaker != Some(Narrator))
  }

  lemma DeleteNarratorKeepsOrder(a: seq<Row>, b: seq<Row>)
    ensures DeleteNarrator(a + b) == DeleteNarrator(a) + DeleteNarrator(b)
  {
    FilterConcat(a, b, (r: Row) => r.speaker != Some(Narrator));
  }

  // ---------------------------------------------------------------------------
  // Gibberish prefixing (`Editor._prefix_gibberish`)
  // ---------------------------------------------------------------------------

  const GibberishPrefix: string := "(gibberish) "

  /** Speaker classes matched case-insensitively anywhere in the speaker name. */
  const GibberishClasses: seq<string> := ["fading", "gestral", "grandis", "faceless"]

  /** Speakers matched exactly. */
  const GibberishSpeakers: seq<string> := [
    "The Curator", "Noco", "Young boy", "Lady of Sap", "Golgra", "Jar", "???",
    "Karatom", "Tropa", "Peron", "Olivierso", "Jujubree", "Berrami",
    "Eesda", "Alexcyclo", "Victorifo", "Limonsol"]

  predicate IsGibberishSpeaker(speaker: Option<string>) {
    && speaker.Some?
    && (|| speaker.value in GibberishSpeakers
        || exists k | 0 <= k < |GibberishClasses| :: Contains(Lower(speaker.value), GibberishClasses[k]))
  }

  /** The line already holds the prefix somewhere, in any letter case. */
  predicate HasPrefixAlready(text: Option<string>) {
    text.Some? && Contains(Lower(text.value), GibberishPrefix)
  }

  /** `_prefix_gibberish`'s mask: a gibberish speaker and no prefix yet. A row
      without a line passes the mask but stays without a line. */
  function PrefixRow(r: Row): Row {
    if IsGibberishSpeaker(r.speaker) && !HasPrefixAlready(r.text) && r.text.Some? then
      r.(text := Some(GibberishPrefix + r.text.value))
    else
      r
  }

  /** Prefixes the line of every row spoken by a gibberish speaker, unless the
      line already carries the prefix; every other field and row is untouched. */
  function PrefixGibberish(rows: seq<Row>): (out: seq<Row>)
    ensures |out| == |rows|
    ensures forall i | 0 <= i < |rows| :: out[i].(text := rows[i].text) == rows[i]
    ensures forall i | 0 <= i < |rows| ::
      out[i].text != rows[i].text <==>
        IsGibberishSpeaker(rows[i].speaker) && rows[i].text.Some? && !HasPrefixAlready(rows[i].text)
    ensures forall i | 0 <= i < |rows| && out[i].text != rows[i].text ::
      out[i].text == Some(GibberishPrefix + rows[i].text.value)
  {
    seq(|rows|, i requires 0 <= i < |rows| =>
      var r := rows[i];
      assert r.text.Some? ==> |GibberishPrefix + r.text.value| != |r.text.value|;
      PrefixRow(r))
  }

  lemma LowerOfLowercase(s: string)
    requires forall i | 0 <= i < |s| :: !('A' <= s[i] <= 'Z')
    ensures Lower(s) == s
  {
  }

  /** A prefixed line is recognised as prefixed: the guard of the second pass fails. */
  lemma PrefixedLineHasPrefix(t: string)
    ensures HasPrefixAlready(Some(GibberishPrefix + t))
  {
    var p := GibberishPrefix;
    LowerConcat(p, t);
    assert forall i | 0 <= i < |p| :: !('A' <= p[i] <= 'Z');
    LowerOfLowercase(p);
    ContainsOwnPrefix(p, Lower(t));
  }

  /** Running the stage twice is running it once. */
  lemma PrefixGibberishIdempotent(rows: seq<Row>)
    ensures PrefixGibberish(PrefixGibberish(rows)) == PrefixGibberish(rows)
  {
    var once := PrefixGibberish(rows);
    forall i | 0 <= i < |rows|
      ensures PrefixRow(once[i]) == once[i]
    {
      if once[i].text != rows[i].text {
        PrefixedLineHasPrefix(rows[i].text.value);
      }
    }
  }

  /** Prefixing commutes with any filter that looks at positions and speakers
      only, so the stage order between deletes, narrator removal and prefixing
      does not change a chapter's rows. */
  lemma {:induction false} PrefixCommutesWithFilter(rows: seq<Row>, p: Row -> bool)
    requires forall i | 0 <= i < |rows| :: p(PrefixRow(rows[i])) == p(rows[i])
    ensures PrefixGibberish(Filter(rows, p)) == Filter(PrefixGibberish(rows), p)
  {
    if |rows| > 0 {
      PrefixCommutesWithFilter(rows[1..], p);
      var pr := PrefixGibberish(rows);
      assert pr[0] == PrefixRow(rows[0]);
      assert pr[1..] == PrefixGibberish(rows[1..]);
      var tail := Filter(rows[1..], p);
      if p(rows[0]) {
        assert Filter(rows, p) == [rows[0]] + tail;
        assert PrefixGibberish([rows[0]] + tail) == [PrefixRow(rows[0])] + PrefixGibberish(tail);
      } else {
        assert Filter(rows, p) == tail;
      }
    }
  }

  // ---------------------------------------------------------------------------
  // Line renumbering of inserted files (`Editor._inserts`)
  // ---------------------------------------------------------------------------

  /** The counter of the insertion loop at data row `i`: 0 at the first row
      and whenever the dialogue key differs from the previous row's, otherwise
      one more than the previous row's number. */
  function RunLength<K(==)>(keys: seq<K>, i: nat): nat
    requires i < |keys|
  {
    if i == 0 || keys[i] != keys[i - 1] then 0 else RunLength(keys, i - 1) + 1
  }

  function LineNumbers<K(==)>(keys: seq<K>): (nums: seq<nat>)
    ensures |nums| == |keys|
  {
    seq(|keys|, i requires 0 <= i < |keys| => RunLength(keys, i))
  }

  /** An independent reading of the numbering: each row's number is how many
      rows directly before it share its dialogue key. */
  ghost predicate RunNumbering<K>(keys: seq<K>, nums: seq<int>) {
    && |nums| == |keys|
    && forall i | 0 <= i < |keys| ::
         && 0 <= nums[i] <= i
         && (forall j | i - nums[i] <= j <= i :: keys[j] == keys[i])
         && (nums[i] < i ==> keys[i - nums[i] - 1] != keys[i])
  }

  lemma {:induction false} RunLengthCountsRun<K>(keys: seq<K>, i: nat)
    requires i < |keys|
    ensures RunLength(keys, i) <= i
    ensures forall j | i - RunLength(keys, i) <= j <= i :: keys[j] == keys[i]
    ensures RunLength(keys, i) < i ==> keys[i - RunLength(keys, i) - 1] != keys[i]
  {
    if i > 0 && keys[i] == keys[i - 1] {
      RunLengthCountsRun(keys, i - 1);
    }
  }

  lemma LineNumbersCountRuns<K>(keys: seq<K>)
    ensures RunNumbering(keys, LineNumbers(keys))
  {
    forall i | 0 <= i < |keys|
      ensures RunLength(keys, i) <= i
      ensures forall j | i - RunLength(keys, i) <= j <= i :: keys[j] == keys[i]
      ensures RunLength(keys, i) < i ==> keys[i - RunLength(keys, i) - 1] != keys[i]
    {
      RunLengthCountsRun(keys, i);
    }
  }

  /** At most one numbering counts runs, so the two readings agree. */
  lemma RunNumberingUnique<K>(keys: seq<K>, a: seq<int>, b: seq<int>)
    requires RunNumbering(keys, a) && RunNumbering(keys, b)
    ensures a == b
  {
    forall i | 0 <= i < |keys|
      ensures a[i] == b[i]
    {
      assert a[i] < i ==> keys[i - a[i] - 1] != keys[i];
      assert b[i] < i ==> keys[i - b[i] - 1] != keys[i];
    }
  }

  /** Renaming the keys injectively does not change the numbering. */
  lemma RunNumberingUnderInjection<K, L>(keys: seq<K>, names: seq<L>, nums: seq<int>)
    requires |names| == |keys|
    requires forall i, j | 0 <= i < |keys| && 0 <= j < |keys| :: names[i] == names[j] <==> keys[i] == keys[j]
    requires RunNumbering(keys, nums)
    ensures RunNumbering(names, nums)
  {
  }

  /** `row.insert(3, x)`: a list shorter than three gets `x` appended. */
  function InsertAtColumn3(row: seq<string>, x: string): seq<string> {
    if |row| >= 3 then row[..3] + [x] + row[3..] else row + [x]
  }

  /** The inserted field sits at column 3 (or at the end of a shorter list);
      the fields before it keep their columns, the fields after it move one up. */
  lemma InsertAtColumn3Fields(row: seq<string>, x: string)
    ensures |InsertAtColumn3(row, x)| == |row| + 1
    ensures forall k | 0 <= k < |row| && k < 3 :: InsertAtColumn3(row, x)[k] == row[k]
    ensures forall k | 3 <= k < |row| :: InsertAtColumn3(row, x)[k + 1] == row[k]
    ensures InsertAtColumn3(row, x)[Min(3, |row|)] == x
    ensures InsertAtColumn3(row, x)[..Min(3, |row|)] + InsertAtColumn3(row, x)[Min(3, |row|) + 1..] == row
  {
  }

  type Table = seq<seq<string>>

  /** Reading `row[2]` of a data row with fewer than three fields raises IndexError. */
  datatype InsertError = IndexError(row: nat)

  /** The raw `dialogue_index` field of a data row (empty when the row is too short). */
  function KeyField(row: seq<string>): string {
    if |row| >= 3 then row[2] else ""
  }

  /** The `dialogue_index` fields of the data rows (every row after the header). */
  function DialogueKeys(table: Table): (keys: seq<string>)
    ensures |keys| == if |table| == 0 then 0 else |table| - 1
  {
    if |table| == 0 then [] else seq(|table| - 1, i requires 0 <= i < |table| - 1 => KeyField(table[i + 1]))
  }

  /** The counter of the insertion loop, run over the dialogue keys: the last
      key seen and the running line index are the loop's only state. */
  method CountLines(keys: seq<string>) returns (nums: seq<nat>)
    ensures nums == LineNumbers(keys)
  {
    nums := [];
    var last: Option<string> := None;
    var lineIndex: nat := 0;
    var i := 0;
    while i < |keys|
      invariant 0 <= i <= |keys|
      invariant nums == LineNumbers(keys)[..i]
      invariant i == 0 ==> last.None?
      invariant i > 0 ==> last == Some(keys[i - 1]) && lineIndex == RunLength(keys, i - 1)
    {
      var current := keys[i];
      if last.None? || current != last.value {
        lineIndex := 0;
      } else {
        lineIndex := lineIndex + 1;
      }
      nums := nums + [lineIndex];
      last := Some(current);
      i := i + 1;
    }
  }

  /** `row.insert(3, ...)` on every row: "line_index" on the header, the
      decimal spelling of the row's number on each data row. */
  method InsertColumn(table: Table, nums: seq<nat>) returns (rows: Table)
    requires |table| >= 1 && |nums| == |table| - 1
    ensures |rows| == |table|
    ensures rows[0] == InsertAtColumn3(table[0], "line_index")
    ensures forall k | 1 <= k < |table| :: rows[k] == InsertAtColumn3(table[k], NatToString(nums[k - 1]))
  {
    rows := [InsertAtColumn3(table[0], "line_index")];
    var i := 1;
    while i < |table|
      invariant 1 <= i <= |table|
      invariant |rows| == i
      invariant rows[0] == InsertAtColumn3(table[0], "line_index")
      invariant forall k | 1 <= k < i :: rows[k] == InsertAtColumn3(table[k], NatToString(nums[k - 1]))
    {
      rows := rows + [InsertAtColumn3(table[i], NatToString(nums[i - 1]))];
      i := i + 1;
    }
  }

  /** `Editor._inserts` on one file read as lists of strings: the header gets
      "line_index" at column 3, each data row gets its renumbered line index
      at column 3, and a data row too short to have a dialogue index raises
      IndexError, reported for the first such row. `_inserts` counts and
      inserts in one pass; the model checks the rows, counts, then inserts,
      which gives the same table. */
  method InsertLineIndex(table: Table) returns (out: Result<Table, InsertError>)
    ensures out.Ok? <==> forall i | 1 <= i < |table| :: |table[i]| >= 3
    ensures out.Err? ==>
      && 1 <= out.error.row < |table|
      && |table[out.error.row]| < 3
      && forall i | 1 <= i < out.error.row :: |table[i]| >= 3
    ensures out.Ok? ==>
      && |out.value| == |table|
      && (|table| > 0 ==> out.value[0] == InsertAtColumn3(table[0], "line_index"))
      && forall i | 1 <= i < |table| ::
           out.value[i] == InsertAtColumn3(table[i], NatToString(LineNumbers(DialogueKeys(table))[i - 1]))
  {
    if |table| == 0 {
      return Ok([]);
    }
    var j := 1;
    while j < |table|
      invariant 1 <= j <= |table|
      invariant forall k | 1 <= k < j :: |table[k]| >= 3
    {
      if |table[j]| < 3 {
        return Err(IndexError(j));
      }
      j := j + 1;
    }
    var nums := CountLines(DialogueKeys(table));
    var rows := InsertColumn(table, nums);
    return Ok(rows);
  }

  function Dials(rows: seq<Row>): (ds: seq<int>)
    ensures |ds| == |rows|
  {
    seq(|rows|, i requires 0 <= i < |rows| => rows[i].dial)
  }

  function Lines(rows: seq<Row>): (ls: seq<int>)
    ensures |ls| == |rows|
  {
    seq(|rows|, i requires 0 <= i < |rows| => rows[i].line)
  }

  /** A data row of an insert file as `_inserts` meets it: the text of its
      dialogue-index field `row[2]`, which the loop compares, and the row as
      the written file is read back. */
  datatype InsertRow = InsertRow(dialCell: string, row: Row)

  function DialCells(rs: seq<InsertRow>): (cs: seq<string>)
    ensures |cs| == |rs| && forall i | 0 <= i < |rs| :: cs[i] == rs[i].dialCell
  {
    seq(|rs|, i requires 0 <= i < |rs| => rs[i].dialCell)
  }

  function InsertRows(rs: seq<InsertRow>): (rows: seq<Row>)
    ensures |rows| == |rs| && forall i | 0 <= i < |rs| :: rows[i] == rs[i].row
  {
    seq(|rs|, i requires 0 <= i < |rs| => rs[i].row)
  }

  /** Renumbering an insert file: every field but the line index is kept, and
      the line index counts the rows directly before it whose dialogue field
      has the same text. Text, not number: "5" and "05" are different. */
  function Renumber(rs: seq<InsertRow>): (out: seq<Row>)
    ensures |out| == |rs|
    ensures forall i | 0 <= i < |rs| :: out[i].(line := rs[i].row.line) == rs[i].row
    ensures RunNumbering(DialCells(rs), Lines(out))
  {
    var nums := LineNumbers(DialCells(rs));
    LineNumbersCountRuns(DialCells(rs));
    var out := seq(|rs|, i requires 0 <= i < |rs| => rs[i].row.(line := nums[i]));
    assert Lines(out) == nums;
    out
  }

  /** The table has a header and one data row per insert row, and each data
      row's third field is that row's dialogue field. */
  predicate FieldsAreCells(rs: seq<InsertRow>, table: Table) {
    && |table| == |rs| + 1
    && forall i | 0 <= i < |rs| :: |table[i + 1]| >= 3 && table[i + 1][2] == rs[i].dialCell
  }

  /** The CSV-level loop and the row-level renumbering give the same line
      numbers. */
  lemma TableNumberingMatchesRows(rs: seq<InsertRow>, table: Table)
    requires FieldsAreCells(rs, table)
    ensures LineNumbers(DialogueKeys(table)) == Lines(Renumber(rs))
  {
    var keys := DialogueKeys(table);
    assert keys == DialCells(rs);
    LineNumbersCountRuns(keys);
    RunNumberingUnique(keys, LineNumbers(keys), Lines(Renumber(rs)));
  }

  /** Every dialogue field is the decimal spelling of its row's dialogue index. */
  predicate CellsSpellDials(rs: seq<InsertRow>) {
    forall i | 0 <= i < |rs| :: rs[i].dialCell == IntToString(rs[i].row.dial)
  }

  /** Equal dialogue fields mean equal dialogue indices, and back. */
  lemma CellsFollowDials(rs: seq<InsertRow>)
    requires CellsSpellDials(rs)
    ensures forall i, j | 0 <= i < |rs| && 0 <= j < |rs| ::
      DialCells(rs)[i] == DialCells(rs)[j] <==> Dials(InsertRows(rs))[i] == Dials(InsertRows(rs))[j]
  {
    forall i, j | 0 <= i < |rs| && 0 <= j < |rs| && rs[i].dialCell == rs[j].dialCell
      ensures rs[i].row.dial == rs[j].row.dial
    {
      IntToStringInjective(rs[i].row.dial, rs[j].row.dial);
    }
  }

  /** When every dialogue field spells its index, as pandas writes them, the
      line index counts runs of equal dialogue indices. */
  lemma RenumberBySpelledDials(rs: seq<InsertRow>)
    requires CellsSpellDials(rs)
    ensures RunNumbering(Dials(InsertRows(rs)), Lines(Renumber(rs)))
  {
    CellsFollowDials(rs);
    RunNumberingUnderInjection(DialCells(rs), Dials(InsertRows(rs)), Lines(Renumber(rs)));
  }

  /** Dialogue fields "5" and then "05" start two runs, though both rows read
      back as dialogue 5. */
  lemma PaddedFieldStartsRun(r0: Row, r1: Row)
    requires r0.dial == 5 && r1.dial == 5
    ensures Dials(InsertRows([InsertRow("5", r0), InsertRow("05", r1)])) == [5, 5]
    ensures Lines(Renumber([InsertRow("5", r0), InsertRow("05", r1)])) == [0, 0]
  {
    var rs := [InsertRow("5", r0), InsertRow("05", r1)];
    assert DialCells(rs) == ["5", "05"];
    assert RunLength(["5", "05"], 1) == 0;
  }

  // ---------------------------------------------------------------------------
  // Stage order (`Editor._prep_pipeline` and `Editor.main`)
  // ---------------------------------------------------------------------------

  /** A deletion rule as read from the rule file; `ranges` is `None` when the
      rule has no such key. */
  datatype DeleteRule = DeleteRule(source: string, ranges: Option<seq<RawRange>>)

  /** What the editors raise: `KeyError` for a key a rule lacks,
      `FileNotFoundError` for a file that is not there, and the error
      `pd.read_csv` raises when it is handed a directory. */
  datatype EditError = KeyError(key: string) | FileNotFound(name: string) | IsADirectory(name: string)

  /** The command-line switches `--keep-narrator` and `--keep-gibberish`. */
  datatype Flags = Flags(keepNarrator: bool, keepGibberish: bool)

  datatype ChapterFile = ChapterFile(name: string, rows: seq<Row>)

  /** Every rule whose source names the file has a `ranges` key. */
  predicate RangesPresent(name: string, rules: seq<DeleteRule>) {
    forall k | 0 <= k < |rules| && rules[k].source == name :: rules[k].ranges.Some?
  }

  /** Runs every deletion rule whose source names this file, in rule order;
      reading `ranges` of such a rule without the key raises `KeyError`. */
  function ApplyDeleteRules(name: string, rows: seq<Row>, rules: seq<DeleteRule>): Result<seq<Row>, EditError>
    decreases |rules|
  {
    if |rules| == 0 then Ok(rows)
    else if name != rules[0].source then ApplyDeleteRules(name, rows, rules[1..])
    else if rules[0].ranges.None? then Err(KeyError("ranges"))
    else ApplyDeleteRules(name, Deletes(rows, rules[0].ranges.value), rules[1..])
  }

  /** All ranges of the rules whose source names this file. */
  function MatchingRanges(name: string, rules: seq<DeleteRule>): seq<RawRange> {
    if |rules| == 0 then []
    else
      (if name == rules[0].source && rules[0].ranges.Some? then rules[0].ranges.value else [])
      + MatchingRanges(name, rules[1..])
  }

  lemma RangesPresentTail(name: string, rules: seq<DeleteRule>)
    requires |rules| > 0
    ensures RangesPresent(name, rules) <==>
      (rules[0].source == name ==> rules[0].ranges.Some?) && RangesPresent(name, rules[1..])
  {
    assert forall k | 1 <= k < |rules| :: rules[k] == rules[1..][k - 1];
  }

  /** Rule after rule, the deletions add up to one union over all matching
      ranges; the run fails exactly when a matching rule lacks its ranges. */
  lemma {:induction false} ApplyDeleteRulesIsUnion(name: string, rows: seq<Row>, rules: seq<DeleteRule>)
    ensures ApplyDeleteRules(name, rows, rules).Ok? <==> RangesPresent(name, rules)
    ensures ApplyDeleteRules(name, rows, rules).Err? ==> ApplyDeleteRules(name, rows, rules).error == KeyError("ranges")
    ensures ApplyDeleteRules(name, rows, rules).Ok? ==>
      ApplyDeleteRules(name, rows, rules).value == Deletes(rows, MatchingRanges(name, rules))
    decreases |rules|
  {
    if |rules| == 0 {
      DeletesNoRanges(rows);
    } else {
      RangesPresentTail(name, rules);
      if name != rules[0].source {
        ApplyDeleteRulesIsUnion(name, rows, rules[1..]);
        assert ApplyDeleteRules(name, rows, rules) == ApplyDeleteRules(name, rows, rules[1..]);
        assert MatchingRanges(name, rules) == MatchingRanges(name, rules[1..]);
      } else if rules[0].ranges.Some? {
        var here := rules[0].ranges.value;
        ApplyDeleteRulesIsUnion(name, Deletes(rows, here), rules[1..]);
        DeletesUnion(rows, here, MatchingRanges(name, rules[1..]));
      }
    }
  }

  /** A row outlives the deletes and, unless narrators are kept, narrator removal. */
  predicate Survives(x: Row, ranges: seq<RawRange>, keepNarrator: bool) {
    !HitByAny(x, ranges) && (keepNarrator || x.speaker != Some(Narrator))
  }

  /** The rows of a chapter that survive every removal stage, in one pass. */
  function Survivors(f: ChapterFile, rules: seq<DeleteRule>, flags: Flags): seq<Row> {
    Filter(f.rows, (x: Row) => Survives(x, MatchingRanges(f.name, rules), flags.keepNarrator))
  }

  /** One chapter through the pipeline: deletes, then (unless kept) narrator
      removal, then (unless kept) gibberish prefixing. The result is the
      one-pass filter `Survivors`, in order, each row prefixed when the
      gibberish stage runs; a matching rule without ranges raises. */
  function EditChapter(f: ChapterFile, rules: seq<DeleteRule>, flags: Flags): (r: Result<ChapterFile, EditError>)
    ensures r.Ok? <==> RangesPresent(f.name, rules)
    ensures r.Err? ==> r.error == KeyError("ranges")
    ensures r.Ok? ==> r.value.name == f.name
    ensures r.Ok? ==> |r.value.rows| == |Survivors(f, rules, flags)|
    ensures r.Ok? ==> forall i | 0 <= i < |r.value.rows| ::
      r.value.rows[i] == if flags.keepGibberish then Survivors(f, rules, flags)[i] else PrefixRow(Survivors(f, rules, flags)[i])
    ensures r.Ok? ==> forall x | x in r.value.rows :: !HitByAny(x, MatchingRanges(f.name, rules))
    ensures r.Ok? && !flags.keepNarrator ==> forall x | x in r.value.rows :: x.speaker != Some(Narrator)
    ensures r.Ok? && !flags.keepGibberish ==> forall x | x in r.value.rows ::
      IsGibberishSpeaker(x.speaker) && x.text.Some? ==> HasPrefixAlready(x.text)
  {
    ApplyDeleteRulesIsUnion(f.name, f.rows, rules);
    var kept :- ApplyDeleteRules(f.name, f.rows, rules);
    var ranges := MatchingRanges(f.name, rules);
    var spoken := if flags.keepNarrator then kept else DeleteNarrator(kept);
    var marked := if flags.keepGibberish then spoken else PrefixGibberish(spoken);
    SurvivorsByStages(f, rules, flags);
    assert spoken == Survivors(f, rules, flags);
    assert forall i | 0 <= i < |spoken| :: Survives(spoken[i], ranges, flags.keepNarrator);
    if !flags.keepGibberish then
      PrefixedRowsMarked(spoken);
      forall x | x in marked
        ensures Survives(x, ranges, flags.keepNarrator)
      {
        var i :| 0 <= i < |marked| && marked[i] == x;
        assert PosOf(x) == PosOf(spoken[i]) && x.speaker == spoken[i].speaker;
      }
      Ok(ChapterFile(f.name, marked))
    else
      Ok(ChapterFile(f.name, marked))
  }

  /** The removal stages one after the other select what `Survivors` selects. */
  lemma SurvivorsByStages(f: ChapterFile, rules: seq<DeleteRule>, flags: Flags)
    ensures var kept := Deletes(f.rows, MatchingRanges(f.name, rules));
      Survivors(f, rules, flags) == if flags.keepNarrator then kept else DeleteNarrator(kept)
  {
    var ranges := MatchingRanges(f.name, rules);
    var notHit := (x: Row) => !HitByAny(x, ranges);
    var survives := (x: Row) => Survives(x, ranges, flags.keepNarrator);
    if flags.keepNarrator {
      FilterExt(f.rows, survives, notHit);
    } else {
      FilterFilter(f.rows, notHit, (x: Row) => x.speaker != Some(Narrator), survives);
    }
  }

  /** After the gibberish stage every gibberish line with text carries the prefix. */
  lemma PrefixedRowsMarked(rows: seq<Row>)
    ensures forall x | x in PrefixGibberish(rows) ::
      IsGibberishSpeaker(x.speaker) && x.text.Some? ==> HasPrefixAlready(x.text)
  {
    var marked := PrefixGibberish(rows);
    forall i | 0 <= i < |rows| && IsGibberishSpeaker(marked[i].speaker) && marked[i].text.Some?
      ensures HasPrefixAlready(marked[i].text)
    {
      if marked[i].text != rows[i].text {
        PrefixedLineHasPrefix(rows[i].text.value);
      }
    }
  }

  // ---------------------------------------------------------------------------
  // Directories and inserts (`Editor._inserts`, `Editor.main`)
  // ---------------------------------------------------------------------------

  /** A directory: file names to the rows each file holds. */
  type Dir = map<string, seq<Row>>

  /** The custom inserts directory: file names to the insert rows each holds. */
  type InsertDir = map<string, seq<InsertRow>>

  /** The file an insert or a legacy rule names: its stem with ".csv". */
  function CsvName(source: string): string {
    source + ".csv"
  }

  /** The files the inserts read and write, in list order. */
  function InsertFiles(inserts: seq<string>): (names: seq<string>)
    ensures |names| == |inserts|
    ensures forall k | 0 <= k < |inserts| :: names[k] == CsvName(inserts[k])
  {
    seq(|inserts|, k requires 0 <= k < |inserts| => CsvName(inserts[k]))
  }

  lemma InsertFilesCons(inserts: seq<string>)
    requires |inserts| > 0
    ensures InsertFiles(inserts) == [CsvName(inserts[0])] + InsertFiles(inserts[1..])
  {
    assert forall k | 0 < k < |inserts| :: inserts[k] == inserts[1..][k - 1];
  }

  /** The position of the first name missing from `present`, or `|names|`. */
  function FirstAbsent(names: seq<string>, present: set<string>): (k: nat)
    ensures k <= |names|
    ensures forall j | 0 <= j < k :: names[j] in present
    ensures k < |names| ==> names[k] !in present
  {
    if |names| == 0 then 0
    else if names[0] !in present then 0
    else 1 + FirstAbsent(names[1..], present)
  }

  /** Every insert's file is in the inserts directory. */
  predicate InsertFilesFound(inserts: seq<string>, insertDir: InsertDir) {
    forall k | 0 <= k < |inserts| :: CsvName(inserts[k]) in insertDir
  }

  /** The insert loop: each listed insert is read from the inserts directory,
      renumbered, and written into `dir` under its own name, replacing a file
      of that name; a missing insert stops the loop. */
  function WriteInserts(dir: Dir, inserts: seq<string>, insertDir: InsertDir): (r: Result<Dir, EditError>)
    ensures r.Ok? <==> InsertFilesFound(inserts, insertDir)
    ensures r.Ok? ==> forall n :: n in r.value <==> n in dir || n in InsertFiles(inserts)
    ensures r.Ok? ==> forall k | 0 <= k < |inserts| ::
      r.value[InsertFiles(inserts)[k]] == Renumber(insertDir[InsertFiles(inserts)[k]])
    ensures r.Ok? ==> forall n | n in dir && n !in InsertFiles(inserts) :: r.value[n] == dir[n]
    decreases |inserts|
  {
    if |inserts| == 0 then Ok(dir)
    else
      var name := CsvName(inserts[0]);
      if name !in insertDir then Err(FileNotFound(name))
      else
        var next := dir[name := Renumber(insertDir[name])];
        InsertFilesCons(inserts);
        WriteInserts(next, inserts[1..], insertDir)
  }

  /** The loop stops at the first insert whose file is missing and names it. */
  lemma {:induction false} WriteInsertsError(dir: Dir, inserts: seq<string>, insertDir: InsertDir)
    requires WriteInserts(dir, inserts, insertDir).Err?
    ensures FirstAbsent(InsertFiles(inserts), insertDir.Keys) < |inserts|
    ensures WriteInserts(dir, inserts, insertDir).error
         == FileNotFound(InsertFiles(inserts)[FirstAbsent(InsertFiles(inserts), insertDir.Keys)])
    decreases |inserts|
  {
    var name := CsvName(inserts[0]);
    assert InsertFiles(inserts)[1..] == InsertFiles(inserts[1..]);
    if name in insertDir {
      WriteInsertsError(dir[name := Renumber(insertDir[name])], inserts[1..], insertDir);
    }
  }

  /** Every raw chapter has what its deletion rules need. */
  predicate ChaptersEditable(raw: Dir, rules: seq<DeleteRule>) {
    forall n | n in raw :: RangesPresent(n, rules)
  }

  /** `_prep_pipeline`: every raw chapter edited and written under its own name. */
  function EditAll(raw: Dir, rules: seq<DeleteRule>, flags: Flags): (r: Result<Dir, EditError>)
    ensures r.Ok? <==> ChaptersEditable(raw, rules)
    ensures r.Err? ==> r.error == KeyError("ranges")
    ensures r.Ok? ==> r.value.Keys == raw.Keys
    ensures r.Ok? ==> forall n | n in raw :: EditChapter(ChapterFile(n, raw[n]), rules, flags).Ok?
    ensures r.Ok? ==> forall n | n in raw :: r.value[n] == EditChapter(ChapterFile(n, raw[n]), rules, flags).value.rows
  {
    if ChaptersEditable(raw, rules) then
      Ok(map n | n in raw :: EditChapter(ChapterFile(n, raw[n]), rules, flags).value.rows)
    else
      Err(KeyError("ranges"))
  }

  /** `Editor.main`: every raw chapter goes through `EditChapter` and is
      written to the edits directory under its name; afterwards each listed
      insert is renumbered and written to the same directory under its name,
      with no deletion, narrator removal or gibberish prefixing, replacing an
      edited chapter of the same name. */
  function EditorMain(raw: Dir, rules: seq<DeleteRule>, inserts: seq<string>, insertDir: InsertDir, flags: Flags): (r: Result<Dir, EditError>)
    ensures r.Ok? <==> ChaptersEditable(raw, rules) && InsertFilesFound(inserts, insertDir)
    ensures r.Ok? ==> forall n :: n in r.value <==> n in raw || n in InsertFiles(inserts)
    ensures r.Ok? ==> forall n | n in raw && n !in InsertFiles(inserts) ::
      && EditChapter(ChapterFile(n, raw[n]), rules, flags).Ok?
      && r.value[n] == EditChapter(ChapterFile(n, raw[n]), rules, flags).value.rows
    ensures r.Ok? ==> forall k | 0 <= k < |inserts| ::
      var n := InsertFiles(inserts)[k];
      && r.value[n] == Renumber(insertDir[n])
      && RunNumbering(DialCells(insertDir[n]), Lines(r.value[n]))
  {
    var edited :- EditAll(raw, rules, flags);
    WriteInserts(edited, inserts, insertDir)
  }

  /** A missing `ranges` key in a chapter's rule is raised before any insert
      is read; otherwise the first missing insert is named. */
  lemma EditorMainError(raw: Dir, rules: seq<DeleteRule>, inserts: seq<string>, insertDir: InsertDir, flags: Flags)
    requires EditorMain(raw, rules, inserts, insertDir, flags).Err?
    ensures var e := EditorMain(raw, rules, inserts, insertDir, flags).error;
      if !ChaptersEditable(raw, rules) then e == KeyError("ranges")
      else
        && FirstAbsent(InsertFiles(inserts), insertDir.Keys) < |inserts|
        && e == FileNotFound(InsertFiles(inserts)[FirstAbsent(InsertFiles(inserts), insertDir.Keys)])
  {
    var edited := EditAll(raw, rules, flags);
    if edited.Ok? {
      WriteInsertsError(edited.value, inserts, insertDir);
    }
  }
}

=== FILE: paths.dfy ===
/** The part of `pathlib` the pipeline uses to name and match files: the stem of
    a file name. Paths are modelled by their final component only. */
module Paths {
  import opened Text

  /** Python's `str.rfind` for one character: the last index of `c`, or -1. */
  function RFind(s: string, c: char): (k: int)
    ensures -1 <= k < |s|
    ensures k >= 0 ==> s[k] == c
    ensures forall j | k < j < |s| :: s[j] != c
  {
    if |s| == 0 then -1
    else if s[|s| - 1] == c then |s| - 1
    else RFind(s[..|s| - 1], c)
  }

  /** `PurePath(name).stem`: the name without its last suffix. A dot that opens
      the name, or ends it, starts no suffix. */
  function Stem(name: string): (stem: string)
    ensures |stem| <= |name| && stem == name[..|stem|]
    ensures '.' !in name ==> stem == name
  {
    var i := RFind(name, '.');
    if 0 < i < |name| - 1 then name[..i] else name
  }

  /** A file written as `base + "." + ext` has stem `base` when the extension is
      a non-empty, dot-free word and the base is not empty. */
  lemma StemOfFileName(base: string, ext: string)
    requires |base| > 0 && |ext| > 0 && '.' !in ext
    ensures Stem(base + "." + ext) == base
  {
    var name := base + "." + ext;
    assert name[|base| + 1..] == ext;
    var i := RFind(name, '.');
    assert name[|base|] == '.';
    assert forall j | |base| < j < |name| :: name[j] == ext[j - |base| - 1];
    assert i == |base|;
    assert name[..i] == base;
  }
}

=== FILE: scraper.dfy ===
/** The file-writing side of scraper.py: how a scraped chapter title becomes a
    file name, and the older in-place `Editor` of that file, which edits the
    CSV directory file by file. Fetching and parsing the web pages is not part
    of this model. */
module Scraper {
  import opened Wrappers
  import opened Text
  import opened Seqs
  import opened Paths
  import opened Transcript
  import opened Editor

  // ---------------------------------------------------------------------------
  // File-name sanitising (`Scraper.__file_name_safe`)
  // ---------------------------------------------------------------------------

  predicate IsAscii(c: char) {
    c as int < 128
  }

  predicate IsAsciiAlnum(c: char) {
    'a' <= c <= 'z' || 'A' <= c <= 'Z' || '0' <= c <= '9'
  }

  /** What the character class `[a-zA-Z0-9\s\-_]` admits of ASCII text. */
  predicate IsKept(c: char) {
    IsAsciiAlnum(c) || IsSpace(c) || c == '-' || c == '_'
  }

  /** The characters a sanitised name is made of. */
  predicate IsNameChar(c: char) {
    IsAsciiAlnum(c) || c == '-' || c == '_'
  }

  predicate AllNameChars(s: string) {
    forall i | 0 <= i < |s| :: IsNameChar(s[i])
  }

  predicate AllSpace(s: string) {
    forall i | 0 <= i < |s| :: IsSpace(s[i])
  }

  /** Every character survives both filters: whitespace or a name character. */
  predicate Clean(s: string) {
    forall i | 0 <= i < |s| :: IsSpace(s[i]) || IsNameChar(s[i])
  }

  lemma CleanConcat(x: string, y: string)
    requires Clean(x) && Clean(y)
    ensures Clean(x + y)
  {
    assert forall i | |x| <= i < |x + y| :: (x + y)[i] == y[i - |x|];
  }

  lemma NameCharsAreClean(s: string)
    requires AllNameChars(s)
    ensures Clean(s) && NoSpace(s)
  {
  }

  /** Dropping a prefix keeps a string clean. */
  lemma CleanSuffix(s: string, k: nat)
    requires k <= |s|
    ensures Clean(s) ==> Clean(s[k..])
  {
    assert forall i | 0 <= i < |s| - k :: s[k..][i] == s[k + i];
  }

  lemma CleanPrefix(s: string, k: nat)
    requires k <= |s|
    ensures Clean(s) ==> Clean(s[..k])
  {
    assert forall i | 0 <= i < k :: s[..k][i] == s[i];
  }

  lemma CleanStrip(s: string)
    requires Clean(s)
    ensures Clean(Strip(s))
  {
    var left := StripLeft(s);
    CleanSuffix(s, |s| - |left|);
    CleanPrefix(left, |StripRight(left)|);
  }

  /** What the character class lets through is whitespace and name characters. */
  lemma KeptIsClean(s: string)
    ensures Clean(Filter(s, IsKept))
  {
    var kept := Filter(s, IsKept);
    assert forall i | 0 <= i < |kept| :: kept[i] in kept;
  }

  lemma NameCharsCons(c: char, t: string)
    ensures !IsSpace(c) && NoSpace(t) ==> NoSpace([c] + t)
    ensures IsNameChar(c) && AllNameChars(t) ==> AllNameChars([c] + t)
  {
    assert forall i | 1 <= i < |t| + 1 :: ([c] + t)[i] == t[i - 1];
  }

  /** `re.sub(r'\s+', '_', s)`: every maximal run of whitespace becomes one underscore. */
  function CollapseSpaces(s: string): (r: string)
    ensures |r| <= |s|
    decreases |s|
  {
    if |s| == 0 then ""
    else if IsSpace(s[0]) then ['_'] + CollapseSpaces(StripLeft(s[1..]))
    else [s[0]] + CollapseSpaces(s[1..])
  }

  /** No whitespace survives the collapse, and only the underscores it adds
      are new. */
  lemma {:induction false} CollapseSpacesChars(s: string)
    ensures NoSpace(CollapseSpaces(s))
    ensures Clean(s) ==> AllNameChars(CollapseSpaces(s))
    decreases |s|
  {
    if |s| > 0 {
      CleanSuffix(s, 1);
      if IsSpace(s[0]) {
        var rest := StripLeft(s[1..]);
        CleanSuffix(s[1..], |s| - 1 - |rest|);
        CollapseSpacesChars(rest);
        NameCharsCons('_', CollapseSpaces(rest));
      } else {
        CollapseSpacesChars(s[1..]);
        NameCharsCons(s[0], CollapseSpaces(s[1..]));
      }
    }
  }

  /** The first `n` characters, or all of them when there are fewer: `s[:n]`. */
  function Take(s: string, n: nat): (r: string)
    ensures |r| <= n && |r| <= |s| && r == s[..|r|]
    ensures |s| <= n ==> r == s
  {
    if |s| <= n then s else s[..n]
  }

  const MaxNameLength: nat := 255

  /** The title after Unicode NFKD normalisation is the input: the ASCII
      encoding drops every other character, the character class drops
      punctuation, the ends are stripped, inner whitespace runs become `_`, and
      the result is cut to 255 characters. */
  function FileNameSafe(normalized: string): (name: string)
    ensures |name| <= MaxNameLength
    ensures AllNameChars(name)
  {
    var ascii := Filter(normalized, IsAscii);
    var cleaned := Filter(ascii, IsKept);
    KeptIsClean(ascii);
    CleanStrip(cleaned);
    CollapseSpacesChars(Strip(cleaned));
    Take(CollapseSpaces(Strip(cleaned)), MaxNameLength)
  }

  lemma {:induction false} CollapseNoSpace(s: string)
    requires NoSpace(s)
    ensures CollapseSpaces(s) == s
    decreases |s|
  {
    if |s| > 0 {
      CollapseNoSpace(s[1..]);
    }
  }

  lemma {:induction false} CollapseAfterWord(a: string, rest: string)
    requires NoSpace(a)
    ensures CollapseSpaces(a + rest) == a + CollapseSpaces(rest)
    decreases |a|
  {
    if |a| > 0 {
      var ar := a + rest;
      assert ar[0] == a[0] && !IsSpace(a[0]);
      assert ar[1..] == a[1..] + rest;
      CollapseAfterWord(a[1..], rest);
      assert a == [a[0]] + a[1..];
    } else {
      assert a + rest == rest;
    }
  }

  lemma {:induction false} StripLeftSpaces(w: string, m: string)
    requires AllSpace(w)
    requires |m| > 0 && !IsSpace(m[0])
    ensures StripLeft(w + m) == m
    decreases |w|
  {
    if |w| > 0 {
      assert (w + m)[1..] == w[1..] + m;
      StripLeftSpaces(w[1..], m);
    } else {
      assert w + m == m;
    }
  }

  lemma {:induction false} StripRightSpaces(m: string, w: string)
    requires AllSpace(w)
    requires |m| > 0 && !IsSpace(m[|m| - 1])
    ensures StripRight(m + w) == m
    decreases |w|
  {
    if |w| > 0 {
      assert (m + w)[..|m + w| - 1] == m + w[..|w| - 1];
      StripRightSpaces(m, w[..|w| - 1]);
    } else {
      assert m + w == m;
    }
  }

  lemma {:induction false} FilterKeepsClean(s: string)
    requires Clean(s)
    ensures Filter(Filter(s, IsAscii), IsKept) == s
  {
    FilterAll(s, IsAscii);
    FilterAll(s, IsKept);
  }

  /** A name already made of name characters, short enough, passes unchanged. */
  lemma FileNameSafeFixes(name: string)
    requires AllNameChars(name) && |name| <= MaxNameLength
    ensures FileNameSafe(name) == name
  {
    NameCharsAreClean(name);
    FilterKeepsClean(name);
    StripNoSpace(name);
    CollapseNoSpace(name);
  }

  /** Sanitising a sanitised name changes nothing. Normalisation is left out
      of the second pass because NFKD leaves ASCII text as it is. */
  lemma FileNameSafeIdempotent(normalized: string)
    ensures FileNameSafe(FileNameSafe(normalized)) == FileNameSafe(normalized)
  {
    FileNameSafeFixes(FileNameSafe(normalized));
  }

  lemma StripAround(w0: string, m: string, w2: string)
    requires AllSpace(w0) && AllSpace(w2)
    requires |m| > 0 && !IsSpace(m[0]) && !IsSpace(m[|m| - 1])
    ensures Strip(w0 + m + w2) == m
  {
    assert w0 + m + w2 == w0 + (m + w2);
    StripLeftSpaces(w0, m + w2);
    StripRightSpaces(m, w2);
  }

  /** A run of whitespace before a word collapses into one underscore. */
  lemma CollapseRun(w: string, b: string)
    requires AllSpace(w) && |w| > 0
    requires |b| > 0 && !IsSpace(b[0])
    ensures CollapseSpaces(w + b) == "_" + CollapseSpaces(b)
  {
    var wb := w + b;
    assert wb[0] == w[0];
    assert wb[1..] == w[1..] + b;
    StripLeftSpaces(w[1..], b);
  }

  lemma CollapseTwoWords(a: string, w: string, b: string)
    requires AllNameChars(a) && AllNameChars(b) && AllSpace(w)
    requires |w| > 0 && |b| > 0
    ensures CollapseSpaces(a + w + b) == a + "_" + b
  {
    var wb := w + b;
    assert a + w + b == a + wb;
    assert CollapseSpaces(wb) == "_" + b by {
      NameCharsAreClean(b);
      CollapseRun(w, b);
      CollapseNoSpace(b);
    }
    assert CollapseSpaces(a + wb) == a + CollapseSpaces(wb) by {
      NameCharsAreClean(a);
      CollapseAfterWord(a, wb);
    }
    assert a + ("_" + b) == a + "_" + b;
  }

  lemma CleanAround(w0: string, a: string, w1: string, b: string, w2: string)
    requires AllSpace(w0) && AllSpace(w1) && AllSpace(w2)
    requires AllNameChars(a) && AllNameChars(b)
    ensures Clean(w0 + (a + w1 + b) + w2)
  {
    NameCharsAreClean(a);
    NameCharsAreClean(b);
    CleanConcat(a, w1);
    CleanConcat(a + w1, b);
    CleanConcat(w0, a + w1 + b);
    CleanConcat(w0 + (a + w1 + b), w2);
  }

  lemma StripOfCleanWords(w0: string, a: string, w1: string, b: string, w2: string)
    requires AllSpace(w0) && AllSpace(w1) && AllSpace(w2)
    requires AllNameChars(a) && AllNameChars(b)
    requires |a| > 0 && |b| > 0
    ensures Strip(Filter(Filter(w0 + (a + w1 + b) + w2, IsAscii), IsKept)) == a + w1 + b
  {
    var m := a + w1 + b;
    CleanAround(w0, a, w1, b, w2);
    FilterKeepsClean(w0 + m + w2);
    assert IsNameChar(a[0]) && IsNameChar(b[|b| - 1]);
    assert m[0] == a[0] && m[|m| - 1] == b[|b| - 1];
    StripAround(w0, m, w2);
  }

  /** Surrounding whitespace disappears and the whitespace between two words
      turns into exactly one underscore. */
  lemma FileNameSafeJoinsWords(w0: string, a: string, w1: string, b: string, w2: string)
    requires AllSpace(w0) && AllSpace(w1) && AllSpace(w2)
    requires AllNameChars(a) && AllNameChars(b)
    requires |w1| > 0 && |a| > 0 && |b| > 0
    requires |a| + 1 + |b| <= MaxNameLength
    ensures FileNameSafe(w0 + (a + w1 + b) + w2) == a + "_" + b
  {
    StripOfCleanWords(w0, a, w1, b, w2);
    CollapseTwoWords(a, w1, b);
  }

  // ---------------------------------------------------------------------------
  // Output file names (`Scraper.write`, `Scraper.main`)
  // ---------------------------------------------------------------------------

  /** `f"{page_ix}_{safe title}.csv"` under the CSV directory. */
  function ChapterFileName(pageIx: nat, normalizedTitle: string): (name: string)
    ensures Stem(name) == NatToString(pageIx) + "_" + FileNameSafe(normalizedTitle)
    ensures IndexOf(name, '_') == |NatToString(pageIx)|
    ensures name[..|NatToString(pageIx)|] == NatToString(pageIx)
  {
    var prefix := NatToString(pageIx);
    var base := prefix + "_" + FileNameSafe(normalizedTitle);
    StemOfFileName(base, "csv");
    var name := base + "." + "csv";
    assert name[..|prefix|] == prefix;
    FirstUnderscoreAfterDigits(prefix, name);
    name
  }

  lemma FirstUnderscoreAfterDigits(digits: string, name: string)
    requires AllDigits(digits)
    requires |digits| < |name| && name[..|digits|] == digits && name[|digits|] == '_'
    ensures IndexOf(name, '_') == |digits|
  {
    assert '_' !in name[..|digits|] by {
      assert forall j | 0 <= j < |digits| :: IsDigit(name[..|digits|][j]);
    }
    IndexOfIsFirst(name, '_', |digits|);
  }

  /** Pages scraped with different indices never write to the same file,
      whatever their titles. */
  lemma ChapterFileNameInjective(i: nat, s: string, j: nat, t: string)
    requires ChapterFileName(i, s) == ChapterFileName(j, t)
    ensures i == j
  {
    var name := ChapterFileName(i, s);
    var ni := NatToString(i);
    var nj := NatToString(j);
    assert |ni| == |nj|;
    assert name[..|ni|] == ni;
    assert name[..|nj|] == nj;
    NatToStringInjective(i, j);
  }

  /** The names written by one run: the page index counts the pages scraped
      before, starting from 0. */
  function ScrapedFileNames(normalizedTitles: seq<string>): (names: seq<string>)
    ensures |names| == |normalizedTitles|
    ensures forall i | 0 <= i < |names| ::
      Stem(names[i]) == NatToString(i) + "_" + FileNameSafe(normalizedTitles[i])
    ensures forall i, j | 0 <= i < |names| && 0 <= j < |names| && names[i] == names[j] :: i == j
  {
    var names := seq(|normalizedTitles|, i requires 0 <= i < |normalizedTitles| =>
      ChapterFileName(i, normalizedTitles[i]));
    forall i, j | 0 <= i < |names| && 0 <= j < |names| && names[i] == names[j]
      ensures i == j
    {
      ChapterFileNameInjective(i, normalizedTitles[i], j, normalizedTitles[j]);
    }
    names
  }

  // ---------------------------------------------------------------------------
  // The older in-place editor (`scraper.Editor`)
  // ---------------------------------------------------------------------------

  /** Deletion rules name their file by stem; this editor adds `.csv`. */
  function Renamed(rules: seq<DeleteRule>): (out: seq<DeleteRule>)
    ensures |out| == |rules|
    ensures forall k | 0 <= k < |rules| :: out[k] == DeleteRule(CsvName(rules[k].source), rules[k].ranges)
  {
    seq(|rules|, k requires 0 <= k < |rules| => DeleteRule(CsvName(rules[k].source), rules[k].ranges))
  }

  /** A rule reads its file, then its `ranges` key: both must be there. */
  predicate RuleApplies(dir: Dir, rule: DeleteRule) {
    CsvName(rule.source) in dir && rule.ranges.Some?
  }

  /** Every deletion rule finds its file and has its ranges. */
  predicate RulesApply(dir: Dir, rules: seq<DeleteRule>) {
    forall k | 0 <= k < |rules| :: RuleApplies(dir, rules[k])
  }

  /** What a rule that does not apply raises: the file is read first. */
  function RuleError(dir: Dir, rule: DeleteRule): EditError {
    if CsvName(rule.source) !in dir then FileNotFound(CsvName(rule.source)) else KeyError("ranges")
  }

  /** The position of the first rule that does not apply, or `|rules|`. */
  function FirstFailing(dir: Dir, rules: seq<DeleteRule>): (k: nat)
    ensures k <= |rules|
    ensures forall j | 0 <= j < k :: RuleApplies(dir, rules[j])
    ensures k < |rules| ==> !RuleApplies(dir, rules[k])
  {
    if |rules| == 0 then 0
    else if !RuleApplies(dir, rules[0]) then 0
    else 1 + FirstFailing(dir, rules[1..])
  }

  /** `Editor._deletes`: each rule in turn reads `source.csv`, then its
      ranges, drops the rows in them and writes the file back; a rule naming
      a missing file or lacking ranges stops the run. The error carries no
      directory, so the files the earlier rules rewrote are not part of it. */
  function LegacyDeletes(dir: Dir, rules: seq<DeleteRule>): (r: Result<Dir, EditError>)
    ensures r.Ok? <==> RulesApply(dir, rules)
    ensures r.Ok? ==> r.value.Keys == dir.Keys
    decreases |rules|
  {
    if |rules| == 0 then Ok(dir)
    else
      var name := CsvName(rules[0].source);
      if name !in dir then Err(FileNotFound(name))
      else if rules[0].ranges.None? then Err(KeyError("ranges"))
      else
        var next := dir[name := Deletes(dir[name], rules[0].ranges.value)];
        assert next.Keys == dir.Keys;
        assert forall k | 0 < k < |rules| :: rules[k] == rules[1..][k - 1];
        LegacyDeletes(next, rules[1..])
  }

  /** The run stops at the first rule that does not apply and raises what it lacks. */
  lemma {:induction false} LegacyDeletesError(dir: Dir, rules: seq<DeleteRule>)
    requires LegacyDeletes(dir, rules).Err?
    ensures FirstFailing(dir, rules) < |rules|
    ensures LegacyDeletes(dir, rules).error == RuleError(dir, rules[FirstFailing(dir, rules)])
    decreases |rules|
  {
    var name := CsvName(rules[0].source);
    if RuleApplies(dir, rules[0]) {
      var next := dir[name := Deletes(dir[name], rules[0].ranges.value)];
      assert next.Keys == dir.Keys;
      assert FirstFailing(next, rules[1..]) == FirstFailing(dir, rules[1..]) by {
        FirstFailingSameKeys(next, dir, rules[1..]);
      }
      LegacyDeletesError(next, rules[1..]);
    }
  }

  lemma {:induction false} FirstFailingSameKeys(a: Dir, b: Dir, rules: seq<DeleteRule>)
    requires a.Keys == b.Keys
    ensures FirstFailing(a, rules) == FirstFailing(b, rules)
    decreases |rules|
  {
    if |rules| > 0 {
      FirstFailingSameKeys(a, b, rules[1..]);
    }
  }

  /** Rule after rule, each file loses the union of the ranges of every rule
      that names it: the same outcome the per-file editor reaches. */
  lemma LegacyDeletesIsUnion(dir: Dir, rules: seq<DeleteRule>, n: string)
    requires RulesApply(dir, rules) && n in dir
    ensures LegacyDeletes(dir, rules).value[n] == Deletes(dir[n], MatchingRanges(n, Renamed(rules)))
  {
    LegacyDeletesPerFile(dir, rules, n);
    ApplyDeleteRulesIsUnion(n, dir[n], Renamed(rules));
  }

  lemma {:induction false} LegacyDeletesPerFile(dir: Dir, rules: seq<DeleteRule>, n: string)
    requires RulesApply(dir, rules) && n in dir
    ensures ApplyDeleteRules(n, dir[n], Renamed(rules)).Ok?
    ensures LegacyDeletes(dir, rules).value[n] == ApplyDeleteRules(n, dir[n], Renamed(rules)).value
    decreases |rules|
  {
    if |rules| > 0 {
      var name := CsvName(rules[0].source);
      var next := dir[name := Deletes(dir[name], rules[0].ranges.value)];
      assert Renamed(rules)[1..] == Renamed(rules[1..]);
      assert Renamed(rules)[0] == DeleteRule(name, rules[0].ranges);
      assert forall k | 0 < k < |rules| :: rules[k] == rules[1..][k - 1];
      LegacyDeletesPerFile(next, rules[1..], n);
    }
  }

  /** One stage applied to every file of the directory. */
  function MapRows(dir: Dir, f: seq<Row> -> seq<Row>): (out: Dir)
    ensures out.Keys == dir.Keys
    ensures forall n | n in dir :: out[n] == f(dir[n])
  {
    map n | n in dir :: f(dir[n])
  }

  /** The subdirectory of the CSV directory that holds the rule file. */
  const EditsDir: string := "edits"

  /** `Editor.main` of scraper.py as written: deletes, then narrator removal
      unless kept, then inserts, then gibberish prefixing unless kept. The
      two whole-directory stages read every entry of the CSV directory,
      which holds the `edits` directory the rule file is read from, and
      reading a directory as a CSV raises; so either stage, when it runs,
      ends the run. */
  function LegacyEditorMainAsWritten(dir: Dir, rules: seq<DeleteRule>, inserts: seq<string>, insertDir: InsertDir, flags: Flags): (r: Result<Dir, EditError>)
    ensures r.Ok? <==>
      RulesApply(dir, rules) && flags.keepNarrator && InsertFilesFound(inserts, insertDir) && flags.keepGibberish
    ensures r.Ok? ==> forall n :: n in r.value <==> n in dir || n in InsertFiles(inserts)
  {
    var deleted :- LegacyDeletes(dir, rules);
    if !flags.keepNarrator then Err(IsADirectory(EditsDir))
    else
      var inserted :- WriteInserts(deleted, inserts, insertDir);
      if !flags.keepGibberish then Err(IsADirectory(EditsDir)) else Ok(inserted)
  }

  /** As written, the first failure wins: a rule that does not apply, then
      the `edits` directory in narrator removal, then a missing insert, then
      the `edits` directory in gibberish prefixing. */
  lemma LegacyEditorMainAsWrittenError(dir: Dir, rules: seq<DeleteRule>, inserts: seq<string>, insertDir: InsertDir, flags: Flags)
    requires LegacyEditorMainAsWritten(dir, rules, inserts, insertDir, flags).Err?
    ensures var e := LegacyEditorMainAsWritten(dir, rules, inserts, insertDir, flags).error;
      if FirstFailing(dir, rules) < |rules| then e == RuleError(dir, rules[FirstFailing(dir, rules)])
      else if !flags.keepNarrator then e == IsADirectory(EditsDir)
      else if FirstAbsent(InsertFiles(inserts), insertDir.Keys) < |inserts| then
        e == FileNotFound(InsertFiles(inserts)[FirstAbsent(InsertFiles(inserts), insertDir.Keys)])
      else e == IsADirectory(EditsDir)
  {
    var d := LegacyDeletes(dir, rules);
    if d.Err? {
      LegacyDeletesError(dir, rules);
    } else if flags.keepNarrator {
      var w := WriteInserts(d.value, inserts, insertDir);
      if w.Err? {
        WriteInsertsError(d.value, inserts, insertDir);
      }
    }
  }

  /** `Editor.main` of scraper.py as intended: the same stages, with the two
      whole-directory stages passing over entries that are not files. The
      last stage runs over the inserted files as well. */
  function LegacyEditorMain(dir: Dir, rules: seq<DeleteRule>, inserts: seq<string>, insertDir: InsertDir, flags: Flags): (r: Result<Dir, EditError>)
    ensures r.Ok? <==> RulesApply(dir, rules) && InsertFilesFound(inserts, insertDir)
    ensures r.Ok? ==> forall n :: n in r.value <==> n in dir || n in InsertFiles(inserts)
  {
    var deleted :- LegacyDeletes(dir, rules);
    var spoken := if flags.keepNarrator then deleted else MapRows(deleted, DeleteNarrator);
    var inserted :- WriteInserts(spoken, inserts, insertDir);
    Ok(if flags.keepGibberish then inserted else MapRows(inserted, PrefixGibberish))
  }

  /** The input that shows the difference: every file is there and one of
      the two whole-directory stages runs. As written the run raises on the
      `edits` directory; as intended it succeeds. With both stages switched
      off the two versions agree. */
  lemma EditsDirectoryRaises(dir: Dir, rules: seq<DeleteRule>, inserts: seq<string>, insertDir: InsertDir, flags: Flags)
    requires RulesApply(dir, rules) && InsertFilesFound(inserts, insertDir)
    ensures !flags.keepNarrator || !flags.keepGibberish ==>
      LegacyEditorMainAsWritten(dir, rules, inserts, insertDir, flags) == Err(IsADirectory(EditsDir))
    ensures LegacyEditorMain(dir, rules, inserts, insertDir, flags).Ok?
    ensures flags.keepNarrator && flags.keepGibberish ==>
      LegacyEditorMainAsWritten(dir, rules, inserts, insertDir, flags) == LegacyEditorMain(dir, rules, inserts, insertDir, flags)
  {
  }

  /** In the intended version the first failure wins: a rule that does not
      apply is raised before any insert is read. */
  lemma LegacyEditorMainError(dir: Dir, rules: seq<DeleteRule>, inserts: seq<string>, insertDir: InsertDir, flags: Flags)
    requires LegacyEditorMain(dir, rules, inserts, insertDir, flags).Err?
    ensures var e := LegacyEditorMain(dir, rules, inserts, insertDir, flags).error;
      if FirstFailing(dir, rules) < |rules| then
        e == RuleError(dir, rules[FirstFailing(dir, rules)])
      else
        e == FileNotFound(InsertFiles(inserts)[FirstAbsent(InsertFiles(inserts), insertDir.Keys)])
  {
    var d := LegacyDeletes(dir, rules);
    if d.Err? {
      LegacyDeletesError(dir, rules);
    } else {
      var spoken := if flags.keepNarrator then d.value else MapRows(d.value, DeleteNarrator);
      WriteInsertsError(spoken, inserts, insertDir);
    }
  }

  /** In the intended version, a chapter file that no insert replaces ends
      up exactly as the per-file editor leaves it, once rule sources carry
      the `.csv` suffix. */
  lemma LegacyChapterMatchesEditor(dir: Dir, rules: seq<DeleteRule>, inserts: seq<string>, insertDir: InsertDir, flags: Flags, n: string)
    requires RulesApply(dir, rules) && InsertFilesFound(inserts, insertDir)
    requires n in dir && n !in InsertFiles(inserts)
    ensures EditChapter(ChapterFile(n, dir[n]), Renamed(rules), flags).Ok?
    ensures LegacyEditorMain(dir, rules, inserts, insertDir, flags).value[n]
         == EditChapter(ChapterFile(n, dir[n]), Renamed(rules), flags).value.rows
  {
    var deleted := LegacyDeletes(dir, rules).value;
    LegacyDeletesPerFile(dir, rules, n);
    ApplyDeleteRulesIsUnion(n, dir[n], Renamed(rules));
    var spoken := if flags.keepNarrator then deleted else MapRows(deleted, DeleteNarrator);
    var inserted := WriteInserts(spoken, inserts, insertDir);
    assert inserted.Ok? && inserted.value[n] == spoken[n];
    SurvivorsByStages(ChapterFile(n, dir[n]), Renamed(rules), flags);
  }

  /** In the intended version, an inserted file is renumbered and, unlike in
      the per-file editor, also gets the gibberish prefix unless it is kept;
      narrator rows stay. */
  lemma LegacyInsertIsPrefixed(dir: Dir, rules: seq<DeleteRule>, inserts: seq<string>, insertDir: InsertDir, flags: Flags, k: nat)
    requires RulesApply(dir, rules) && InsertFilesFound(inserts, insertDir)
    requires k < |inserts|
    ensures var n := InsertFiles(inserts)[k];
      LegacyEditorMain(dir, rules, inserts, insertDir, flags).value[n]
        == if flags.keepGibberish then Renumber(insertDir[n]) else PrefixGibberish(Renumber(insertDir[n]))
  {
  }
}

=== FILE: seqs.dfy ===
/** Order-preserving filters and concatenation over sequences: the shape of
    pandas' boolean-mask selection `df[mask]` and of `pd.concat`. */
module Seqs {

  /** The elements of `s` that satisfy `p`, in their original order. */
  function Filter<T(!new)>(s: seq<T>, p: T -> bool): (r: seq<T>)
    ensures |r| <= |s|
    ensures forall x :: x in r <==> x in s && p(x)
  {
    if |s| == 0 then []
    else
      var rest := Filter(s[1..], p);
      assert s == [s[0]] + s[1..];
      (if p(s[0]) then [s[0]] else []) + rest
  }

  /** A filter only drops elements: it never duplicates one. */
  lemma {:induction false} FilterSubMultiset<T(!new)>(s: seq<T>, p: T -> bool)
    ensures multiset(Filter(s, p)) <= multiset(s)
  {
    if |s| > 0 {
      FilterSubMultiset(s[1..], p);
      assert s == [s[0]] + s[1..];
    }
  }

  /** Filtering distributes over concatenation: survivors keep their relative order. */
  lemma {:induction false} FilterConcat<T(!new)>(a: seq<T>, b: seq<T>, p: T -> bool)
    ensures Filter(a + b, p) == Filter(a, p) + Filter(b, p)
  {
    if |a| == 0 {
      assert a + b == b;
    } else {
      assert (a + b)[0] == a[0];
      assert (a + b)[1..] == a[1..] + b;
      FilterConcat(a[1..], b, p);
    }
  }

  lemma {:induction false} FilterAll<T(!new)>(s: seq<T>, p: T -> bool)
    requires forall i | 0 <= i < |s| :: p(s[i])
    ensures Filter(s, p) == s
  {
    if |s| > 0 {
      FilterAll(s[1..], p);
    }
  }

  lemma {:induction false} FilterNone<T(!new)>(s: seq<T>, p: T -> bool)
    requires forall i | 0 <= i < |s| :: !p(s[i])
    ensures Filter(s, p) == []
  {
    if |s| > 0 {
      FilterNone(s[1..], p);
    }
  }

  /** Two predicates that agree on the elements select the same subsequence. */
  lemma {:induction false} FilterExt<T(!new)>(s: seq<T>, p: T -> bool, q: T -> bool)
    requires forall i | 0 <= i < |s| :: p(s[i]) == q(s[i])
    ensures Filter(s, p) == Filter(s, q)
  {
    if |s| > 0 {
      FilterExt(s[1..], p, q);
    }
  }

  /** Filtering twice is filtering once by the conjunction. */
  lemma {:induction false} FilterFilter<T(!new)>(s: seq<T>, p: T -> bool, q: T -> bool, pq: T -> bool)
    requires forall i | 0 <= i < |s| :: pq(s[i]) == (p(s[i]) && q(s[i]))
    ensures Filter(Filter(s, p), q) == Filter(s, pq)
  {
    if |s| > 0 {
      FilterFilter(s[1..], p, q, pq);
      var tail := Filter(s[1..], p);
      if p(s[0]) {
        var f := [s[0]] + tail;
        assert Filter(s, p) == f;
        assert f[0] == s[0] && f[1..] == tail;
      } else {
        assert Filter(s, p) == tail;
      }
    }
  }

  function Concat<T(!new)>(ss: seq<seq<T>>): seq<T> {
    if |ss| == 0 then [] else ss[0] + Concat(ss[1..])
  }

  lemma {:induction false} ConcatAppend<T(!new)>(ss: seq<seq<T>>, x: seq<T>)
    ensures Concat(ss + [x]) == Concat(ss) + x
  {
    if |ss| == 0 {
      assert ss + [x] == [x];
    } else {
      assert (ss + [x])[1..] == ss[1..] + [x];
      ConcatAppend(ss[1..], x);
    }
  }

  /** An element of a concatenation comes from one of its pieces. */
  lemma {:induction false} ConcatMembers<T(!new)>(ss: seq<seq<T>>)
    ensures forall x :: x in Concat(ss) <==> exists k | 0 <= k < |ss| :: x in ss[k]
  {
    if |ss| > 0 {
      ConcatMembers(ss[1..]);
      assert Concat(ss) == ss[0] + Concat(ss[1..]);
      forall x | x in Concat(ss)
        ensures exists k | 0 <= k < |ss| :: x in ss[k]
      {
        if x !in ss[0] {
          assert x in Concat(ss[1..]);
          var k :| 0 <= k < |ss[1..]| && x in ss[1..][k];
          assert x in ss[k + 1];
        }
      }
      forall x, k | 0 <= k < |ss| && x in ss[k]
        ensures x in Concat(ss)
      {
        if k > 0 {
          assert x in ss[1..][k - 1];
        }
      }
    }
  }

  /** Every piece's elements, counted with multiplicity, are in the concatenation. */
  lemma {:induction false} ConcatPiecesSubMultiset<T(!new)>(ss: seq<seq<T>>)
    ensures forall k | 0 <= k < |ss| :: multiset(ss[k]) <= multiset(Concat(ss))
  {
    if |ss| > 0 {
      ConcatPiecesSubMultiset(ss[1..]);
      assert multiset(Concat(ss)) == multiset(ss[0]) + multiset(Concat(ss[1..]));
      assert forall k | 1 <= k < |ss| :: ss[k] == ss[1..][k - 1];
    }
  }

  lemma {:induction false} ConcatJoin<T(!new)>(xs: seq<seq<T>>, ys: seq<seq<T>>)
    ensures Concat(xs + ys) == Concat(xs) + Concat(ys)
  {
    if |xs| == 0 {
      assert xs + ys == ys;
    } else {
      assert (xs + ys)[1..] == xs[1..] + ys;
      ConcatJoin(xs[1..], ys);
    }
  }

  /** For each request in turn, the elements of `s` it matches: the shape of
      a nested `for i in ixs: for x in s: if matches(x, i): out.append(x)`. */
  function SelectEach<T(!new), I>(s: seq<T>, ixs: seq<I>, matches: (T, I) -> bool): (r: seq<T>)
    ensures forall x :: x in r <==> x in s && exists k | 0 <= k < |ixs| :: matches(x, ixs[k])
  {
    var parts := seq(|ixs|, k requires 0 <= k < |ixs| => Filter(s, (x: T) => matches(x, ixs[k])));
    ConcatMembers(parts);
    forall x | x in Concat(parts)
      ensures x in s && exists k | 0 <= k < |ixs| :: matches(x, ixs[k])
    {
      var k :| 0 <= k < |parts| && x in parts[k];
      assert x in Filter(s, (x: T) => matches(x, ixs[k]));
    }
    forall x, k | x in s && 0 <= k < |ixs| && matches(x, ixs[k])
      ensures x in Concat(parts)
    {
      assert x in parts[k];
    }
    Concat(parts)
  }

  /** Requests are served in order. */
  lemma SelectEachAppend<T(!new), I>(s: seq<T>, a: seq<I>, b: seq<I>, matches: (T, I) -> bool)
    ensures SelectEach(s, a + b, matches) == SelectEach(s, a, matches) + SelectEach(s, b, matches)
  {
    var pa := seq(|a|, k requires 0 <= k < |a| => Filter(s, (x: T) => matches(x, a[k])));
    var pb := seq(|b|, k requires 0 <= k < |b| => Filter(s, (x: T) => matches(x, b[k])));
    var pab := seq(|a + b|, k requires 0 <= k < |a + b| => Filter(s, (x: T) => matches(x, (a + b)[k])));
    assert pab == pa + pb;
    ConcatJoin(pa, pb);
  }

  /** One request that every element matches selects everything, in order. */
  lemma SelectEachAll<T(!new), I>(s: seq<T>, i: I, matches: (T, I) -> bool)
    requires forall j | 0 <= j < |s| :: matches(s[j], i)
    ensures SelectEach(s, [i], matches) == s
  {
    FilterAll(s, (x: T) => matches(x, i));
    var parts := seq(1, k requires 0 <= k < 1 => Filter(s, (x: T) => matches(x, [i][k])));
    assert parts == [Filter(s, (x: T) => matches(x, i))];
    assert Concat(parts) == parts[0] + Concat(parts[1..]);
  }

  /** A single request selects exactly the elements it matches, in order. */
  lemma SelectEachOne<T(!new), I>(s: seq<T>, i: I, matches: (T, I) -> bool, p: T -> bool)
    requires forall x :: p(x) == matches(x, i)
    ensures SelectEach(s, [i], matches) == Filter(s, p)
  {
    var parts := seq(1, k requires 0 <= k < 1 => Filter(s, (x: T) => matches(x, [i][k])));
    assert parts == [Filter(s, (x: T) => matches(x, i))];
    assert Concat(parts) == parts[0] + Concat(parts[1..]);
    FilterExt(s, (x: T) => matches(x, i), p);
  }

  /** A request that matches nothing selects nothing. */
  lemma SelectEachNone<T(!new), I>(s: seq<T>, i: I, matches: (T, I) -> bool)
    requires forall x | x in s :: !matches(x, i)
    ensures SelectEach(s, [i], matches) == []
  {
    FilterNone(s, (x: T) => matches(x, i));
    var parts := seq(1, k requires 0 <= k < 1 => Filter(s, (x: T) => matches(x, [i][k])));
    assert parts == [Filter(s, (x: T) => matches(x, i))];
    assert Concat(parts) == parts[0] + Concat(parts[1..]);
  }

  function TotalLength<T(!new)>(ss: seq<seq<T>>): nat {
    if |ss| == 0 then 0 else |ss[0]| + TotalLength(ss[1..])
  }

  lemma {:induction false} ConcatLength<T(!new)>(ss: seq<seq<T>>)
    ensures |Concat(ss)| == TotalLength(ss)
  {
    if |ss| > 0 {
      ConcatLength(ss[1..]);
    }
  }

  function Min(a: int, b: int): int {
    if a <= b then a else b
  }
}

=== FILE: sorting.dfy ===
/** pandas' `sort_values(by=[...])` on integer columns: a stable sort by a
    lexicographic key. With several columns pandas sorts with a lexicographic
    indexer, which keeps rows with equal keys in their input order; the model
    is an insertion sort with the same tie behaviour. */
module Sorting {

  /** Lexicographic `<=` on integer keys (a shorter key that is a prefix comes first). */
  predicate KeyLe(a: seq<int>, b: seq<int>) {
    |a| == 0 || (|b| > 0 && (a[0] < b[0] || (a[0] == b[0] && KeyLe(a[1..], b[1..]))))
  }

  lemma {:induction false} KeyLeTotal(a: seq<int>, b: seq<int>)
    ensures KeyLe(a, b) || KeyLe(b, a)
  {
    if |a| > 0 && |b| > 0 && a[0] == b[0] {
      KeyLeTotal(a[1..], b[1..]);
    }
  }

  lemma {:induction false} KeyLeTransitive(a: seq<int>, b: seq<int>, c: seq<int>)
    requires KeyLe(a, b) && KeyLe(b, c)
    ensures KeyLe(a, c)
  {
    if |a| > 0 && a[0] == b[0] && b[0] == c[0] {
      KeyLeTransitive(a[1..], b[1..], c[1..]);
    }
  }

  predicate SortedBy<T>(s: seq<T>, key: T -> seq<int>) {
    forall i, j | 0 <= i < j < |s| :: KeyLe(key(s[i]), key(s[j]))
  }

  /** A lower bound on the keys of a sequence holds for every permutation of it. */
  lemma LowerBoundByMultiset<T>(lo: T, a: seq<T>, b: seq<T>, key: T -> seq<int>)
    requires multiset(a) == multiset(b)
    requires forall j | 0 <= j < |b| :: KeyLe(key(lo), key(b[j]))
    ensures forall j | 0 <= j < |a| :: KeyLe(key(lo), key(a[j]))
  {
    forall j | 0 <= j < |a|
      ensures KeyLe(key(lo), key(a[j]))
    {
      assert a[j] in multiset(b);
      var k :| 0 <= k < |b| && b[k] == a[j];
    }
  }

  /** Inserts `x` in front of the first element whose key is not below its own. */
  function InsertBy<T>(x: T, s: seq<T>, key: T -> seq<int>): (r: seq<T>)
    requires SortedBy(s, key)
    ensures |r| == |s| + 1
    ensures multiset(r) == multiset(s) + multiset{x}
    ensures SortedBy(r, key)
  {
    if |s| == 0 then [x]
    else if KeyLe(key(x), key(s[0])) then
      forall j | 0 <= j < |s|
        ensures KeyLe(key(x), key(s[j]))
      {
        if j > 0 {
          KeyLeTransitive(key(x), key(s[0]), key(s[j]));
        }
      }
      assert s == [s[0]] + s[1..];
      [x] + s
    else
      KeyLeTotal(key(x), key(s[0]));
      var rest := InsertBy(x, s[1..], key);
      assert multiset(rest) == multiset(s[1..] + [x]);
      LowerBoundByMultiset(s[0], rest, s[1..] + [x], key);
      assert s == [s[0]] + s[1..];
      [s[0]] + rest
  }

  /** A stable sort of `s` by `key`: the result is ordered by key and is a
      permutation of the input. */
  function SortBy<T>(s: seq<T>, key: T -> seq<int>): (r: seq<T>)
    ensures |r| == |s|
    ensures multiset(r) == multiset(s)
    ensures SortedBy(r, key)
  {
    if |s| == 0 then []
    else
      assert s == [s[0]] + s[1..];
      InsertBy(s[0], SortBy(s[1..], key), key)
  }

  /** Sorting input that is already in key order leaves it as it is: equal
      keys are never reordered. */
  lemma {:induction false} SortByOfSorted<T>(s: seq<T>, key: T -> seq<int>)
    requires SortedBy(s, key)
    ensures SortBy(s, key) == s
  {
    if |s| > 0 {
      assert SortedBy(s[1..], key);
      SortByOfSorted(s[1..], key);
      if |s| > 1 {
        assert KeyLe(key(s[0]), key(s[1..][0]));
      }
      assert s == [s[0]] + s[1..];
    }
  }
}

=== FILE: splitter.dfy ===
/** The splitter of splitter.py: clock strings, integer-millisecond cut points
    for the audio, range-based slicing of the transcript CSV, the split rules
    in which the last matching rule wins, and the pairing of edited CSV and
    WAV files by stem. The audio itself is not modelled, only its length. */
module Splitter {
  import opened Wrappers
  import opened Text
  import opened Seqs
  import opened Paths
  import opened Transcript

  /** What the splitter raises: `KeyError` for a rule without the key its
      stage reads, `ValueError` for a clock string it cannot read. */
  datatype SplitError = MissingKey(key: string) | InvalidTime(t: string)

  // ---------------------------------------------------------------------------
  // Clock strings (`__time_to_seconds`, `__seconds_to_time`)
  // ---------------------------------------------------------------------------

  /** Every field of `t.split(":")` can be read by Python's `int`. */
  predicate FieldsReadable(parts: seq<string>) {
    forall i | 0 <= i < |parts| :: ParseInt(parts[i]).Some?
  }

  /** "MM:SS" or "HH:MM:SS" to seconds. Each field is read by `int`, so signs,
      the whitespace `int` skips at either end and any number of digits are
      accepted; an unreadable field or a field count other than two or three
      is a `ValueError`. */
  function TimeToSeconds(t: string): (r: Result<int, SplitError>)
    ensures r.Err? ==> r.error == InvalidTime(t)
    ensures r.Ok? <==> FieldsReadable(Split(t, ':')) && 2 <= |Split(t, ':')| <= 3
  {
    match ClockOf(Split(t, ':'))
    case Some(v) => Ok(v)
    case None => Err(InvalidTime(t))
  }

  /** The seconds a list of clock fields denotes: minutes and seconds, or
      hours, minutes and seconds. */
  function ClockOf(parts: seq<string>): (r: Option<int>)
    ensures r.Some? <==> FieldsReadable(parts) && 2 <= |parts| <= 3
  {
    if !FieldsReadable(parts) then None
    else
      var v := seq(|parts|, i requires 0 <= i < |parts| => ParseInt(parts[i]).value);
      if |v| == 2 then Some(v[0] * 60 + v[1])
      else if |v| == 3 then Some(v[0] * 3600 + v[1] * 60 + v[2])
      else None
  }

  /** `f"{n:02d}"` for `0 <= n < 100`. */
  function TwoDigits(n: int): (s: string)
    requires 0 <= n < 100
    ensures |s| == 2 && AllDigits(s) && DigitsValue(s) == n
  {
    var s := [DigitChar(n / 10), DigitChar(n % 10)];
    assert s[..1][..0] == [];
    assert DigitsValue(s[..1]) == n / 10;
    s
  }

  lemma ParseTwoDigits(n: int)
    requires 0 <= n < 100
    ensures ParseInt(TwoDigits(n)) == Some(n)
  {
    ParseIntDigits(TwoDigits(n));
  }

  lemma {:induction false} SplitTwoFields(a: string, b: string)
    requires ':' !in a && ':' !in b
    ensures Split(a + ":" + b, ':') == [a, b]
  {
    assert Join([a, b], ':') == a + ":" + b by {
      assert [a, b][1..] == [b];
    }
    SplitJoin([a, b], ':');
  }

  /** Seconds to "MM:SS": minutes within the hour and seconds within the
      minute, both as two digits; whole hours are dropped. Python's `%` and
      `//` floor, which for the positive divisors here agree with Dafny's. */
  function SecondsToTime(seconds: int): (s: string)
    ensures |s| == 5 && s[2] == ':'
    ensures AllDigits(s[..2]) && AllDigits(s[3..])
    ensures 0 <= DigitsValue(s[..2]) <= 59 && 0 <= DigitsValue(s[3..]) <= 59
  {
    var m := (seconds % 3600) / 60;
    var sec := seconds % 60;
    var s := TwoDigits(m) + ":" + TwoDigits(sec);
    assert s[..2] == TwoDigits(m) && s[3..] == TwoDigits(sec);
    s
  }

  /** `int(ms / 1000)`: the log's conversion of a cut point to whole seconds,
      truncating toward zero. */
  function MsToSeconds(ms: int): (s: int)
    ensures ms >= 0 ==> 0 <= s * 1000 <= ms < (s + 1) * 1000
    ensures ms < 0 ==> (s - 1) * 1000 < ms <= s * 1000 <= 0
  {
    if ms >= 0 then ms / 1000 else -((-ms) / 1000)
  }

  lemma DivModSixty(a: int, q: int, r: int)
    requires a == 60 * q + r && 0 <= r < 60
    ensures a % 60 == r && a / 60 == q
  {
  }

  lemma MinutesAndSeconds(x: int)
    ensures ((x % 3600) / 60) * 60 + x % 60 == x % 3600
  {
    var y := x % 3600;
    var q := x / 3600;
    assert x == 3600 * q + y;
    var d := y / 60;
    var r := y % 60;
    assert y == 60 * d + r;
    DivModSixty(x, 60 * q + d, r);
  }

  /** Two readable fields are minutes and seconds. */
  lemma TimeOfTwoFields(t: string, va: int, vb: int)
    requires |Split(t, ':')| == 2
    requires ParseInt(Split(t, ':')[0]) == Some(va) && ParseInt(Split(t, ':')[1]) == Some(vb)
    ensures TimeToSeconds(t) == Ok(va * 60 + vb)
  {
    ClockOfTwo(Split(t, ':'), va, vb);
  }

  lemma ClockOfTwo(parts: seq<string>, va: int, vb: int)
    requires |parts| == 2
    requires ParseInt(parts[0]) == Some(va) && ParseInt(parts[1]) == Some(vb)
    ensures ClockOf(parts) == Some(va * 60 + vb)
  {
    assert FieldsReadable(parts) by {
      forall i | 0 <= i < |parts|
        ensures ParseInt(parts[i]).Some?
      {
        assert i == 0 || i == 1;
      }
    }
  }

  /** Three readable fields are hours, minutes and seconds. */
  lemma TimeOfThreeFields(t: string, va: int, vb: int, vc: int)
    requires |Split(t, ':')| == 3
    requires ParseInt(Split(t, ':')[0]) == Some(va) && ParseInt(Split(t, ':')[1]) == Some(vb)
    requires ParseInt(Split(t, ':')[2]) == Some(vc)
    ensures TimeToSeconds(t) == Ok(va * 3600 + vb * 60 + vc)
  {
    ClockOfThree(Split(t, ':'), va, vb, vc);
  }

  lemma ClockOfThree(parts: seq<string>, va: int, vb: int, vc: int)
    requires |parts| == 3
    requires ParseInt(parts[0]) == Some(va) && ParseInt(parts[1]) == Some(vb)
    requires ParseInt(parts[2]) == Some(vc)
    ensures ClockOf(parts) == Some(va * 3600 + vb * 60 + vc)
  {
    assert FieldsReadable(parts) by {
      forall i | 0 <= i < |parts|
        ensures ParseInt(parts[i]).Some?
      {
        assert i == 0 || i == 1 || i == 2;
      }
    }
  }

  lemma NoColonInDigits(c: char, digits: string)
    requires c != ':' && AllDigits(digits)
    ensures ':' !in [c] + digits && ':' !in digits
  {
    assert forall i | 0 <= i < |digits| :: digits[i] != ':';
  }

  /** Clock fields are read with `int`'s whitespace, not `str.strip`'s: a
      field led by an information separator raises. */
  lemma TimeFieldSeparator(a: string, b: string)
    requires |a| > 0 && AllDigits(a) && |b| > 0 && AllDigits(b)
    ensures TimeToSeconds(['\U{1c}'] + a + ":" + b) == Err(InvalidTime(['\U{1c}'] + a + ":" + b))
  {
    var bad := ['\U{1c}'] + a;
    NoColonInDigits('\U{1c}', a);
    NoColonInDigits('0', b);
    SplitTwoFields(bad, b);
    ParseIntRejectsSeparator(a);
    assert !FieldsReadable(Split(bad + ":" + b, ':'));
  }

  /** A first field led by a character `int` skips, such as a no-break
      space, is read as the rest of the field. */
  lemma TimeFieldLeadingSpace(c: char, a: string, b: string, va: int, vb: int)
    requires IsIntSpace(c) && ':' !in a && ':' !in b
    requires ParseInt(a) == Some(va) && ParseInt(b) == Some(vb)
    ensures TimeToSeconds([c] + a + ":" + b) == Ok(va * 60 + vb)
  {
    var x := [c] + a;
    assert x[1..] == a;
    assert ':' !in x by {
      assert forall i | 1 <= i < |x| :: x[i] == a[i - 1];
    }
    TimeOfReadableFields(x, b, va, vb);
  }

  lemma TimeOfReadableFields(x: string, y: string, vx: int, vy: int)
    requires ':' !in x && ':' !in y
    requires ParseInt(x) == Some(vx) && ParseInt(y) == Some(vy)
    ensures TimeToSeconds(x + ":" + y) == Ok(vx * 60 + vy)
  {
    SplitTwoFields(x, y);
    TimeOfTwoFields(x + ":" + y, vx, vy);
  }

  /** A string with no colon, or with three or more, is rejected. */
  lemma TimeOfOtherFieldCount(t: string)
    requires |Split(t, ':')| < 2 || |Split(t, ':')| > 3
    ensures TimeToSeconds(t) == Err(InvalidTime(t))
  {
  }

  /** Reading back a formatted time gives the seconds within the hour. */
  lemma TimeRoundTrip(x: int)
    ensures TimeToSeconds(SecondsToTime(x)) == Ok(x % 3600)
  {
    var m := (x % 3600) / 60;
    var sec := x % 60;
    var mm := TwoDigits(m);
    var ss := TwoDigits(sec);
    var t := SecondsToTime(x);
    assert t == mm + ":" + ss;
    SplitTwoFields(mm, ss);
    ParseTwoDigits(m);
    ParseTwoDigits(sec);
    TimeOfTwoFields(t, m, sec);
    MinutesAndSeconds(x);
  }

  lemma WithinHour(x: int)
    requires 0 <= x < 3600
    ensures x % 3600 == x
  {
  }

  /** Within the first hour formatting and parsing are inverse. */
  lemma TimeRoundTripWithinHour(x: int)
    requires 0 <= x < 3600
    ensures TimeToSeconds(SecondsToTime(x)) == Ok(x)
  {
    TimeRoundTrip(x);
    WithinHour(x);
  }

  /** The index of the first clock string that cannot be read, or `|ts|`. */
  function FirstUnreadable(ts: seq<string>): (k: nat)
    ensures k <= |ts|
    ensures forall i | 0 <= i < k :: TimeToSeconds(ts[i]).Ok?
    ensures k < |ts| ==> TimeToSeconds(ts[k]).Err?
  {
    if |ts| == 0 then 0
    else if TimeToSeconds(ts[0]).Err? then 0
    else
      var k := 1 + FirstUnreadable(ts[1..]);
      assert forall i | 1 <= i < k :: ts[i] == ts[1..][i - 1];
      k
  }

  /** `[self.__time_to_seconds(t) for t in ts]`: the seconds of every clock
      string, or the error of the first one that cannot be read. */
  function ParseTimes(ts: seq<string>): (r: Result<seq<int>, SplitError>)
    ensures r.Ok? <==> forall i | 0 <= i < |ts| :: TimeToSeconds(ts[i]).Ok?
    ensures r.Ok? ==> |r.value| == |ts| && forall i | 0 <= i < |ts| :: r.value[i] == TimeToSeconds(ts[i]).value
    ensures r.Err? ==> r.error == InvalidTime(ts[FirstUnreadable(ts)])
  {
    var k := FirstUnreadable(ts);
    if k < |ts| then Err(InvalidTime(ts[k]))
    else Ok(seq(|ts|, i requires 0 <= i < |ts| => TimeToSeconds(ts[i]).value))
  }

  // ---------------------------------------------------------------------------
  // Split rules: the last rule for a source wins
  // ---------------------------------------------------------------------------

  /** One entry of the split rules: the file stem it applies to, and the keys
      the two stages read (absent keys are `None`). */
  datatype SplitRule = SplitRule(source: string, ranges: Option<seq<RawRange>>, timestamps: Option<seq<string>>)

  /** The loop over the rules: every rule whose source is the stem is read in
      turn, so its errors surface in rule order, and the value read last is
      kept. `None` means no rule names the stem. */
  function Collect<V>(stem: string, rules: seq<SplitRule>, field: SplitRule -> Result<V, SplitError>): Result<Option<V>, SplitError>
  {
    if |rules| == 0 then Ok(None)
    else if rules[0].source == stem then
      match field(rules[0])
      case Err(e) => Err(e)
      case Ok(v) =>
        match Collect(stem, rules[1..], field)
        case Err(e) => Err(e)
        case Ok(later) => Ok(if later.Some? then later else Some(v))
    else Collect(stem, rules[1..], field)
  }

  /** The index of the last rule for `stem`. */
  function LastMatch(stem: string, rules: seq<SplitRule>): (k: Option<nat>)
    ensures k.Some? ==> k.value < |rules| && rules[k.value].source == stem
    ensures k.Some? ==> forall j | k.value < j < |rules| :: rules[j].source != stem
    ensures k.None? ==> forall j | 0 <= j < |rules| :: rules[j].source != stem
  {
    if |rules| == 0 then None
    else if rules[|rules| - 1].source == stem then Some(|rules| - 1)
    else LastMatch(stem, rules[..|rules| - 1])
  }

  /** The last rule for `stem` is the one after which no rule names it. */
  lemma {:induction false} LastMatchIs(stem: string, rules: seq<SplitRule>, k: nat)
    requires k < |rules| && rules[k].source == stem
    requires forall j | k < j < |rules| :: rules[j].source != stem
    ensures LastMatch(stem, rules) == Some(k)
  {
    if k < |rules| - 1 {
      LastMatchIs(stem, rules[..|rules| - 1], k);
    }
  }

  lemma LastMatchTail(stem: string, rules: seq<SplitRule>)
    requires |rules| > 0
    ensures LastMatch(stem, rules[1..]).Some? ==> LastMatch(stem, rules) == Some(LastMatch(stem, rules[1..]).value + 1)
    ensures LastMatch(stem, rules[1..]).None? ==>
      LastMatch(stem, rules) == if rules[0].source == stem then Some(0) else None
  {
    var t := LastMatch(stem, rules[1..]);
    forall j | 1 <= j < |rules|
      ensures rules[j] == rules[1..][j - 1]
    {
    }
    if t.Some? {
      LastMatchIs(stem, rules, t.value + 1);
    } else if rules[0].source == stem {
      LastMatchIs(stem, rules, 0);
    }
  }

  /** A read fails iff some rule for the stem has a field that cannot be read. */
  lemma {:induction false} CollectFails<V>(stem: string, rules: seq<SplitRule>, field: SplitRule -> Result<V, SplitError>)
    ensures Collect(stem, rules, field).Err? <==>
      exists j | 0 <= j < |rules| :: rules[j].source == stem && field(rules[j]).Err?
  {
    if |rules| > 0 {
      CollectFails(stem, rules[1..], field);
      if exists j | 0 <= j < |rules[1..]| :: rules[1..][j].source == stem && field(rules[1..][j]).Err? {
        var j :| 0 <= j < |rules[1..]| && rules[1..][j].source == stem && field(rules[1..][j]).Err?;
        assert rules[j + 1] == rules[1..][j];
      }
      if exists j | 0 <= j < |rules| :: rules[j].source == stem && field(rules[j]).Err? {
        var j :| 0 <= j < |rules| && rules[j].source == stem && field(rules[j]).Err?;
        if j > 0 {
          assert rules[1..][j - 1] == rules[j];
        }
      }
    }
  }

  /** When the read succeeds, the last rule's value is the one used; with no
      rule for the stem there is none. */
  lemma {:induction false} CollectLastWins<V>(stem: string, rules: seq<SplitRule>, field: SplitRule -> Result<V, SplitError>)
    ensures Collect(stem, rules, field).Ok? && LastMatch(stem, rules).None? ==> Collect(stem, rules, field) == Ok(None)
    ensures Collect(stem, rules, field).Ok? && LastMatch(stem, rules).Some? ==>
      && field(rules[LastMatch(stem, rules).value]).Ok?
      && Collect(stem, rules, field) == Ok(Some(field(rules[LastMatch(stem, rules).value]).value))
  {
    if |rules| > 0 {
      CollectLastWins(stem, rules[1..], field);
      LastMatchTail(stem, rules);
      var t := LastMatch(stem, rules[1..]);
      if t.Some? {
        assert rules[1..][t.value] == rules[t.value + 1];
      }
    }
  }

  /** The CSV stage reads `split_rule["ranges"]`. */
  function RangesOf(r: SplitRule): (v: Result<seq<RawRange>, SplitError>)
    ensures v.Ok? <==> r.ranges.Some?
    ensures v.Ok? ==> v.value == r.ranges.value
  {
    if r.ranges.Some? then Ok(r.ranges.value) else Err(MissingKey("ranges"))
  }

  /** The WAV stage reads `split_rule["timestamps"]` and parses every entry. */
  function TimestampsOf(r: SplitRule): (v: Result<seq<int>, SplitError>)
    ensures v.Ok? <==> r.timestamps.Some? && ParseTimes(r.timestamps.value).Ok?
    ensures v.Ok? ==> v.value == ParseTimes(r.timestamps.value).value
  {
    if r.timestamps.None? then Err(MissingKey("timestamps")) else ParseTimes(r.timestamps.value)
  }

  // ---------------------------------------------------------------------------
  // CSV slicing (`_split_csv`)
  // ---------------------------------------------------------------------------

  /** One output CSV: its stem (written with ".csv") and its rows. */
  datatype CsvOut = CsvOut(name: string, rows: seq<Row>)

  /** The output stem of part `i`: `f"{stem}_{i}"`. */
  function PartName(stem: string, i: nat): string {
    stem + "_" + NatToString(i)
  }

  /** `df[mask]` for one split range: the rows from the start on and, unless
      the end is the `(-1, -1)` sentinel, up to the end, in their order. */
  function Slice(rows: seq<Row>, r: RawRange): (s: seq<Row>)
    ensures |s| <= |rows|
    ensures forall x :: x in s <==> x in rows && InSplit(PosOf(x), ToSplitRange(r))
  {
    Filter(rows, (x: Row) => InSplit(PosOf(x), ToSplitRange(r)))
  }

  /** Slicing works row by row, so the rows of a slice keep their order. */
  lemma SliceKeepsOrder(a: seq<Row>, b: seq<Row>, r: RawRange)
    ensures Slice(a + b, r) == Slice(a, r) + Slice(b, r)
  {
    FilterConcat(a, b, (x: Row) => InSplit(PosOf(x), ToSplitRange(r)));
  }

  /** A sentinel range starting at or before every row takes the whole file. */
  lemma SliceFromStartTakesAll(rows: seq<Row>, r: RawRange)
    requires r.IsSentinelEnd()
    requires forall i | 0 <= i < |rows| :: PosLe(r.Start(), PosOf(rows[i]))
    ensures Slice(rows, r) == rows
  {
    FilterAll(rows, (x: Row) => InSplit(PosOf(x), ToSplitRange(r)));
  }

  /** The ranges cut rows into consecutive pieces: the first starts at or
      before every row, each range but the last is closed, not reversed, and
      ends before the next one starts, no row falls between two ranges, and
      the last range is open-ended. */
  predicate Tiles(rows: seq<Row>, ranges: seq<RawRange>) {
    && |ranges| > 0
    && ranges[|ranges| - 1].IsSentinelEnd()
    && (forall i | 0 <= i < |rows| :: PosLe(ranges[0].Start(), PosOf(rows[i])))
    && (forall k | 0 <= k < |ranges| - 1 ::
          && !ranges[k].IsSentinelEnd()
          && PosLe(ranges[k].Start(), ranges[k].End())
          && !PosLe(ranges[k + 1].Start(), ranges[k].End()))
    && (forall i, k | 0 <= i < |rows| && 0 <= k < |ranges| - 1 ::
          PosLe(PosOf(rows[i]), ranges[k].End()) || PosLe(ranges[k + 1].Start(), PosOf(rows[i])))
  }

  /** The slice of every range, in range order. */
  function SliceRows(rows: seq<Row>, ranges: seq<RawRange>): (slices: seq<seq<Row>>)
    ensures |slices| == |ranges|
    ensures forall k | 0 <= k < |ranges| :: slices[k] == Slice(rows, ranges[k])
  {
    seq(|ranges|, k requires 0 <= k < |ranges| => Slice(rows, ranges[k]))
  }

  /** The number of leading rows at or before `e`; in ordered rows every later
      row is after `e`. */
  function CountUpTo(rows: seq<Row>, e: Pos): (m: nat)
    ensures m <= |rows|
    ensures forall i | 0 <= i < m :: PosLe(PosOf(rows[i]), e)
    ensures m < |rows| ==> !PosLe(PosOf(rows[m]), e)
  {
    if |rows| == 0 || !PosLe(PosOf(rows[0]), e) then 0
    else 1 + CountUpTo(rows[1..], e)
  }

  lemma AfterBoundary(rows: seq<Row>, e: Pos)
    requires OrderedByPosition(rows)
    ensures forall j | CountUpTo(rows, e) <= j < |rows| :: !PosLe(PosOf(rows[j]), e)
  {
    var m := CountUpTo(rows, e);
    forall j | m <= j < |rows|
      ensures !PosLe(PosOf(rows[j]), e)
    {
      if j > m {
        PosLeTotalOrder(PosOf(rows[m]), PosOf(rows[j]), e);
      }
    }
  }

  /** The starts of the ranges after the first one ascend. */
  lemma {:induction false} StartsAscend(rows: seq<Row>, ranges: seq<RawRange>, k: nat)
    requires Tiles(rows, ranges)
    requires 1 <= k < |ranges|
    ensures PosLe(ranges[1].Start(), ranges[k].Start())
  {
    if k > 1 {
      StartsAscend(rows, ranges, k - 1);
      var a, b, c := ranges[k - 1].Start(), ranges[k - 1].End(), ranges[k].Start();
      PosLeTotalOrder(b, c, c);
      PosLeTotalOrder(a, b, c);
      PosLeTotalOrder(ranges[1].Start(), a, c);
    }
  }

  /** The rows up to the end of the first range are its slice; no later range
      takes any of them. */
  lemma FrontSlices(rows: seq<Row>, ranges: seq<RawRange>, m: nat)
    requires Tiles(rows, ranges) && |ranges| > 1
    requires m <= |rows| && forall i | 0 <= i < m :: PosLe(PosOf(rows[i]), ranges[0].End())
    ensures Slice(rows[..m], ranges[0]) == rows[..m]
    ensures forall k | 1 <= k < |ranges| :: Slice(rows[..m], ranges[k]) == []
  {
    var front := rows[..m];
    FilterAll(front, (x: Row) => InSplit(PosOf(x), ToSplitRange(ranges[0])));
    forall k | 1 <= k < |ranges|
      ensures Slice(front, ranges[k]) == []
    {
      StartsAscend(rows, ranges, k);
      forall i | 0 <= i < |front|
        ensures !InSplit(PosOf(front[i]), ToSplitRange(ranges[k]))
      {
        var p, e, s1, sk := PosOf(front[i]), ranges[0].End(), ranges[1].Start(), ranges[k].Start();
        PosLeTotalOrder(s1, e, e);
        if PosLe(sk, p) {
          PosLeTotalOrder(s1, sk, p);
          PosLeTotalOrder(s1, p, e);
        }
      }
      FilterNone(front, (x: Row) => InSplit(PosOf(x), ToSplitRange(ranges[k])));
    }
  }

  /** The rows after the end of the first range are tiled by the other ranges. */
  lemma BackTiles(rows: seq<Row>, ranges: seq<RawRange>, m: nat)
    requires Tiles(rows, ranges) && |ranges| > 1
    requires m <= |rows| && forall j | m <= j < |rows| :: !PosLe(PosOf(rows[j]), ranges[0].End())
    ensures Tiles(rows[m..], ranges[1..])
    ensures Slice(rows[m..], ranges[0]) == []
  {
    var back := rows[m..];
    assert forall j | 0 <= j < |back| :: back[j] == rows[m + j];
    assert forall k | 0 <= k < |ranges| - 1 :: ranges[1..][k] == ranges[k + 1];
    forall j | 0 <= j < |back|
      ensures PosLe(ranges[1].Start(), PosOf(back[j]))
    {
      assert PosLe(PosOf(rows[m + j]), ranges[0].End()) || PosLe(ranges[1].Start(), PosOf(rows[m + j]));
    }
    FilterNone(back, (x: Row) => InSplit(PosOf(x), ToSplitRange(ranges[0])));
  }

  lemma SplitAt<T>(s: seq<T>, m: nat)
    requires m <= |s|
    ensures s[..m] + s[m..] == s
  {
  }

  lemma ConcatCons(x: seq<Row>, rest: seq<seq<Row>>)
    ensures Concat([x] + rest) == x + Concat(rest)
  {
    assert ([x] + rest)[1..] == rest;
  }

  lemma OrderedSuffix(rows: seq<Row>, m: nat)
    requires OrderedByPosition(rows) && m <= |rows|
    ensures OrderedByPosition(rows[m..])
  {
    assert forall j | 0 <= j < |rows| - m :: rows[m..][j] == rows[m + j];
  }

  /** Slicing by the first range takes the front, the other ranges take
      only from the back. */
  lemma SliceRowsSplit(rows: seq<Row>, ranges: seq<RawRange>, m: nat)
    requires |ranges| > 1 && m <= |rows|
    requires Slice(rows[..m], ranges[0]) == rows[..m] && Slice(rows[m..], ranges[0]) == []
    requires forall k | 1 <= k < |ranges| :: Slice(rows[..m], ranges[k]) == []
    ensures SliceRows(rows, ranges) == [rows[..m]] + SliceRows(rows[m..], ranges[1..])
  {
    var lhs := SliceRows(rows, ranges);
    var tail := SliceRows(rows[m..], ranges[1..]);
    var rhs := [rows[..m]] + tail;
    forall k | 0 <= k < |ranges|
      ensures lhs[k] == rhs[k]
    {
      SliceAtSplit(rows, ranges[k], m);
      if k > 0 {
        assert ranges[1..][k - 1] == ranges[k];
        assert rhs[k] == tail[k - 1];
      }
    }
  }

  lemma SliceAtSplit(rows: seq<Row>, r: RawRange, m: nat)
    requires m <= |rows|
    ensures Slice(rows, r) == Slice(rows[..m], r) + Slice(rows[m..], r)
  {
    SplitAt(rows, m);
    SliceKeepsOrder(rows[..m], rows[m..], r);
  }

  /** Ordered rows sliced by ranges that tile them concatenate back to the
      rows: each row lands in exactly one part, and the parts come in order. */
  lemma {:induction false} SlicesTileRows(rows: seq<Row>, ranges: seq<RawRange>)
    requires OrderedByPosition(rows)
    requires Tiles(rows, ranges)
    ensures Concat(SliceRows(rows, ranges)) == rows
    decreases |ranges|
  {
    if |ranges| == 1 {
      SliceFromStartTakesAll(rows, ranges[0]);
      assert SliceRows(rows, ranges) == [rows];
      assert Concat([rows]) == rows + Concat([rows][1..]);
    } else {
      var m := CountUpTo(rows, ranges[0].End());
      AfterBoundary(rows, ranges[0].End());
      FrontSlices(rows, ranges, m);
      BackTiles(rows, ranges, m);
      OrderedSuffix(rows, m);
      SliceRowsSplit(rows, ranges, m);
      SlicesTileRows(rows[m..], ranges[1..]);
      ConcatCons(rows[..m], SliceRows(rows[m..], ranges[1..]));
      SplitAt(rows, m);
    }
  }

  /** The CSV stage splits a transcript into parts that concatenate back to
      it whenever its ranges tile its ordered rows. */
  lemma CsvPartsRoundTrip(stem: string, rows: seq<Row>, ranges: seq<RawRange>)
    requires OrderedByPosition(rows)
    requires Tiles(rows, ranges)
    ensures var parts := CsvParts(stem, rows, Some(ranges));
      Concat(seq(|parts|, k requires 0 <= k < |parts| => parts[k].rows)) == rows
  {
    var parts := CsvParts(stem, rows, Some(ranges));
    assert seq(|parts|, k requires 0 <= k < |parts| => parts[k].rows) == SliceRows(rows, ranges);
    SlicesTileRows(rows, ranges);
  }

  /** The ranges the CSV stage uses: those of the last rule for the stem, or
      `None` when no rule names it. Every rule for the stem must have them. */
  function LastRanges(stem: string, rules: seq<SplitRule>): (r: Result<Option<seq<RawRange>>, SplitError>)
    ensures r.Err? <==> exists j | 0 <= j < |rules| :: rules[j].source == stem && rules[j].ranges.None?
    ensures r.Ok? ==> (r.value.None? <==> LastMatch(stem, rules).None?)
    ensures r.Ok? && r.value.Some? ==> r.value.value == rules[LastMatch(stem, rules).value].ranges.value
  {
    CollectFails(stem, rules, RangesOf);
    CollectLastWins(stem, rules, RangesOf);
    Collect(stem, rules, RangesOf)
  }

  /** The CSV stage once the ranges are known: one slice per range, named
      `stem_i`, or, without a rule, the file as it is under its own stem. */
  function CsvParts(stem: string, rows: seq<Row>, found: Option<seq<RawRange>>): (parts: seq<CsvOut>)
    ensures found.None? ==> parts == [CsvOut(stem, rows)]
    ensures found.Some? ==> |parts| == |found.value|
    ensures found.Some? ==> forall i | 0 <= i < |found.value| ::
      parts[i].name == PartName(stem, i) && parts[i].rows == Slice(rows, found.value[i])
  {
    if found.None? then [CsvOut(stem, rows)]
    else
      var ranges := found.value;
      seq(|ranges|, i requires 0 <= i < |ranges| => CsvOut(PartName(stem, i), Slice(rows, ranges[i])))
  }

  /** `_split_csv` for one file: it raises when some rule for the stem has no
      `ranges`; otherwise the last such rule cuts the file into one part per
      range, and with no rule the file is copied under its own stem. */
  function SplitCsv(stem: string, rows: seq<Row>, rules: seq<SplitRule>): (r: Result<seq<CsvOut>, SplitError>)
    ensures r.Err? <==> exists j | 0 <= j < |rules| :: rules[j].source == stem && rules[j].ranges.None?
    ensures r.Ok? && LastMatch(stem, rules).None? ==> r.value == [CsvOut(stem, rows)]
    ensures r.Ok? && LastMatch(stem, rules).Some? ==>
      var ranges := rules[LastMatch(stem, rules).value].ranges.value;
      && |r.value| == |ranges|
      && forall i | 0 <= i < |ranges| :: r.value[i] == CsvOut(PartName(stem, i), Slice(rows, ranges[i]))
  {
    var found :- LastRanges(stem, rules);
    Ok(CsvParts(stem, rows, found))
  }

  // ---------------------------------------------------------------------------
  // Audio cut points (`_split_wav`)
  // ---------------------------------------------------------------------------

  /** One output MP3: its stem and the millisecond interval `[startMs, endMs)`
      of the input WAV it holds. */
  datatype AudioOut = AudioOut(name: string, startMs: int, endMs: int)

  /** `[0] + [t * 1000 for t in timestamps] + [len(audio)]`. */
  function CutPoints(ts: seq<int>, audioLen: nat): (cp: seq<int>)
    ensures |cp| == |ts| + 2
  {
    [0] + seq(|ts|, i requires 0 <= i < |ts| => ts[i] * 1000) + [audioLen]
  }

  /** One part between each two neighbouring cut points, named `stem_i`. */
  function Segments(stem: string, cp: seq<int>): (segs: seq<AudioOut>)
    requires |cp| >= 1
    ensures |segs| == |cp| - 1
  {
    seq(|cp| - 1, i requires 0 <= i < |cp| - 1 => AudioOut(PartName(stem, i), cp[i], cp[i + 1]))
  }

  /** The timestamps the WAV stage uses: those of the last rule for the stem,
      read into seconds, or none when no rule names it. Every rule for the
      stem must have readable timestamps. */
  function LastTimestamps(stem: string, rules: seq<SplitRule>): (r: Result<seq<int>, SplitError>)
    ensures r.Err? <==> exists j | 0 <= j < |rules| :: rules[j].source == stem && TimestampsOf(rules[j]).Err?
    ensures r.Ok? && LastMatch(stem, rules).None? ==> r.value == []
    ensures r.Ok? && LastMatch(stem, rules).Some? ==>
      r.value == TimestampsOf(rules[LastMatch(stem, rules).value]).value
  {
    CollectFails(stem, rules, TimestampsOf);
    CollectLastWins(stem, rules, TimestampsOf);
    var found :- Collect(stem, rules, TimestampsOf);
    Ok(if found.None? then [] else found.value)
  }

  /** The WAV stage once the timestamps are known: the audio is cut into one
      more part than there are timestamps, the parts are contiguous and span
      the whole file; with no timestamps the whole file is written under the
      stem. */
  function WavParts(stem: string, ts: seq<int>, audioLen: nat): (parts: seq<AudioOut>)
    ensures |parts| >= 1
    ensures parts[0].startMs == 0 && parts[|parts| - 1].endMs == audioLen
    ensures forall i | 0 < i < |parts| :: parts[i - 1].endMs == parts[i].startMs
    ensures |ts| == 0 ==> parts == [AudioOut(stem, 0, audioLen)]
    ensures |ts| > 0 ==> |parts| == |ts| + 1
    ensures |ts| > 0 ==> forall i | 0 <= i < |parts| :: parts[i].name == PartName(stem, i)
    ensures forall i | 0 <= i < |ts| :: parts[i].endMs == ts[i] * 1000
  {
    if |ts| > 0 then Segments(stem, CutPoints(ts, audioLen))
    else [AudioOut(stem, 0, audioLen)]
  }

  /** The timestamps ascend and fall within the audio, so every part is a
      proper interval of it. */
  predicate CutsInOrder(ts: seq<int>, audioLen: nat) {
    && (forall i | 0 <= i < |ts| :: 0 <= ts[i] * 1000 <= audioLen)
    && (forall i | 0 < i < |ts| :: ts[i - 1] <= ts[i])
  }

  /** `_split_wav` for one file of `audioLen` milliseconds: it raises when
      some rule for the stem has missing or unreadable timestamps; otherwise
      the audio is cut at the last such rule's timestamps into contiguous
      parts spanning the file, and with no rule it is written whole. */
  function SplitWav(stem: string, rules: seq<SplitRule>, audioLen: nat): (r: Result<seq<AudioOut>, SplitError>)
    ensures r.Err? <==> exists j | 0 <= j < |rules| :: rules[j].source == stem && TimestampsOf(rules[j]).Err?
    ensures r.Ok? ==> |r.value| >= 1 && r.value[0].startMs == 0 && r.value[|r.value| - 1].endMs == audioLen
    ensures r.Ok? ==> forall i | 0 < i < |r.value| :: r.value[i - 1].endMs == r.value[i].startMs
    ensures r.Ok? && LastMatch(stem, rules).None? ==> r.value == [AudioOut(stem, 0, audioLen)]
    ensures r.Ok? && LastMatch(stem, rules).Some? ==>
      var ts := TimestampsOf(rules[LastMatch(stem, rules).value]).value;
      && (|ts| > 0 ==> |r.value| == |ts| + 1)
      && forall i | 0 <= i < |ts| :: r.value[i].endMs == ts[i] * 1000
  {
    var ts :- LastTimestamps(stem, rules);
    Ok(WavParts(stem, ts, audioLen))
  }

  function Duration(segs: seq<AudioOut>): int {
    if |segs| == 0 then 0 else (segs[0].endMs - segs[0].startMs) + Duration(segs[1..])
  }

  /** Contiguous parts telescope: their lengths add up to last end minus first start. */
  lemma {:induction false} DurationTelescopes(segs: seq<AudioOut>)
    requires |segs| >= 1
    requires forall i | 0 < i < |segs| :: segs[i - 1].endMs == segs[i].startMs
    ensures Duration(segs) == segs[|segs| - 1].endMs - segs[0].startMs
  {
    if |segs| > 1 {
      DurationTelescopes(segs[1..]);
    }
  }

  /** With timestamps in order and within the audio, the parts are proper
      intervals whose lengths add up to the audio length. */
  lemma WavPartsCoverAudio(stem: string, ts: seq<int>, audioLen: nat)
    requires CutsInOrder(ts, audioLen)
    ensures forall i | 0 <= i < |WavParts(stem, ts, audioLen)| ::
      0 <= WavParts(stem, ts, audioLen)[i].startMs <= WavParts(stem, ts, audioLen)[i].endMs <= audioLen
    ensures Duration(WavParts(stem, ts, audioLen)) == audioLen
  {
    var parts := WavParts(stem, ts, audioLen);
    if |ts| > 0 {
      var cp := CutPoints(ts, audioLen);
      forall i | 0 <= i < |parts|
        ensures 0 <= parts[i].startMs <= parts[i].endMs <= audioLen
      {
        assert parts[i].startMs == cp[i] && parts[i].endMs == cp[i + 1];
        assert i > 0 ==> cp[i] == ts[i - 1] * 1000;
        assert i + 1 < |cp| - 1 ==> cp[i + 1] == ts[i] * 1000;
      }
    }
    DurationTelescopes(parts);
  }

  // ---------------------------------------------------------------------------
  // Pairing (`_csv_wav_edit_pairs`) and the main loop
  // ---------------------------------------------------------------------------

  datatype EditPair = EditPair(csv: string, wav: string)

  /** The pairs of one CSV, in the order of the WAV listing. */
  function PairsOf(csv: string, wavs: seq<string>): seq<EditPair> {
    if |wavs| == 0 then []
    else PairsOf(csv, wavs[..|wavs| - 1])
         + (if Stem(csv) == Stem(wavs[|wavs| - 1]) then [EditPair(csv, wavs[|wavs| - 1])] else [])
  }

  /** All pairs, CSV-major. */
  function EditPairs(csvs: seq<string>, wavs: seq<string>): seq<EditPair> {
    if |csvs| == 0 then []
    else EditPairs(csvs[..|csvs| - 1], wavs) + PairsOf(csvs[|csvs| - 1], wavs)
  }

  lemma PairsOfStep(csv: string, wavs: seq<string>, j: nat)
    requires j < |wavs|
    ensures PairsOf(csv, wavs[..j + 1]) ==
      PairsOf(csv, wavs[..j]) + (if Stem(csv) == Stem(wavs[j]) then [EditPair(csv, wavs[j])] else [])
  {
    assert wavs[..j + 1][..j] == wavs[..j];
  }

  lemma EditPairsStep(csvs: seq<string>, wavs: seq<string>, i: nat)
    requires i < |csvs|
    ensures EditPairs(csvs[..i + 1], wavs) == EditPairs(csvs[..i], wavs) + PairsOf(csvs[i], wavs)
  {
    assert csvs[..i + 1][..i] == csvs[..i];
  }

  /** The inner loop of `_csv_wav_edit_pairs`: the WAV files that go with one CSV. */
  method WavsFor(csv: string, wavs: seq<string>) returns (pairs: seq<EditPair>)
    ensures pairs == PairsOf(csv, wavs)
  {
    pairs := [];
    var stem := Stem(csv);
    var j := 0;
    while j < |wavs|
      invariant 0 <= j <= |wavs|
      invariant pairs == PairsOf(csv, wavs[..j])
    {
      PairsOfStep(csv, wavs, j);
      if stem == Stem(wavs[j]) {
        pairs := pairs + [EditPair(csv, wavs[j])];
      }
      j := j + 1;
    }
    assert wavs[..j] == wavs;
  }

  /** The nested loop of `_csv_wav_edit_pairs`, CSV-major. */
  method CsvWavEditPairs(csvs: seq<string>, wavs: seq<string>) returns (pairs: seq<EditPair>)
    ensures pairs == EditPairs(csvs, wavs)
  {
    pairs := [];
    var i := 0;
    while i < |csvs|
      invariant 0 <= i <= |csvs|
      invariant pairs == EditPairs(csvs[..i], wavs)
    {
      var more := WavsFor(csvs[i], wavs);
      EditPairsStep(csvs, wavs, i);
      pairs := pairs + more;
      i := i + 1;
    }
    assert csvs[..i] == csvs;
  }

  lemma {:induction false} PairsOfMembers(csv: string, wavs: seq<string>)
    ensures forall p :: p in PairsOf(csv, wavs) <==> p.csv == csv && p.wav in wavs && Stem(csv) == Stem(p.wav)
  {
    if |wavs| > 0 {
      PairsOfMembers(csv, wavs[..|wavs| - 1]);
      assert wavs == wavs[..|wavs| - 1] + [wavs[|wavs| - 1]];
    }
  }

  /** A pair is produced exactly for each CSV and WAV with the same stem. */
  lemma {:induction false} EditPairsMembers(csvs: seq<string>, wavs: seq<string>)
    ensures forall p :: p in EditPairs(csvs, wavs) <==> p.csv in csvs && p.wav in wavs && Stem(p.csv) == Stem(p.wav)
  {
    if |csvs| > 0 {
      EditPairsMembers(csvs[..|csvs| - 1], wavs);
      PairsOfMembers(csvs[|csvs| - 1], wavs);
      assert csvs == csvs[..|csvs| - 1] + [csvs[|csvs| - 1]];
    }
  }

  /** CSV-major order: the pairs of a longer CSV listing extend those of its front part. */
  lemma EditPairsSnoc(csvs: seq<string>, csv: string, wavs: seq<string>)
    ensures EditPairs(csvs + [csv], wavs) == EditPairs(csvs, wavs) + PairsOf(csv, wavs)
  {
    assert (csvs + [csv])[..|csvs|] == csvs;
  }

  /** What the splitter writes for one pair. */
  datatype PairOutput = PairOutput(csvs: seq<CsvOut>, audio: seq<AudioOut>)

  /** One iteration of `Splitter.main`: the CSV first, then the WAV. */
  function SplitPair(p: EditPair, rowsOf: string -> seq<Row>, lengthOf: string -> nat,
                     rules: seq<SplitRule>): (r: Result<PairOutput, SplitError>)
    ensures r.Ok? <==>
      && (forall j | 0 <= j < |rules| && rules[j].source == Stem(p.csv) :: rules[j].ranges.Some?)
      && (forall j | 0 <= j < |rules| && rules[j].source == Stem(p.wav) :: TimestampsOf(rules[j]).Ok?)
    ensures SplitCsv(Stem(p.csv), rowsOf(p.csv), rules).Err? ==> r == Err(SplitCsv(Stem(p.csv), rowsOf(p.csv), rules).error)
    ensures r.Ok? ==> Ok(r.value.csvs) == SplitCsv(Stem(p.csv), rowsOf(p.csv), rules)
    ensures r.Ok? ==> Ok(r.value.audio) == SplitWav(Stem(p.wav), rules, lengthOf(p.wav))
  {
    var csvs :- SplitCsv(Stem(p.csv), rowsOf(p.csv), rules);
    var audio :- SplitWav(Stem(p.wav), rules, lengthOf(p.wav));
    Ok(PairOutput(csvs, audio))
  }

  /** `Splitter.main`: each pair is split in order and the first error stops
      the run. The CSV rows and the audio length of a file are parameters. */
  function SplitterMain(pairs: seq<EditPair>, rowsOf: string -> seq<Row>, lengthOf: string -> nat,
                        rules: seq<SplitRule>): (r: Result<seq<PairOutput>, SplitError>)
    ensures r.Ok? <==> forall i | 0 <= i < |pairs| :: SplitPair(pairs[i], rowsOf, lengthOf, rules).Ok?
    ensures r.Ok? ==> |r.value| == |pairs|
    ensures r.Ok? ==> forall i | 0 <= i < |pairs| :: Ok(r.value[i]) == SplitPair(pairs[i], rowsOf, lengthOf, rules)
  {
    if |pairs| == 0 then Ok([])
    else
      var here := SplitPair(pairs[0], rowsOf, lengthOf, rules);
      var rest := SplitterMain(pairs[1..], rowsOf, lengthOf, rules);
      assert forall i | 1 <= i < |pairs| :: pairs[i] == pairs[1..][i - 1];
      if here.Err? then Err(here.error)
      else if rest.Err? then Err(rest.error)
      else
        OkPointwiseCons(pairs, here.value, rest.value, (p: EditPair) => SplitPair(p, rowsOf, lengthOf, rules));
        Ok([here.value] + rest.value)
  }

  /** Nothing ties the number of CSV slices to the number of audio parts: a
      rule with two ranges and no timestamps gives two slices and one part. */
  lemma SliceCountUnchecked(rows: seq<Row>, a: RawRange, b: RawRange, audioLen: nat)
    ensures var rules := [SplitRule("c", Some([a, b]), Some([]))];
      && SplitCsv("c", rows, rules).Ok? && |SplitCsv("c", rows, rules).value| == 2
      && SplitWav("c", rules, audioLen).Ok? && |SplitWav("c", rules, audioLen).value| == 1
  {
    var rules := [SplitRule("c", Some([a, b]), Some([]))];
    assert LastMatch("c", rules) == Some(0);
    assert TimestampsOf(rules[0]) == Ok([]);
    assert LastTimestamps("c", rules) == Ok([]);
  }
}

=== FILE: text.dfy ===
/** The pieces of Python's string handling the pipeline relies on: `str(n)` for
    integers, `int(s)`, `str.split`, `str.join`, `str.strip`, case-insensitive
    substring tests and the code-point order of `<` on strings. */
module Text {
  import opened Wrappers

  predicate IsDigit(c: char) {
    '0' <= c <= '9'
  }

  predicate AllDigits(s: string) {
    forall i | 0 <= i < |s| :: IsDigit(s[i])
  }

  function DigitValue(c: char): nat
    requires IsDigit(c)
  {
    c as int - '0' as int
  }

  function DigitChar(d: nat): (c: char)
    requires d < 10
    ensures IsDigit(c) && DigitValue(c) == d
  {
    ('0' as int + d) as char
  }

  /** The number a non-empty run of decimal digits denotes, most significant first. */
  function DigitsValue(s: string): nat
    requires AllDigits(s)
  {
    if |s| == 0 then 0 else DigitsValue(s[..|s| - 1]) * 10 + DigitValue(s[|s| - 1])
  }

  /** Python's `str(n)` for a non-negative integer: the shortest decimal spelling. */
  function NatToString(n: nat): (s: string)
    ensures |s| >= 1 && AllDigits(s)
    ensures DigitsValue(s) == n
    ensures |s| > 1 ==> s[0] != '0'
  {
    if n < 10 then [DigitChar(n)]
    else
      var prefix := NatToString(n / 10);
      var s := prefix + [DigitChar(n % 10)];
      assert s[..|s| - 1] == prefix;
      s
  }

  /** Python's `str(i)` for any integer. */
  function IntToString(i: int): (s: string)
    ensures |s| >= 1
    ensures '_' !in s && '.' !in s && '\n' !in s && ' ' !in s
    ensures i >= 0 <==> AllDigits(s)
  {
    if i < 0 then
      var s := "-" + NatToString(-i);
      assert !IsDigit(s[0]);
      s
    else
      NatToString(i)
  }

  lemma NatToStringInjective(a: nat, b: nat)
    requires NatToString(a) == NatToString(b)
    ensures a == b
  {
  }

  /** Distinct integers print differently, so `str` can serve as a join key. */
  lemma IntToStringInjective(a: int, b: int)
    requires IntToString(a) == IntToString(b)
    ensures a == b
  {
    if a < 0 && b < 0 {
      assert NatToString(-a) == IntToString(a)[1..];
      NatToStringInjective(-a, -b);
    } else if a >= 0 && b >= 0 {
      NatToStringInjective(a, b);
    }
  }

  // ---------------------------------------------------------------------------
  // Whitespace and Python's int()
  // ---------------------------------------------------------------------------

  /** `str.isspace()` on the ASCII range: tab, line feed, vertical tab, form
      feed, carriage return, the four information separators and space. */
  predicate IsSpace(c: char) {
    9 <= c as int <= 13 || 28 <= c as int <= 32
  }

  function StripLeft(s: string): (r: string)
    ensures |r| <= |s| && r == s[|s| - |r|..]
    ensures |r| > 0 ==> !IsSpace(r[0])
    ensures forall i | 0 <= i < |s| - |r| :: IsSpace(s[i])
  {
    if |s| > 0 && IsSpace(s[0]) then StripLeft(s[1..]) else s
  }

  function StripRight(s: string): (r: string)
    ensures |r| <= |s| && r == s[..|r|]
    ensures |r| > 0 ==> !IsSpace(r[|r| - 1])
    ensures forall i | |r| <= i < |s| :: IsSpace(s[i])
  {
    if |s| > 0 && IsSpace(s[|s| - 1]) then StripRight(s[..|s| - 1]) else s
  }

  /** Python's `str.strip()` with no argument. */
  function Strip(s: string): string {
    StripRight(StripLeft(s))
  }

  predicate NoSpace(s: string) {
    forall i | 0 <= i < |s| :: !IsSpace(s[i])
  }

  lemma StripNoSpace(s: string)
    requires NoSpace(s)
    ensures Strip(s) == s
  {
  }

  /** The body Python's `int()` accepts after the sign: ASCII digits, with single
      underscores allowed between two digits. */
  predicate DigitGroups(b: string) {
    && |b| > 0
    && IsDigit(b[0]) && IsDigit(b[|b| - 1])
    && (forall i | 0 <= i < |b| :: IsDigit(b[i]) || b[i] == '_')
    && (forall i | 0 <= i < |b| - 1 :: !(b[i] == '_' && b[i + 1] == '_'))
  }

  function RemoveUnderscores(b: string): (r: string)
    requires forall i | 0 <= i < |b| :: IsDigit(b[i]) || b[i] == '_'
    ensures AllDigits(r)
    ensures AllDigits(b) ==> r == b
  {
    if |b| == 0 then ""
    else (if b[0] == '_' then "" else [b[0]]) + RemoveUnderscores(b[1..])
  }

  function ParseDigitGroups(b: string): Option<nat> {
    if DigitGroups(b) then Some(DigitsValue(RemoveUnderscores(b))) else None
  }

  /** `int` after stripping: an optional sign, then digit groups. */
  function ParseSigned(t: string): Option<int> {
    if |t| > 0 && (t[0] == '+' || t[0] == '-') then
      match ParseDigitGroups(t[1..])
      case None => None
      case Some(v) => Some(if t[0] == '-' then -(v as int) else v as int)
    else
      match ParseDigitGroups(t)
      case None => None
      case Some(v) => Some(v)
  }

  /** The whitespace `int()` skips around a number. `int()` first turns
      every non-ASCII character that `str.isspace()` accepts into a space,
      then skips tab, line feed, vertical tab, form feed, carriage return and
      space. The information separators U+001C to U+001F are whitespace to
      `str.isspace()` but not to `int()`. */
  predicate IsIntSpace(c: char) {
    var n := c as int;
    || 9 <= n <= 13 || n == 32
    || n == 0x85 || n == 0xA0 || n == 0x1680
    || 0x2000 <= n <= 0x200A
    || n == 0x2028 || n == 0x2029 || n == 0x202F || n == 0x205F || n == 0x3000
  }

  function IntStripLeft(s: string): (r: string)
    ensures |r| <= |s| && r == s[|s| - |r|..]
    ensures |r| > 0 ==> !IsIntSpace(r[0])
    ensures forall i | 0 <= i < |s| - |r| :: IsIntSpace(s[i])
  {
    if |s| > 0 && IsIntSpace(s[0]) then IntStripLeft(s[1..]) else s
  }

  function IntStripRight(s: string): (r: string)
    ensures |r| <= |s| && r == s[..|r|]
    ensures |r| > 0 ==> !IsIntSpace(r[|r| - 1])
    ensures forall i | |r| <= i < |s| :: IsIntSpace(s[i])
  {
    if |s| > 0 && IsIntSpace(s[|s| - 1]) then IntStripRight(s[..|s| - 1]) else s
  }

  /** `s` without the whitespace `int()` skips at either end. */
  function IntStrip(s: string): string {
    IntStripRight(IntStripLeft(s))
  }

  /** Python's `int(s)` on a string: the whitespace `IsIntSpace` names is
      skipped at both ends, then an optional sign and a run of decimal
      digits. `None` stands for the `ValueError` it raises on anything else. */
  function ParseInt(s: string): Option<int>
    decreases |s|
  {
    if |s| > 0 && IsIntSpace(s[0]) then ParseInt(s[1..])
    else if |s| > 0 && IsIntSpace(s[|s| - 1]) then ParseInt(s[..|s| - 1])
    else ParseSigned(s)
  }

  lemma IntStripSkipsLeadingSpace(s: string)
    requires |s| > 0 && IsIntSpace(s[0])
    ensures IntStrip(s) == IntStrip(s[1..])
  {
    assert IntStripLeft(s) == IntStripLeft(s[1..]);
  }

  lemma IntStripSkipsTrailingSpace(s: string)
    requires |s| > 0 && !IsIntSpace(s[0]) && IsIntSpace(s[|s| - 1])
    ensures IntStrip(s) == IntStrip(s[..|s| - 1])
  {
    var t := s[..|s| - 1];
    assert IntStripLeft(s) == s;
    assert IntStripRight(s) == IntStripRight(t);
    assert IntStripLeft(t) == t by {
      if |t| > 0 {
        assert t[0] == s[0];
      }
    }
  }

  lemma IntStripOfTrimmed(s: string)
    requires |s| > 0 ==> !IsIntSpace(s[0]) && !IsIntSpace(s[|s| - 1])
    ensures IntStrip(s) == s
  {
    assert IntStripLeft(s) == s;
    assert IntStripRight(s) == s;
  }

  /** `int` reads what is left once its whitespace is stripped from both ends. */
  lemma {:induction false} ParseIntStrips(s: string)
    ensures ParseInt(s) == ParseSigned(IntStrip(s))
    decreases |s|
  {
    if |s| > 0 && IsIntSpace(s[0]) {
      ParseIntStrips(s[1..]);
      IntStripSkipsLeadingSpace(s);
    } else if |s| > 0 && IsIntSpace(s[|s| - 1]) {
      ParseIntStrips(s[..|s| - 1]);
      IntStripSkipsTrailingSpace(s);
    } else {
      IntStripOfTrimmed(s);
    }
  }

  /** `int` and `str.strip` disagree on whitespace: a leading information
      separator, which `str.strip` removes, makes `int` raise. */
  lemma ParseIntRejectsSeparator(digits: string)
    requires |digits| > 0 && AllDigits(digits)
    ensures IsSpace('\U{1c}') && Strip(['\U{1c}'] + digits) == digits
    ensures ParseInt(['\U{1c}'] + digits) == None
  {
    StripSeparator(digits);
    ParseSeparator(digits);
  }

  lemma StripSeparator(digits: string)
    requires |digits| > 0 && AllDigits(digits)
    ensures Strip(['\U{1c}'] + digits) == digits
  {
    var bad := ['\U{1c}'] + digits;
    assert bad[1..] == digits;
    assert StripLeft(bad) == StripLeft(digits);
    StripNoSpace(digits);
  }

  lemma ParseSeparator(digits: string)
    requires |digits| > 0 && AllDigits(digits)
    ensures ParseInt(['\U{1c}'] + digits) == None
  {
    var bad := ['\U{1c}'] + digits;
    assert !IsIntSpace(bad[0]) && !IsIntSpace(bad[|bad| - 1]);
    assert !DigitGroups(bad);
  }

  /** A leading no-break space, by contrast, is skipped by `int`. */
  lemma ParseIntSkipsNoBreakSpace(digits: string)
    requires |digits| > 0 && AllDigits(digits)
    ensures ParseInt(['\U{a0}'] + digits) == Some(DigitsValue(digits))
  {
    var good := ['\U{a0}'] + digits;
    assert good[1..] == digits;
    ParseIntDigits(digits);
  }

  /** A plain run of digits is one digit group. */
  lemma DigitGroupsOfDigits(s: string)
    requires |s| > 0 && AllDigits(s)
    ensures ParseDigitGroups(s) == Some(DigitsValue(s))
  {
  }

  lemma ParseSignedDigits(s: string)
    requires |s| > 0 && AllDigits(s)
    ensures ParseSigned(s) == Some(DigitsValue(s))
  {
    assert !(s[0] == '+' || s[0] == '-');
    DigitGroupsOfDigits(s);
  }

  /** A leading minus negates the digit groups after it. */
  lemma ParseSignedMinus(t: string, v: nat)
    requires |t| > 0 && t[0] == '-' && ParseDigitGroups(t[1..]) == Some(v)
    ensures ParseSigned(t) == Some(-(v as int))
  {
  }

  lemma ParseSignedNegative(t: string)
    requires |t| > 1 && t[0] == '-' && AllDigits(t[1..])
    ensures ParseSigned(t) == Some(-(DigitsValue(t[1..]) as int))
  {
    DigitGroupsOfDigits(t[1..]);
    ParseSignedMinus(t, DigitsValue(t[1..]));
  }

  /** Text that starts with a letter is no number. */
  lemma {:induction false} ParseIntOfLetter(s: string)
    requires |s| > 0 && 'a' <= s[0] <= 'z'
    ensures ParseInt(s) == None
    decreases |s|
  {
    if IsIntSpace(s[|s| - 1]) {
      assert s[..|s| - 1][0] == s[0];
      ParseIntOfLetter(s[..|s| - 1]);
    } else {
      assert !IsDigit(s[0]);
    }
  }

  /** `int` reads back what `str` wrote, also with leading zeros. */
  lemma ParseIntDigits(s: string)
    requires |s| > 0 && AllDigits(s)
    ensures ParseInt(s) == Some(DigitsValue(s))
  {
    ParseIntStrips(s);
    IntStripOfTrimmed(s);
    ParseSignedDigits(s);
  }

  /** `int` reads a minus sign followed by digits. */
  lemma ParseIntNegative(s: string)
    requires |s| > 1 && s[0] == '-' && AllDigits(s[1..])
    ensures ParseInt(s) == Some(-(DigitsValue(s[1..]) as int))
  {
    ParseIntStrips(s);
    IntStripOfTrimmed(s);
    ParseSignedNegative(s);
  }

  lemma ParseIntOfString(i: int)
    ensures ParseInt(IntToString(i)) == Some(i)
  {
    var s := IntToString(i);
    if i < 0 {
      var digits := NatToString(-i);
      assert s[0] == '-' && s[1..] == digits;
      ParseIntNegative(s);
    } else {
      ParseIntDigits(s);
    }
  }

  // ---------------------------------------------------------------------------
  // split / join
  // ---------------------------------------------------------------------------

  /** Index of the first `c` in `s`, or `|s|` when there is none. */
  function IndexOf(s: string, c: char): (k: nat)
    ensures k <= |s|
    ensures c !in s[..k]
    ensures k < |s| ==> s[k] == c
  {
    if |s| == 0 then 0
    else if s[0] == c then 0
    else
      var k := 1 + IndexOf(s[1..], c);
      assert s[..k] == [s[0]] + s[1..][..k - 1];
      k
  }

  /** An occurrence with none before it is the one `IndexOf` finds. */
  lemma {:induction false} IndexOfIsFirst(s: string, c: char, m: nat)
    requires m < |s| && s[m] == c && c !in s[..m]
    ensures IndexOf(s, c) == m
  {
    if m > 0 {
      assert s[0] == s[..m][0];
      assert s[1..][..m - 1] == s[1..m];
      assert s[1..m] == s[..m][1..];
      IndexOfIsFirst(s[1..], c, m - 1);
    }
  }

  /** `sep.join(parts)`. */
  function Join(parts: seq<string>, sep: char): string {
    if |parts| == 0 then ""
    else if |parts| == 1 then parts[0]
    else parts[0] + [sep] + Join(parts[1..], sep)
  }

  /** `s.split(sep)` for a one-character separator: always at least one part,
      and joining the parts back gives `s`. */
  function Split(s: string, sep: char): (parts: seq<string>)
    ensures |parts| >= 1
    ensures forall i | 0 <= i < |parts| :: sep !in parts[i]
    ensures Join(parts, sep) == s
    ensures parts[0] == s[..IndexOf(s, sep)]
    decreases |s|
  {
    var k := IndexOf(s, sep);
    if k == |s| then
      assert s[..k] == s;
      [s]
    else
      var rest := Split(s[k + 1..], sep);
      var parts := [s[..k]] + rest;
      assert parts[1..] == rest;
      assert s == s[..k] + [sep] + s[k + 1..];
      parts
  }

  lemma {:induction false} IndexOfAbsent(s: string, c: char)
    requires c !in s
    ensures IndexOf(s, c) == |s|
  {
    if |s| > 0 {
      IndexOfAbsent(s[1..], c);
    }
  }

  lemma {:induction false} IndexOfFirst(p: string, c: char, q: string)
    requires c !in p
    ensures IndexOf(p + [c] + q, c) == |p|
  {
    if |p| > 0 {
      assert (p + [c] + q)[1..] == p[1..] + [c] + q;
      IndexOfFirst(p[1..], c, q);
    }
  }

  /** A separator-free head and a separator come off as the first part. */
  lemma SplitCons(head: string, sep: char, tail: string)
    requires sep !in head
    ensures Split(head + [sep] + tail, sep) == [head] + Split(tail, sep)
  {
    var s := head + [sep] + tail;
    IndexOfFirst(head, sep, tail);
    assert s[..|head|] == head;
    assert s[|head| + 1..] == tail;
  }

  /** Splitting a join of separator-free parts gives the parts back. */
  lemma {:induction false} SplitJoin(parts: seq<string>, sep: char)
    requires |parts| >= 1
    requires forall i | 0 <= i < |parts| :: sep !in parts[i]
    ensures Split(Join(parts, sep), sep) == parts
  {
    if |parts| == 1 {
      IndexOfAbsent(parts[0], sep);
    } else {
      var head := parts[0];
      var tail := Join(parts[1..], sep);
      assert Join(parts, sep) == head + [sep] + tail;
      SplitCons(head, sep, tail);
      SplitJoin(parts[1..], sep);
      assert parts == [head] + parts[1..];
    }
  }

  // ---------------------------------------------------------------------------
  // Case-insensitive substring search
  // ---------------------------------------------------------------------------

  /** ASCII case folding; the model does not fold letters outside ASCII. */
  function LowerChar(c: char): char {
    if 'A' <= c <= 'Z' then (c as int + 32) as char else c
  }

  function Lower(s: string): (r: string)
    ensures |r| == |s|
  {
    seq(|s|, i requires 0 <= i < |s| => LowerChar(s[i]))
  }

  lemma LowerConcat(a: string, b: string)
    ensures Lower(a + b) == Lower(a) + Lower(b)
  {
  }

  /** Python's `p in s`. */
  predicate Contains(s: string, p: string)
    decreases |s|
  {
    IsPrefix(p, s) || (|s| > 0 && Contains(s[1..], p))
  }

  predicate IsPrefix(p: string, s: string) {
    |p| <= |s| && s[..|p|] == p
  }

  lemma ContainsOwnPrefix(p: string, t: string)
    ensures Contains(p + t, p)
  {
    assert (p + t)[..|p|] == p;
  }

  /** `s.endswith(suffix)`. */
  predicate EndsWith(s: string, suffix: string) {
    |suffix| <= |s| && s[|s| - |suffix|..] == suffix
  }

  // ---------------------------------------------------------------------------
  // Python's `<` on strings: code-point lexicographic order
  // ---------------------------------------------------------------------------

  predicate LexLess(a: string, b: string) {
    if |a| == 0 then |b| > 0
    else if |b| == 0 then false
    else if a[0] != b[0] then a[0] < b[0]
    else LexLess(a[1..], b[1..])
  }

  lemma {:induction false} LexLessIrreflexive(a: string)
    ensures !LexLess(a, a)
  {
    if |a| > 0 {
      LexLessIrreflexive(a[1..]);
    }
  }

  lemma {:induction false} LexLessTransitive(a: string, b: string, c: string)
    requires LexLess(a, b) && LexLess(b, c)
    ensures LexLess(a, c)
  {
    if |a| > 0 && |b| > 0 && |c| > 0 && a[0] == b[0] && b[0] == c[0] {
      LexLessTransitive(a[1..], b[1..], c[1..]);
    }
  }

  lemma {:induction false} LexLessTotal(a: string, b: string)
    ensures a == b || LexLess(a, b) || LexLess(b, a)
  {
    if |a| > 0 && |b| > 0 && a[0] == b[0] {
      LexLessTotal(a[1..], b[1..]);
      if a[1..] == b[1..] {
        assert a == [a[0]] + a[1..];
        assert b == [b[0]] + b[1..];
      }
    }
  }
}

=== FILE: transcript.dfy ===
/** Transcript rows and the (dialogue_index, line_index) range predicate that
    both the deletion rules of the editor and the split rules of the splitter
    are built on. */
module Transcript {
  import opened Wrappers

  /** One row of a chapter CSV: `chapter_index, chapter, dialogue_index,
      line_index, speaker, line`. Speaker and line are `None` where pandas
      reads an empty cell as NaN. */
  datatype Row = Row(
    chapterIndex: int,
    chapter: string,
    dial: int,
    line: int,
    speaker: Option<string>,
    text: Option<string>)

  /** A row's position: dialogue index first, line index second. */
  datatype Pos = Pos(dial: int, line: int)

  function PosOf(r: Row): Pos {
    Pos(r.dial, r.line)
  }

  /** Lexicographic `<=` on positions, written the way both sources spell it:
      `d < d' | (d == d' & l <= l')`. */
  predicate PosLe(a: Pos, b: Pos) {
    a.dial < b.dial || (a.dial == b.dial && a.line <= b.line)
  }

  lemma PosLeTotalOrder(a: Pos, b: Pos, c: Pos)
    ensures PosLe(a, a)
    ensures PosLe(a, b) || PosLe(b, a)
    ensures PosLe(a, b) && PosLe(b, a) ==> a == b
    ensures PosLe(a, b) && PosLe(b, c) ==> PosLe(a, c)
  {
  }

  /** A range exactly as it is written in a rule file: four integers. */
  datatype RawRange = RawRange(dialS: int, lineS: int, dialE: int, lineE: int) {
    function Start(): Pos {
      Pos(dialS, lineS)
    }

    function End(): Pos {
      Pos(dialE, lineE)
    }

    /** `dial_e == -1 and line_e == -1`, the splitter's "until the end" marker. */
    predicate IsSentinelEnd() {
      dialE == -1 && lineE == -1
    }
  }

  /** The deletion test: both bounds inclusive, no sentinel. */
  predicate InClosed(p: Pos, r: RawRange) {
    PosLe(r.Start(), p) && PosLe(p, r.End())
  }

  /** The end of a split range, with the sentinel made explicit. */
  datatype End = Closed(last: Pos) | OpenEnded

  datatype SplitRange = SplitRange(start: Pos, end: End)

  /** Reads a rule-file range as a split range: `(-1, -1)` as end means open-ended. */
  function ToSplitRange(r: RawRange): (s: SplitRange)
    ensures s.start == r.Start()
    ensures s.end.OpenEnded? <==> r.IsSentinelEnd()
    ensures s.end.Closed? ==> s.end.last == r.End()
  {
    SplitRange(r.Start(), if r.IsSentinelEnd() then OpenEnded else Closed(r.End()))
  }

  /** The split test: the start is inclusive, a closed end is inclusive, an
      open end admits every later position. */
  predicate InSplit(p: Pos, s: SplitRange) {
    PosLe(s.start, p) && (s.end.OpenEnded? || PosLe(p, s.end.last))
  }

  /** Away from the sentinel, splitting and deleting select the same positions. */
  lemma SplitAgreesWithDeleteOffSentinel(p: Pos, r: RawRange)
    requires !r.IsSentinelEnd()
    ensures InSplit(p, ToSplitRange(r)) <==> InClosed(p, r)
  {
  }

  /** With the sentinel, a split takes every position from the start on. */
  lemma SplitSentinelIsSuffix(p: Pos, r: RawRange)
    requires r.IsSentinelEnd()
    ensures InSplit(p, ToSplitRange(r)) <==> PosLe(r.Start(), p)
  {
  }

  /** A deletion range ending at `(-1, -1)` removes no row whose dialogue index
      is non-negative, even though the same range would split off the rest of
      the chapter. */
  lemma SentinelDeletesNothing(p: Pos, r: RawRange)
    requires r.IsSentinelEnd() && p.dial >= 0
    ensures !InClosed(p, r)
    ensures InSplit(p, ToSplitRange(r)) <==> PosLe(r.Start(), p)
  {
  }

  /** Rows are totally ordered by position, ascending: the producer's invariant. */
  predicate OrderedByPosition(rows: seq<Row>) {
    forall i, j | 0 <= i < j < |rows| :: PosLe(PosOf(rows[i]), PosOf(rows[j]))
  }
}

=== FILE: wrappers.dfy ===
/** Failure-compatible wrappers shared by every module of the model. */
module Wrappers {

  /** A value that may be absent: pandas' NaN cells and Python's None. */
  datatype Option<+T> = None | Some(value: T) {
    predicate IsFailure() {
      None?
    }

    function PropagateFailure<U>(): Option<U>
      requires None?
    {
      None
    }

    function Extract(): T
      requires Some?
    {
      value
    }
  }

  /** Either a value or the exception the Python code would raise. */
  datatype Result<+T, +E> = Ok(value: T) | Err(error: E) {
    predicate IsFailure() {
      Err?
    }

    function PropagateFailure<U>(): Result<U, E>
      requires Err?
    {
      Err(error)
    }

    function Extract(): T
      requires Ok?
    {
      value
    }
  }

  /** A loop that stops at the first error, seen one step at a time: if the
      first element succeeds with `y` and the rest succeed with `ys`, the
      whole input succeeds with `[y] + ys`, element by element. */
  lemma OkPointwiseCons<A, R, Er>(xs: seq<A>, y: R, ys: seq<R>, f: A -> Result<R, Er>)
    requires |xs| > 0 && f(xs[0]) == Ok(y) && |ys| == |xs| - 1
    requires forall i | 0 <= i < |ys| :: Ok(ys[i]) == f(xs[1..][i])
    ensures forall i | 0 <= i < |xs| :: Ok(([y] + ys)[i]) == f(xs[i])
  {
    forall i | 0 <= i < |xs|
      ensures Ok(([y] + ys)[i]) == f(xs[i])
    {
      if i > 0 {
        assert xs[i] == xs[1..][i - 1] && ([y] + ys)[i] == ys[i - 1];
      }
    }
  }
}
